=== FILE: README.md ===
# frontrow-md front end, modelled in Dafny

This project models the React front end of frontrow-md. The front end takes a
product URL and sends it for metadata extraction. It then follows the
extraction through a staged progress screen and lists the products that come
back. Users configure and request clinician reviews for a product, read and
edit those reviews, and manage drafts.

Each core source file is one Dafny module:

| Dafny file | source file (under `frontend/src/`) | form |
|---|---|---|
| `product_input_hook.dfy` | `features/productInput/hooks/useProductInput.ts` | class `ProductInputState` plus pure reduction and pagination |
| `processing_hook.dfy` | `features/processing/hooks/useProcessing.tsx` | pure classification and stage machine, class `ProcessingFlow` |
| `review_config.dfy` | `components/pages/ReviewConfiguration.tsx` | class `ReviewConfigState` plus pure list helpers |
| `product_data.dfy` | `components/pages/ProductData.tsx` | pure normalisation and cache rule, class `ProductDataPage` |
| `product_input_page.dfy` | `components/pages/ProductInput.tsx` | class `ProductInputPageState` |
| `product_input_v2.dfy` | `features/productInputv2/index.tsx` | class `ProductInputV2Form` |
| `url_canonical.dfy` | `formatUrl` and the `new URL` validation | pure |
| `review_results.dfy` | `components/pages/ReviewResults.tsx` | pure text helpers, class `ReviewResultsState` |
| `review_carousel.dfy` | `components/pages/Review.tsx` | pure |
| `product_home.dfy` | `features/product-home/index.tsx` | pure helpers, class `ProductHomeState` |
| `processing_page.dfy` | `components/pages/Processing.tsx` | class `ProcessingPageState` |
| `rejection_feedback.dfy` | `components/pages/RejectionFeedback.tsx` | class `RejectionFeedbackState` |

Some modules are shared helpers:

- `JsText` covers the JavaScript semantics the components rely on:
  - `||` over strings, where `""` is falsy;
  - `trim` and its whitespace set;
  - `startsWith`, `indexOf`;
  - number-to-string.
- `Recency` is the newest-first comparator sort (stable, as `Array.prototype.sort` is) and its top-n slice.
- `SessionStore` is the `processingProductIds` entry in `sessionStorage`.
- `Routes` lists the navigation targets.
- `Sequences` defines "subsequence of", which the filters are proved against.

How the outside world enters the model:

- **Network responses** are input datatypes. A method that completes a request takes the response as a parameter.
- **Timers** (`setInterval`, `setTimeout`) are methods that the environment calls when the timer fires.
- **The `URL` constructor** is a parameter, `protocolOf: string -> Option<string>`. `None` means the constructor throws.
- **The clock** is a parameter too (`now`).

## Model

| member | source | states |
|---|---|---|
| `ProductInputHook.Normalize` | frontend/src/features/productInput/hooks/useProductInput.ts:113-133 | the normalised record keeps the id and creation time, and is filed under the trimmed name, with ASCII letters lower-cased, taken from `product_name`, else the nested `product_info.product_name` |
| `ProductInputHook.ReduceCorrect` | frontend/src/features/productInput/hooks/useProductInput.ts:110-152 | the map holds exactly the names that occur among named records; under each name it keeps the newest record, and the first one to reach that time wins ties; keys are inserted once |
| `ProductInputHook.UniqueByNameCorrect` | frontend/src/features/productInput/hooks/useProductInput.ts:110-167 | the product list is newest first, has one record per name, covers every name that occurs, and holds only kept (newest) records |
| `ProductInputHook.ReduceByName` | frontend/src/features/productInput/hooks/useProductInput.ts:110-167 | the loop over the raw records computes exactly the deduplicated, sorted list |
| `Recency.SortIsNewestFirstPermutation` | frontend/src/features/productInput/hooks/useProductInput.ts:155-167 | the comparator sort yields a newest-first permutation of its input |
| `Recency.SortKeepsKeysDistinct` | frontend/src/features/productInput/hooks/useProductInput.ts:155-167 | sorting keeps one record per name and neither adds nor loses members |
| `Recency.SortIsStable` | frontend/src/features/productInput/hooks/useProductInput.ts:155-167 | the sort is stable: for every creation time, the records with that time keep their input order |
| `ProductInputHook.FoundUnfoundCounts` | frontend/src/features/productInput/hooks/useProductInput.ts:41-64 | the ids announced as live and the ids still pending together are the pending list, as a multiset |
| `ProductInputHook.NothingFoundKeepsAll` | frontend/src/features/productInput/hooks/useProductInput.ts:41-64 | when no pending id is listed, the pending list stays as it was |
| `ProductInputHook.InFoundIff` | frontend/src/features/productInput/hooks/useProductInput.ts:45-55 | an id stays pending iff it was pending and is not listed; it is announced iff it was pending and is listed, once per occurrence |
| `ProductInputHook.ReconcilePartition` | frontend/src/features/productInput/hooks/useProductInput.ts:41-64 | all of the above for every id: a partition of the pending ids by "listed" |
| `ProductInputHook.ScanPending` | frontend/src/features/productInput/hooks/useProductInput.ts:43-55 | the `forEach` loop leaves exactly the unlisted ids, one toast per listed id, and `foundAny` iff something was found |
| `ProductInputHook.TotalPagesIsCeiling` | frontend/src/features/productInput/hooks/useProductInput.ts:245 | the page count is the ceiling of products over page size: the pages cover every product with less than one page to spare, and there are zero pages only when there are no products |
| `ProductInputHook.PageIsWindow` | frontend/src/features/productInput/hooks/useProductInput.ts:246-249 | a page holds at most a page size of products, namely the window starting at `(page-1)*size`; a page past the end is empty |
| `ProductInputHook.EveryRecordOnItsPage` | frontend/src/features/productInput/hooks/useProductInput.ts:245-249 | product `i` appears at position `i % size` of page `i / size + 1`, and that page is within the page count |
| `ProductInputHook.PageMovesClamped` | frontend/src/features/productInput/hooks/useProductInput.ts:251-257 | "previous" never goes below page 1 and "next" never passes the last page; inside the range they move by one unless at an end |
| `SessionStore.ReadPendingIds` | frontend/src/features/productInput/hooks/useProductInput.ts:22-30 | a missing or non-list entry reads as no ids; a non-empty result is the stored list |
| `SessionStore.WritePendingIds` | frontend/src/features/productInput/hooks/useProductInput.ts:32-39 | reading after writing returns the written ids; the key is present iff the list is non-empty; every other key is untouched |
| `ProductInputHook.ProductInputState.constructor` | frontend/src/features/productInput/hooks/useProductInput.ts:8-20 | the hook's initial state: loading, page 1, nothing pending |
| `ProductInputHook.ProductInputState.GetProcessingIds` | frontend/src/features/productInput/hooks/useProductInput.ts:22-30 | returns the stored pending ids, and none when nothing is stored |
| `ProductInputHook.ProductInputState.UpdateProcessingIds` | frontend/src/features/productInput/hooks/useProductInput.ts:32-39 | state and storage both hold the new ids afterwards; an empty list removes the key; nothing else changes |
| `ProductInputHook.ProductInputState.LoadProcessingIds` | frontend/src/features/productInput/hooks/useProductInput.ts:66-71 | stored ids, when there are any, become the pending ids |
| `ProductInputHook.ProductInputState.PollForProcessedProducts` | frontend/src/features/productInput/hooks/useProductInput.ts:41-64 | nothing happens without pending ids; otherwise the pending ids become the unlisted ones, one toast is raised per listed id, storage is rewritten only when something was found, and polling stops once nothing is pending |
| `ProductInputHook.ProductInputState.StartFetch` | frontend/src/features/productInput/hooks/useProductInput.ts:73-84 | a request goes out iff the guard flag is clear; it is numbered in sending order and gets the controller, after the previous controller's request (if any) is aborted; every other unsettled request is left as it was, and a non-polling fetch sets loading |
| `ProductInputHook.ProductInputState.LoadList` | frontend/src/features/productInput/hooks/useProductInput.ts:110-174 | a fetched list becomes the deduplicated, newest-first products with no error; pending ids now listed are announced in order and dropped, the others stay pending; storage is rewritten only when something was found, and polling stops once nothing is pending; the page returns to 1 when the product count changed; the fetch flags are untouched |
| `ProductInputHook.ProductInputState.ApplyResponse` | frontend/src/features/productInput/hooks/useProductInput.ts:99-178 | the `try`/`catch` on a settled response: a good list is loaded as `LoadList` states, each failure sets its message, an abort sets none and leaves everything else, and the guard, loading flag, controller and outstanding requests are untouched |
| `ProductInputHook.ProductInputState.FinishFetch` | frontend/src/features/productInput/hooks/useProductInput.ts:73-183 | the settling request leaves the outstanding set; an aborted one settles as an abort whatever the server sent; a good list becomes the products (deduplicated and sorted) and is reconciled with the pending ids; a missing list, a refusal or a network error sets its message; an abort sets none; on every failure storage, polling, notices and the page stay as they were; the guard and the controller are always cleared and loading ends for a non-polling fetch, even when they belonged to a newer request, which then stays outstanding with no controller |
| `ProductInputHook.ProductInputState.EndFetch` | frontend/src/features/productInput/hooks/useProductInput.ts:179-183 | the guard and the controller are released, loading ends only for a non-polling fetch, nothing else changes |
| `ProductInputHook.ProductInputState.RunListEffect` | frontend/src/features/productInput/hooks/useProductInput.ts:186-196 | the effect fetches as `StartFetch` does (a non-polling request, numbered next, aborting the controller's request) and starts polling iff ids are stored |
| `ProductInputHook.ProductInputState.PollTick` | frontend/src/features/productInput/hooks/useProductInput.ts:189-195 | a poll tick fetches as `StartFetch` does, in polling mode, without touching the loading flag |
| `ProductInputHook.ProductInputState.CleanupListEffect` | frontend/src/features/productInput/hooks/useProductInput.ts:198-208 | cleanup aborts the current controller's request, which stays unsettled and keeps the controller, clears the guard and stops polling; no other request is touched |
| `ProductInputHook.ProductInputState.HandlePrevPage` | frontend/src/features/productInput/hooks/useProductInput.ts:251-253 | the page becomes the clamped previous page |
| `ProductInputHook.ProductInputState.HandleNextPage` | frontend/src/features/productInput/hooks/useProductInput.ts:255-257 | the page becomes the clamped next page, never beyond the page count |
| `ProductInputHook.ProductInputState.PaginatedProducts` | frontend/src/features/productInput/hooks/useProductInput.ts:246-249 | the visible page is `PageOf` the current page, the window `PageIsWindow` states, and never holds more than a page size of products |
| `ProductInputHook.ProductInputState.HandleSubmit` | frontend/src/features/productInput/hooks/useProductInput.ts:211-238 | blank input gives "Please enter a URL"; text the parser rejects gives "Please enter a valid URL"; otherwise the processing page opens with the URL, given `https://` unless its protocol starts with `http`; submitting always ends |
| `ProductInputHook.ProductInputState.EndSubmit` | frontend/src/features/productInput/hooks/useProductInput.ts:219-237 | the end of `handleSubmit`: the error is set, navigation happens only with a target, submitting ends, and nothing else changes |
| `ProductInputHook.SettledAs` | frontend/src/features/productInput/hooks/useProductInput.ts:175-178 | an aborted request settles as an abort whatever the server sent; any other settles with the response |
| `ProductInputHook.AbortCurrent` | frontend/src/features/productInput/hooks/useProductInput.ts:78-80 | aborting the controller marks exactly its request aborted and keeps the set of unsettled requests |
| `ProductInputHook.MountWithStoredIds` | frontend/src/features/productInput/hooks/useProductInput.ts:66-208 | mounting with stored ids sends request 0, the ids change re-runs the effect, whose cleanup aborts request 0 and whose re-run sends request 1 while request 0 is unsettled |
| `ProductInputHook.StoredIdsMountOverlaps` | frontend/src/features/productInput/hooks/useProductInput.ts:73-208 | when the aborted request 0 settles after request 1 was sent, its `finally` clears the guard, controller and loading flag, so the next poll tick sends request 2 beside request 1, and a later cleanup aborts only request 2: request 1 stays outstanding and unaborted with nothing showing loading |
| `ProcessingHook.NonOkErrorTextChain` | frontend/src/features/processing/hooks/useProcessing.tsx:66-89 | the error text as evidently intended (see Findings) is never empty; it follows the chain `error_message`, `message`, `detail`, then the status line for a JSON body; for a body that is not JSON it is the non-blank text, else "Server error (...)" |
| `ProcessingHook.TextFallbackUnreachable` | frontend/src/features/processing/hooks/useProcessing.tsx:66-89 | as written, a body that is not JSON always gives "Server error (<status>): <statusText>", because the body was already read by `response.json()`; it differs from the intended text for a 503 with body "upstream timeout", and agrees with it on every other kind of body |
| `ProcessingHook.FilledIffVisible` | frontend/src/features/processing/hooks/useProcessing.tsx:119-127 | "present and not blank after trim" is the same as "holds a non-space character" |
| `ProcessingHook.MeaningfulIffVisibleField` | frontend/src/features/processing/hooks/useProcessing.tsx:116-127 | the data is meaningful iff it has a visible name other than "Unknown Product", a visible description, an ingredient list with entries, or a visible image URL |
| `ProcessingHook.PlaceholderNameIsNotData` | frontend/src/features/processing/hooks/useProcessing.tsx:120-122 | the exact placeholder name with empty other fields is not data, but a padded placeholder name is |
| `ProcessingHook.Classify` | frontend/src/features/processing/hooks/useProcessing.tsx:91-138 | an extraction succeeds iff it reports success, carries a product id and has meaningful data, and then it yields that id; the failures are checked in the source's order, each with its own non-empty message: an unsuccessful extraction gives its error message or "Product extraction failed", a missing product id the no-id message, and data without meaningful content the no-data message |
| `ProcessingHook.Prefix` | frontend/src/features/processing/hooks/useProcessing.tsx:146 | the completed set `{0..n-1}` holds exactly the stage indices below `n` |
| `ProcessingHook.AdvanceKeepsPrefix` | frontend/src/features/processing/hooks/useProcessing.tsx:212-234 | each tick marks the current stage done, so the completed stages stay a prefix; the interval stops exactly after the last stage, leaving no current stage and all stages done |
| `ProcessingHook.RunFromStage` | frontend/src/features/processing/hooks/useProcessing.tsx:206-234 | from stage `k`, the remaining ticks end with every stage done and the interval cleared |
| `ProcessingHook.FreshRunCompletesAllStages` | frontend/src/features/processing/hooks/useProcessing.tsx:206-234 | four ticks from a fresh start end with stages {0,1,2,3} done and no current stage |
| `ProcessingHook.StageClassName` | frontend/src/features/processing/hooks/useProcessing.tsx:271-279 | the current stage is "stage processing", a completed one "stage done", any other "stage"; current wins over done |
| `ProcessingHook.StageClassesWhileRunning` | frontend/src/features/processing/hooks/useProcessing.tsx:212-279 | while stages run, every earlier stage shows as done, the current one as processing, and later ones as plain |
| `ProcessingHook.ProcessingFlow.constructor` | frontend/src/features/processing/hooks/useProcessing.tsx:11-23 | the URL parameter defaults to empty; status analyzing, "Initializing...", no current stage |
| `ProcessingHook.ProcessingFlow.RunEffect` | frontend/src/features/processing/hooks/useProcessing.tsx:26-39 | no URL sends the user to the failure page; otherwise the flow is scheduled only if the guard was not yet set, and the guard is set |
| `ProcessingHook.ProcessingFlow.StartStageProgression` | frontend/src/features/processing/hooks/useProcessing.tsx:200-212 | an existing interval is left alone; otherwise stage 0 becomes current and ticking starts |
| `ProcessingHook.ProcessingFlow.FlowTimerFires` | frontend/src/features/processing/hooks/useProcessing.tsx:41-63 | the delayed flow starts the stages and issues exactly one request |
| `ProcessingHook.ProcessingFlow.Tick` | frontend/src/features/processing/hooks/useProcessing.tsx:212-234 | a tick advances the stage snapshot by `Advance`; while it runs, the message is the current stage's |
| `ProcessingHook.ProcessingFlow.MarkComplete` | frontend/src/features/processing/hooks/useProcessing.tsx:140-162 | on success every stage is done and none is current, the interval is stopped, the extracted metadata is kept and the redirect is scheduled with the returned id; the invariant is kept and nothing else changes |
| `ProcessingHook.ProcessingFlow.CompleteFlow` | frontend/src/features/processing/hooks/useProcessing.tsx:66-177 | a refusal or a throw goes to the failure page with its message; a failed classification goes there with the URL and its reason; success completes every stage, stops the interval and schedules the success redirect |
| `ProcessingHook.ProcessingFlow.FailFlow` | frontend/src/features/processing/hooks/useProcessing.tsx:163-177 | the failure page gets the URL and the message, falling back to the generic text; the interval stops |
| `ProcessingHook.ProcessingFlow.RedirectFires` | frontend/src/features/processing/hooks/useProcessing.tsx:156-162 | after the delay the success page opens with the URL and the product id |
| `ProcessingHook.ProcessingFlow.Cleanup` | frontend/src/features/processing/hooks/useProcessing.tsx:189-197 | unmount clears the interval and the pending flow, and resets the guard |
| `ProcessingHook.StageClassesOfFlow` | frontend/src/features/processing/hooks/useProcessing.tsx:271-279 | on the hook's own fields, while the stages run with the completed set exactly the stages before the current one: every earlier stage renders as "stage done", the current one as "stage processing", any other index as "stage" |
| `ProcessingHook.GuardedEffectRunsOnce` | frontend/src/features/processing/hooks/useProcessing.tsx:36-39 | running the effect, running it again before the start delay fires, letting the delay fire and running it once more issues exactly one request and leaves no flow scheduled |
| `ProcessingHook.EffectCleanupEffectSendsOnce` | frontend/src/features/processing/hooks/useProcessing.tsx:188-196 | the re-run React performs (effect, cleanup, effect, then the delay fires) sends exactly one request and starts the stage display: the cleanup clears the first run's start delay and resets the guard |
| `ReviewConfig.Without` | frontend/src/components/pages/ReviewConfiguration.tsx:403-404 | deleting a tone removes every occurrence of it and keeps every other tone |
| `ReviewConfig.WithoutKeepsDistinct` | frontend/src/components/pages/ReviewConfiguration.tsx:401-409 | removal from a duplicate-free selection stays duplicate-free and shortens it by one exactly when the tone was there |
| `ReviewConfig.ToggleFlipsOnlyKey` | frontend/src/components/pages/ReviewConfiguration.tsx:401-409 | a click flips membership of that tone only, keeps the set duplicate-free, and two clicks restore the same set |
| `ReviewConfig.RemoveAtDeletesOne` | frontend/src/components/pages/ReviewConfiguration.tsx:446-449 | removing index `i` deletes exactly that link; an index out of range changes nothing |
| `ReviewConfig.NonBlankLinksFilter` | frontend/src/components/pages/ReviewConfiguration.tsx:475-477 | the payload's links are exactly the non-blank links, in their original order |
| `ReviewConfig.RegisterPendingKeepsDistinct` | frontend/src/components/pages/ReviewConfiguration.tsx:508-510 | the product id is added once, after the existing ids, only when absent; a duplicate-free list stays duplicate-free |
| `ReviewConfig.ReviewConfigState.constructor` | frontend/src/components/pages/ReviewConfiguration.tsx:36-47 | initial settings: 5 reviews, 80 to 120 words, no tones, no links |
| `ReviewConfig.ReviewConfigState.DecreaseReviews` | frontend/src/components/pages/ReviewConfiguration.tsx:377-381 | the count drops by one only above 1, so it stays within 1..20 |
| `ReviewConfig.ReviewConfigState.IncreaseReviews` | frontend/src/components/pages/ReviewConfiguration.tsx:383-387 | the count rises by one only below 20, so it stays within 1..20 |
| `ReviewConfig.ReviewConfigState.MinWordsChange` | frontend/src/components/pages/ReviewConfiguration.tsx:389-393 | a new minimum is taken only below the maximum, so minimum < maximum holds |
| `ReviewConfig.ReviewConfigState.MaxWordsChange` | frontend/src/components/pages/ReviewConfiguration.tsx:395-399 | a new maximum is taken only above the minimum, so minimum < maximum holds |
| `ReviewConfig.ReviewConfigState.PersonaClick` | frontend/src/components/pages/ReviewConfiguration.tsx:401-409 | the selection is toggled at that tone and stays duplicate-free |
| `ReviewConfig.ReviewConfigState.AddResearchLink` | frontend/src/components/pages/ReviewConfiguration.tsx:436-438 | one empty link is appended |
| `ReviewConfig.ReviewConfigState.UpdateResearchLink` | frontend/src/components/pages/ReviewConfiguration.tsx:440-444 | only the link at that index changes |
| `ReviewConfig.ReviewConfigState.RemoveResearchLink` | frontend/src/components/pages/ReviewConfiguration.tsx:446-449 | the links lose exactly the one at that index |
| `ReviewConfig.ReviewConfigState.BuildPayload` | frontend/src/components/pages/ReviewConfiguration.tsx:467-478 | the payload carries the product id, count, word limits and tones, and the non-blank links |
| `ReviewConfig.ReviewConfigState.Submit` | frontend/src/components/pages/ReviewConfiguration.tsx:451-478 | a missing product id, then an empty tone selection, each raise their alert and send nothing; otherwise generating starts and exactly that payload is sent |
| `ReviewConfig.ReviewConfigState.CompleteSubmit` | frontend/src/components/pages/ReviewConfiguration.tsx:490-521 | success with a task id registers the product id as pending in storage and opens the product home; anything else raises the failure alert; generating always ends |
| `ProductData.MapLabels` | frontend/src/components/pages/ProductData.tsx:71 | each ingredient maps to its name when it has one, else stays itself, position by position |
| `ProductData.NormalizePriorities` | frontend/src/components/pages/ProductData.tsx:65-75 | every field follows its fallback chain: the name, description and image URL take the nested value, then the flat one, then "Unnamed Product" or ""; the product URL takes the flat URL, then the nested source URL, then ""; a present nested ingredient list is used, even when empty, with each named object replaced by its name, else the flat list, else []; search queries fall back to search terms, research from the combined studies to the clinical research, clinician reviews from the nested list to the flat one, each else []; the id is copied |
| `ProductData.NormalizeIsFixpoint` | frontend/src/components/pages/ProductData.tsx:105-115 | normalising a normalised product, written back as a flat record, gives the same product: the normalisation is stable on its own output (no writer of the cache is part of this model, so this is not a claim about what the cache holds) |
| `ProductData.Find` | frontend/src/components/pages/ProductData.tsx:62 | a product is found iff one carries the id, and the result is such a product from the list |
| `ProductData.CacheFreshnessWindow` | frontend/src/components/pages/ProductData.tsx:55-60 | the cache is used iff both entries exist and now is less than 5000 ms past the stamp; once stale it stays stale |
| `ProductData.FailureMessage` | frontend/src/components/pages/ProductData.tsx:93-123 | each failure has its own non-empty message: status, no products, product not found, or the thrown message with its fallback |
| `ProductData.ProductDataPage.constructor` | frontend/src/components/pages/ProductData.tsx:38-45 | loading, no data, no error, not fetched |
| `ProductData.ProductDataPage.StartFetch` | frontend/src/components/pages/ProductData.tsx:49-91 | nothing happens without an id or after the first fetch; a fresh cache holding the product serves it and stops loading; a fresh cache that does not parse as a list ends the effect with no request and loading still set, since the parse error is thrown outside the `try`; in every other case exactly one request is sent |
| `ProductData.ProductDataPage.FinishFetch` | frontend/src/components/pages/ProductData.tsx:93-126 | the found product is normalised and shown, or the failure message is set; loading always ends |
| `ProductData.FetchRunsOnce` | frontend/src/components/pages/ProductData.tsx:51-52 | two effect runs send at most one request |
| `UrlCanonical.FormatUrlShape` | frontend/src/features/productInputv2/index.tsx:25-29 | an empty URL stays empty; any other is trimmed and carries an `http(s)://` scheme, added as `https://` only when missing |
| `UrlCanonical.FormatUrlIdempotent` | frontend/src/features/productInputv2/index.tsx:25-29 | formatting twice is formatting once |
| `UrlCanonical.FormatUrlAddsSchemeToBareHost` | frontend/src/features/productInputv2/index.tsx:26-28 | a trimmed host not starting with `h` gets `https://`; whitespace-only input passes the emptiness test and becomes a bare `https://` |
| `UrlCanonical.WithHttpSchemeShape` | frontend/src/components/pages/ProductInput.tsx:91-97 | the validated URL is unchanged iff its protocol starts with `http`, and otherwise gets `https://` |
| `JsText.TrimIsTrimmedSlice` | frontend/src/features/productInputv2/index.tsx:27 | trimming yields a contiguous slice with no whitespace at either end |
| `JsText.TrimIdempotent` | frontend/src/features/productInputv2/index.tsx:27 | trimming twice is trimming once |
| `JsText.BlankIffAllSpace` | frontend/src/features/productInputv2/index.tsx:42 | `!s.trim()` holds iff every character is whitespace |
| `JsText.NatToStringValue` | frontend/src/features/productInput/hooks/useProductInput.ts:100 | the decimal text a template literal prints for a status denotes that number, with no leading zero except for 0 |
| `ProductInputV2.ProductInputV2Form.HandleSubmit` | frontend/src/features/productInputv2/index.tsx:40-55 | a blank URL saves nothing; otherwise exactly one entry with the formatted URL and the text is appended, every saved URL keeps a scheme, and the success view shows |
| `ProductInputV2.ProductInputV2Form.ResetForm` | frontend/src/features/productInputv2/index.tsx:31-38 | the inputs clear and the success view closes; the saved entries stay |
| `ProductInputV2.ProductInputV2Form.HandleDone` | frontend/src/features/productInputv2/index.tsx:93-96 | the success view closes and the confirmation shows |
| `ProductInputV2.ProductInputV2Form.StartBatch` | frontend/src/features/productInputv2/index.tsx:59-75 | a request is sent iff something is saved, and it carries every saved entry |
| `ProductInputV2.ProductInputV2Form.FinishBatch` | frontend/src/features/productInputv2/index.tsx:76-90 | success opens the confirmation; a refusal raises its message or the default notice; a throw raises its message |
| `ProductInputV2.ProductInputV2Form.GoToDashboard` | frontend/src/features/productInputv2/index.tsx:98-101 | the product home opens |
| `ProductInputPage.RecentProductsAreNewestSix` | frontend/src/components/pages/ProductInput.tsx:41-49 | the recent list holds min(n, 6) products, newest first, all taken from the fetched list, none older than a product left out |
| `Recency.TakeNewestIsTopN` | frontend/src/components/pages/ProductInput.tsx:41-49 | sort then `slice(0, n)` is the n newest, newest first, drawn from the input |
| `ProductInputPage.NotOkMessage` | frontend/src/components/pages/ProductInput.tsx:119-132 | the refusal message is the body's `message`, else its `error`, else "Failed to process URL (status)"; never empty |
| `ProductInputPage.ProductInputPageState.FinishFetch` | frontend/src/components/pages/ProductInput.tsx:26-59 | a good response shows the six newest products and clears the error; a refusal or a throw sets its message; loading ends |
| `ProductInputPage.ProductInputPageState.Submit` | frontend/src/components/pages/ProductInput.tsx:82-115 | an empty field does nothing; text the parser rejects sets the validation message; otherwise the trimmed URL, with a scheme added when needed, is sent once |
| `ProductInputPage.ProductInputPageState.CompleteSubmit` | frontend/src/components/pages/ProductInput.tsx:119-148 | acceptance opens the processing page, with the product id only when one came back; a refusal or a throw sets the message and ends submitting |
| `ReviewResults.CarouselWraps` | frontend/src/components/pages/ReviewResults.tsx:153-161 | next and previous stay on the carousel, wrap at the ends, and undo each other |
| `ReviewResults.StripTags` | frontend/src/components/pages/ReviewResults.tsx:219 | removing tags never lengthens the text or introduces characters |
| `ReviewResults.StripTagsRemovesTags` | frontend/src/components/pages/ReviewResults.tsx:219 | no complete `<...>` tag survives, and text without `<` is unchanged |
| `ReviewResults.SplitGivesWords` | frontend/src/components/pages/ReviewResults.tsx:220-221 | every piece of the whitespace split of trimmed text is a non-empty run of non-space characters |
| `ReviewResults.SplitKeepsNonSpace` | frontend/src/components/pages/ReviewResults.tsx:220-221 | joined back together, the pieces are exactly the text's non-space characters, in order |
| `ReviewResults.CountWordsCountsWords` | frontend/src/components/pages/ReviewResults.tsx:217-222 | for text not blank once its tags are gone, the count equals the number of whitespace-separated words, counted independently as the non-space characters that open the text or follow white space; blank text has no words yet counts as 1; the pieces counted are non-empty, whitespace-free and hold all other characters in order |
| `ReviewResults.ShortTextIsFirstParagraph` | frontend/src/components/pages/ReviewResults.tsx:253-255 | the excerpt is the part before the first `</p>` with its first `<p>` removed, followed by "..." |
| `ReviewResults.EditedReview` | frontend/src/components/pages/ReviewResults.tsx:207-210 | the edited review differs from the original only in its text, which ends with the instructions and the closing quote and paragraph |
| `ReviewResults.ReviewResultsState.constructor` | frontend/src/components/pages/ReviewResults.tsx:21-36 | index 0, no modal open, nothing selected, no edit in progress, 100 words |
| `ReviewResults.ReviewResultsState.Next` | frontend/src/components/pages/ReviewResults.tsx:153-155 | the index moves forward with wrap-around and stays in range |
| `ReviewResults.ReviewResultsState.Prev` | frontend/src/components/pages/ReviewResults.tsx:157-161 | the index moves back with wrap-around and stays in range |
| `ReviewResults.ReviewResultsState.OpenModal` | frontend/src/components/pages/ReviewResults.tsx:163-166 | selects that review and opens its modal |
| `ReviewResults.ReviewResultsState.CloseModal` | frontend/src/components/pages/ReviewResults.tsx:168-171 | closes the modal and clears the selection |
| `ReviewResults.ReviewResultsState.AcceptReview` | frontend/src/components/pages/ReviewResults.tsx:173-177 | selects that review and opens the accept modal |
| `ReviewResults.ReviewResultsState.RejectReview` | frontend/src/components/pages/ReviewResults.tsx:179-183 | selects that review and opens the reject modal |
| `ReviewResults.ReviewResultsState.EditReview` | frontend/src/components/pages/ReviewResults.tsx:185-190 | records the edited index, selects that review and opens the edit modal |
| `ReviewResults.ReviewResultsState.HandleRejectSubmit` | frontend/src/components/pages/ReviewResults.tsx:192-197 | the reject modal gives way to its success modal; nothing else changes |
| `ReviewResults.ReviewResultsState.HandleEditSubmit` | frontend/src/components/pages/ReviewResults.tsx:199-215 | the edited copy of the review being edited is stored, and the edit modal gives way to its success modal |
| `ReviewResults.ReviewResultsState.ChangeInstructions` | frontend/src/components/pages/ReviewResults.tsx:625 | the edit instructions become the typed text; nothing else changes |
| `ReviewResults.ReviewResultsState.SelectWordCount` | frontend/src/components/pages/ReviewResults.tsx:612 | the selected target word count becomes the clicked one; nothing else changes |
| `ReviewResults.ReviewResultsState.CloseDialog` | frontend/src/components/pages/ReviewResults.tsx:429-659 | a dialog's own close control closes that dialog only; the selection, the edit state and the other dialogs stay as they were |
| `ReviewResults.EditRoundTrip` | frontend/src/components/pages/ReviewResults.tsx:187-215 | opening the edit dialog on a review, picking a count, typing instructions and submitting shows the edited copy of that review with that count and that text |
| `ReviewResults.ReviewResultsState.CloseAllModals` | frontend/src/components/pages/ReviewResults.tsx:257-268 | every modal closes and the selection, edit index, instructions and edited copy reset |
| `ReviewCarousel.CarouselMovesAreInverse` | frontend/src/components/pages/Review.tsx:84-90 | the conditional moves stay on the carousel, undo each other, and agree with the remainder arithmetic of the results page |
| `ReviewCarousel.DisabledWhereMovesDegenerate` | frontend/src/components/pages/Review.tsx:126-142 | while the buttons are disabled every move from any index stays put (one review), and with no reviews "previous" would leave the carousel; while they are enabled (two or more reviews) both moves change every index |
| `ProductHome.DraftRouteCarriesId` | frontend/src/features/product-home/index.tsx:216-221 | a draft with an error links to the failure page, any other to the success page, each carrying the draft's id |
| `ProductHome.WithoutProductRemovesExactly` | frontend/src/features/product-home/index.tsx:62-64 | deleting removes every draft with that id, keeps every other draft in order, and changes nothing when none matches |
| `ProductHome.ToggleOpenTwice` | frontend/src/features/product-home/index.tsx:80-84 | a click opens that dropdown unless it is open; two clicks restore the state only when no other dropdown was open, and otherwise close all |
| `ProductHome.PaginationControlsMatchPages` | frontend/src/features/product-home/index.tsx:186-201 | with nine per page, controls show iff there is more than one page; the buttons are disabled exactly where the clamped move stays put |
| `ProductHome.ProductHomeState.SelectTab` | frontend/src/features/product-home/index.tsx:136-144 | the chosen tab becomes active |
| `ProductHome.ProductHomeState.DraftsLoaded` | frontend/src/features/product-home/index.tsx:25-46 | a successful load replaces the drafts; a failed one leaves them |
| `ProductHome.ProductHomeState.DeleteProduct` | frontend/src/features/product-home/index.tsx:48-78 | an OK delete removes that product's drafts and closes the dropdown; a body reporting success raises its message; a throw changes nothing |
| `ProductHome.ProductHomeState.ToggleDropdown` | frontend/src/features/product-home/index.tsx:80-84 | the open dropdown toggles at that draft |
| `ProductHome.ProductHomeState.ClickOutside` | frontend/src/features/product-home/index.tsx:87-96 | a click elsewhere closes the dropdown |
| `ProcessingPage.FailureMessage` | frontend/src/components/pages/Processing.tsx:39-47 | there is no failure iff the response is OK with a task id; a refusal yields its body text or the default; a throw yields its message or the unknown-error text; never empty |
| `ProcessingPage.ProcessingPageState.constructor` | frontend/src/components/pages/Processing.tsx:11-16 | the URL parameter defaults to empty; status analyzing, no error, no tick |
| `ProcessingPage.ProcessingPageState.Mount` | frontend/src/components/pages/Processing.tsx:18-28 | no URL means the error status with its message and no request; otherwise analyzing and exactly one request; only allowed transitions |
| `ProcessingPage.ProcessingPageState.Settle` | frontend/src/components/pages/Processing.tsx:39-63 | success shows the tick, completes, and schedules "request sent"; a failure goes to the error status with the non-empty message |
| `ProcessingPage.ProcessingPageState.DelayFires` | frontend/src/components/pages/Processing.tsx:56-58 | after the delay the status is "request sent" |
| `ProcessingPage.HappyPath` | frontend/src/components/pages/Processing.tsx:18-67 | a URL and an accepted request end in "request sent" with one request and no error |
| `RejectionFeedback.ExactlyOnePanelActive` | frontend/src/components/pages/RejectionFeedback.tsx:24-59 | exactly one of the three panels carries the active class: the current state's |
| `RejectionFeedback.RejectionFeedbackState.constructor` | frontend/src/components/pages/RejectionFeedback.tsx:8-9 | the input state with empty text |
| `RejectionFeedback.RejectionFeedbackState.ChangeText` | frontend/src/components/pages/RejectionFeedback.tsx:38 | the text follows the textarea |
| `RejectionFeedback.RejectionFeedbackState.HandleSubmit` | frontend/src/components/pages/RejectionFeedback.tsx:11-21 | the text is submitted once, the saving panel shows, and one timer is pending |
| `RejectionFeedback.RejectionFeedbackState.TimerFires` | frontend/src/components/pages/RejectionFeedback.tsx:18-20 | the timer fires only after a submit and shows the success panel |

## Findings

| source | as written | input that shows it | evidently intended | confidence | as-written member | corrected member |
|---|---|---|---|---|---|---|
| frontend/src/features/processing/hooks/useProcessing.tsx:68-86 | `response.json()` consumes the body before it fails to parse, so the `response.text()` in the `catch` always rejects and the error is always "Server error (<status>): <statusText>" | a 503 response "Service Unavailable" whose body is the plain text "upstream timeout" | the non-blank body text "upstream timeout" becomes the error message | high (per section 5 of the Fetch standard, a disturbed body cannot be read again); not executed | `ProcessingHook.TextFallbackUnreachable` | `ProcessingHook.NonOkErrorTextChain` |

## Left out

- I/O is not modelled as such: HTTP requests, `sessionStorage`/`localStorage` access, `console` logging, toasts and `alert` become response parameters, a map field and appended message lists. Loading toasts and their dismissals are dropped.
- `Date.now()`, `new Date(...).getTime()` and NaN are not modelled. Creation times are integers already converted to milliseconds, and the clock is a parameter.
- Regular expressions become the character-level functions `StripTags`, `SplitFrom` and `HasHttpScheme`. Their whitespace is `IsSpace`, the ECMAScript WhiteSpace and LineTerminator characters that `trim` and `\s` use.
- `ProductInputHook.Normalize` folds only ASCII 'A'..'Z' when it builds the name key. JavaScript's `toLowerCase` folds every cased Unicode character, so names such as "CRÈME" and "crème" share one key in the source but get two keys here. The reduction's properties hold for the ASCII key as stated.
- `new URL(...)` is a parameter. Its parsing rules are not part of this model.
- JSON parsing is an input datatype. A stored pending-id value that parses to a non-array JSON value, and a body that is not JSON, become `NotIdList`/`None` cases.
- `ReviewConfig.ReviewConfigState.CompleteSubmit` reads a stored pending-id value that is JSON but not an array as no ids and registers the product id. In the source, `processingIds.includes` or `push` then throws on that value, and the outer `catch` shows the failure alert without navigating (ReviewConfiguration.tsx:499-518).
- Rendering, CSS, DOM measurement and scroll locking are not modelled. This includes `updateCarousel`, the body-overflow effects and the icon rendering of `renderStageIcon`.
- Persona info modals, the description toggle and the search-term toggle of ProductData are not modelled. They are pure view state.
- `handleProductClick` in useProductInput.ts is not modelled. It only navigates to the product-data page.
- The polling `setInterval`s of ProductInput.tsx (every 5 s, and after `?fetch=true`) are not modelled. Each one only calls the modelled fetch again.
- The list ReviewResults.tsx shows is hard-coded there. It is a constructor parameter here and must be non-empty.
- Review.tsx's `openModal`/`closeModal` are plain setters and are not modelled.
- `ProductHome.ProductHomeState.DraftsLoaded` takes an optional list. A response without `product_drafts` would set `undefined` and break rendering; the model treats it as a failed load.
- `ReviewConfig.ReviewConfigState.UpdateResearchLink` requires an index inside the list. The page only passes existing indices, and JavaScript would otherwise extend the array with holes.
- `RejectionFeedback.RejectionFeedbackState.HandleSubmit` requires non-empty text. The textarea is `required`, so the browser blocks an empty submit.
- `ProcessingHook.ProcessingFlow.CompleteFlow` navigates a non-OK response with the corrected `NonOkErrorText`, not with the as-written text. For a body that is not JSON the source always reports "Server error (<status>): <statusText>", while the model reports the body text when it is not blank (see Findings). On every other body the two agree (`ProcessingHook.TextFallbackUnreachable`).
- `ProductInputHook.ProductInputState.FinishFetch` reconciles against the current pending ids. The source reads them through the closure of the render that started the fetch, which can be stale.
- `PRODUCTS_PER_PAGE` is defined outside the core and is a parameter here. `ProductHome.PaginationControlsMatchPages` fixes it at nine, the threshold the home page uses.
- The unused `wordCount` in `handleEditSubmit` is not modelled.
- In ProductInput.tsx a successful submit leaves `isSubmitting` set, as in the source: the page navigates away.

=== FILE: jstext.dfy ===
/**
 * The handful of JavaScript string semantics the front end relies on:
 * truthiness of optional strings (`a || b`), `String.prototype.trim`,
 * `startsWith`, first-occurrence search (`split(p)[0]`, `replace(p, "")`)
 * and decimal rendering of status codes in template literals.
 */
module JsText {

  datatype Option<+T> = None | Some(value: T)

  /** A JavaScript value read from JSON that is truthy: present and, for strings, non-empty. */
  predicate Truthy(o: Option<string>) {
    o.Some? && o.value != ""
  }

  /** `a || b` over two optional strings: the first truthy one, else `b`. */
  function Or(a: Option<string>, b: Option<string>): (r: Option<string>)
    ensures Truthy(a) ==> r == a
    ensures !Truthy(a) ==> r == b
  {
    if Truthy(a) then a else b
  }

  /** `a || fallback` when the fallback is a string literal. */
  function OrElse(a: Option<string>, fallback: string): (r: string)
    ensures Truthy(a) ==> r == a.value
    ensures !Truthy(a) ==> r == fallback
  {
    if Truthy(a) then a.value else fallback
  }

  /** The characters JavaScript's `trim` strips and the regex class `\s` matches. */
  predicate IsSpace(c: char) {
    c == ' ' || c == '\t' || c == '\n' || c == '\r' || c == '\U{0B}' || c == '\U{0C}'
    || c == '\U{A0}' || c == '\U{1680}' || ('\U{2000}' <= c <= '\U{200A}')
    || c == '\U{2028}' || c == '\U{2029}' || c == '\U{202F}' || c == '\U{205F}'
    || c == '\U{3000}' || c == '\U{FEFF}'
  }

  function TrimStart(s: string): (r: string)
    ensures |r| <= |s| && r == s[|s| - |r|..]
    ensures r != [] ==> !IsSpace(r[0])
    ensures forall i :: 0 <= i < |s| - |r| ==> IsSpace(s[i])
  {
    if s != [] && IsSpace(s[0]) then TrimStart(s[1..]) else s
  }

  function TrimEnd(s: string): (r: string)
    ensures |r| <= |s| && r == s[..|r|]
    ensures r != [] ==> !IsSpace(r[|r| - 1])
    ensures forall i :: |r| <= i < |s| ==> IsSpace(s[i])
  {
    if s != [] && IsSpace(s[|s| - 1]) then TrimEnd(s[..|s| - 1]) else s
  }

  /** `s.trim()` */
  function Trim(s: string): string {
    TrimEnd(TrimStart(s))
  }

  /** A string with no leading and no trailing white space. */
  predicate IsTrimmed(s: string) {
    s == [] || (!IsSpace(s[0]) && !IsSpace(s[|s| - 1]))
  }

  /** `s.trim() === ""` (also `!s.trim()`). */
  predicate IsBlank(s: string) {
    Trim(s) == []
  }

  lemma TrimStartOfTrimmed(s: string)
    requires s == [] || !IsSpace(s[0])
    ensures TrimStart(s) == s
  {
  }

  lemma TrimEndOfTrimmed(s: string)
    requires s == [] || !IsSpace(s[|s| - 1])
    ensures TrimEnd(s) == s
  {
  }

  /** What `trim` returns is a slice of its input with the white space removed from both ends. */
  lemma {:induction false} TrimIsTrimmedSlice(s: string)
    ensures IsTrimmed(Trim(s))
    ensures exists i, j :: 0 <= i <= j <= |s| && Trim(s) == s[i..j]
  {
    var t := TrimStart(s);
    var r := TrimEnd(t);
    assert r == Trim(s);
    if r != [] {
      assert r[0] == t[0];
    }
    var i := |s| - |t|;
    assert t == s[i..];
    assert r == s[i..i + |r|];
  }

  /** Trimming twice is trimming once. */
  lemma {:induction false} TrimIdempotent(s: string)
    ensures Trim(Trim(s)) == Trim(s)
  {
    TrimIsTrimmedSlice(s);
    var r := Trim(s);
    TrimStartOfTrimmed(r);
    TrimEndOfTrimmed(r);
  }

  /** A string is blank exactly when every character of it is white space. */
  lemma {:induction false} BlankIffAllSpace(s: string)
    ensures IsBlank(s) <==> forall i :: 0 <= i < |s| ==> IsSpace(s[i])
  {
    var t := TrimStart(s);
    if !(forall i :: 0 <= i < |s| ==> IsSpace(s[i])) {
      var k :| 0 <= k < |s| && !IsSpace(s[k]);
      assert k >= |s| - |t|;
      assert t[k - (|s| - |t|)] == s[k];
    }
  }

  /** `s.startsWith(p)` */
  predicate StartsWith(s: string, p: string) {
    |p| <= |s| && s[..|p|] == p
  }

  /** `p` occurs in `s` at position `i`. */
  predicate OccursAt(s: string, p: string, i: int) {
    0 <= i && i + |p| <= |s| && s[i..i + |p|] == p
  }

  /** The position of the first occurrence of `p` in `s` (`indexOf`), if any. */
  function IndexOf(s: string, p: string): (r: Option<nat>)
    ensures r.Some? ==> OccursAt(s, p, r.value)
    ensures r.Some? ==> forall j :: 0 <= j < r.value ==> !OccursAt(s, p, j)
    ensures r.None? ==> forall j :: 0 <= j <= |s| ==> !OccursAt(s, p, j)
    decreases |s|
  {
    if |p| > |s| then None
    else if s[..|p|] == p then Some(0)
    else
      match IndexOf(s[1..], p)
      case None =>
        assert forall j :: 1 <= j <= |s| ==> (OccursAt(s, p, j) <==> OccursAt(s[1..], p, j - 1));
        None
      case Some(k) =>
        assert forall j :: 1 <= j <= k ==> (OccursAt(s, p, j) <==> OccursAt(s[1..], p, j - 1));
        Some(k + 1)
  }

  /** `s.split(p)[0]` for a non-empty separator: everything before the first occurrence. */
  function BeforeFirst(s: string, p: string): string
    requires p != []
  {
    match IndexOf(s, p)
    case None => s
    case Some(i) => s[..i]
  }

  /** `s.replace(p, "")` with a string pattern: only the first occurrence is removed. */
  function RemoveFirst(s: string, p: string): string {
    match IndexOf(s, p)
    case None => s
    case Some(i) => s[..i] + s[i + |p|..]
  }

  function DigitChar(d: nat): char
    requires d < 10
  {
    "0123456789"[d]
  }

  /** Decimal rendering of a natural number, as a template literal prints it. */
  function NatToString(n: nat): (r: string)
    ensures r != []
    ensures forall i :: 0 <= i < |r| ==> '0' <= r[i] <= '9'
  {
    if n < 10 then [DigitChar(n)] else NatToString(n / 10) + [DigitChar(n % 10)]
  }

  /** The number a string of decimal digits denotes. */
  function DecimalValue(s: string): nat
    requires forall i :: 0 <= i < |s| ==> '0' <= s[i] <= '9'
  {
    if s == [] then 0 else DecimalValue(s[..|s| - 1]) * 10 + (s[|s| - 1] as int - '0' as int)
  }

  lemma DigitCharValue(d: nat)
    requires d < 10
    ensures DigitChar(d) as int - '0' as int == d
  {
    if d < 5 {
      assert d == 0 || d == 1 || d == 2 || d == 3 || d == 4;
    } else {
      assert d == 5 || d == 6 || d == 7 || d == 8 || d == 9;
    }
  }

  /** The rendering denotes `n`, with no leading zero except for 0 itself. */
  lemma {:induction false} NatToStringValue(n: nat)
    ensures DecimalValue(NatToString(n)) == n
    ensures NatToString(n)[0] == '0' ==> n == 0
    decreases n
  {
    if n < 10 {
      DigitCharValue(n);
    } else {
      var r := NatToString(n);
      NatToStringValue(n / 10);
      DigitCharValue(n % 10);
      assert r[..|r| - 1] == NatToString(n / 10);
      assert r[0] == NatToString(n / 10)[0];
    }
  }
}

=== FILE: processing_hook.dfy ===
/**
 * The extraction flow of the processing page
 * (frontend/src/features/processing/hooks/useProcessing.tsx): the once-per-mount
 * request guard, the error text chosen for a failed response, the ordered
 * classification of an extraction result, and the four-stage progress display
 * driven by a 3-second interval.
 */
module ProcessingHook {
  import opened JsText
  import opened Routes

  /** The number of display stages: fetch, extract, analyze, finalize. */
  const StageCount := 4

  const NoUrlMessage := "No product URL was provided."
  const ExtractionFailedMessage := "Product extraction failed"
  const NoIdMessage := "Product extraction completed but no product ID was generated. Please try again."
  const NoDataMessage := "Product extraction completed but no meaningful product data was found. This might be due to the website's structure or anti-bot protection. Please try a different product URL."
  const UnexpectedMessage := "An unexpected error occurred during processing"
  const CompleteMessage := "Analysis complete! Redirecting to review page..."
  const UnknownProduct := "Unknown Product"

  // ------------------------------------------------------- error text chain

  /** The body of a non-OK response. */
  datatype ErrorBody =
    | JsonBody(errorMessage: Option<string>, message: Option<string>, detail: Option<string>)
    | TextBody(text: string)   // arrived, but is not JSON; this is its raw text
    | NoBody                   // could not be read at all

  /**
   * The error text as the code is written. `response.json()` reads the body
   * before it fails to parse it, and a body that has been read cannot be read
   * again (section 5 of the Fetch standard: the body is "disturbed"), so the
   * `response.text()` that follows always rejects and a body that is not JSON
   * always ends in `Server error (<status>): <statusText>`.
   */
  function NonOkErrorTextAsWritten(status: nat, statusText: string, body: ErrorBody): string
  {
    match body
    case JsonBody(e, m, d) =>
      OrElse(Or(Or(e, m), d), "HTTP " + NatToString(status) + ": " + statusText)
    case TextBody(_) =>
      "Server error (" + NatToString(status) + "): " + statusText
    case NoBody =>
      "Server error (" + NatToString(status) + "): " + statusText
  }

  /**
   * The text of a non-JSON body never reaches the message as written: the text
   * fallback is dead code, and the intended error text differs from the actual
   * one for every non-blank text body, for example a 503 whose body is
   * "upstream timeout". For JSON bodies and unreadable ones the two agree.
   */
  lemma TextFallbackUnreachable(status: nat, statusText: string, body: ErrorBody)
    ensures body.TextBody? ==>
              NonOkErrorTextAsWritten(status, statusText, body) == "Server error (" + NatToString(status) + "): " + statusText
    ensures !body.TextBody? ==> NonOkErrorTextAsWritten(status, statusText, body) == NonOkErrorText(status, statusText, body)
    ensures NonOkErrorText(503, "Service Unavailable", TextBody("upstream timeout")) == "upstream timeout"
    ensures NonOkErrorTextAsWritten(503, "Service Unavailable", TextBody("upstream timeout"))
            != NonOkErrorText(503, "Service Unavailable", TextBody("upstream timeout"))
  {
    var t := "upstream timeout";
    TrimStartOfTrimmed(t);
    TrimEndOfTrimmed(t);
    assert Trim(t) == t;
    var server := "Server error (" + NatToString(503) + "): " + "Service Unavailable";
    assert server[0] == 'S';
    assert NonOkErrorTextAsWritten(503, "Service Unavailable", TextBody(t)) == server;
  }

  /**
   * The message of the error thrown for a non-OK response as evidently
   * intended: the first truthy of `error_message`, `message`, `detail`, else
   * `HTTP <status>: <statusText>`; for a body that is not JSON, its text when
   * not blank; otherwise `Server error (<status>): <statusText>`.
   */
  function NonOkErrorText(status: nat, statusText: string, body: ErrorBody): (r: string)
  {
    match body
    case JsonBody(e, m, d) =>
      OrElse(Or(Or(e, m), d), "HTTP " + NatToString(status) + ": " + statusText)
    case TextBody(t) =>
      if t != "" && !IsBlank(t) then t else "Server error (" + NatToString(status) + "): " + statusText
    case NoBody =>
      "Server error (" + NatToString(status) + "): " + statusText
  }

  /**
   * The chain picks the first truthy JSON field in order, falls back to the
   * status line only when all three are falsy, and never yields an empty
   * message, so the generic "unexpected error" text is never reached from it.
   */
  lemma NonOkErrorTextChain(status: nat, statusText: string, body: ErrorBody)
    ensures NonOkErrorText(status, statusText, body) != ""
    ensures body.JsonBody? && Truthy(body.errorMessage) ==> NonOkErrorText(status, statusText, body) == body.errorMessage.value
    ensures body.JsonBody? && !Truthy(body.errorMessage) && Truthy(body.message) ==>
              NonOkErrorText(status, statusText, body) == body.message.value
    ensures body.JsonBody? && !Truthy(body.errorMessage) && !Truthy(body.message) && Truthy(body.detail) ==>
              NonOkErrorText(status, statusText, body) == body.detail.value
    ensures body.JsonBody? && !Truthy(body.errorMessage) && !Truthy(body.message) && !Truthy(body.detail) ==>
              NonOkErrorText(status, statusText, body) == "HTTP " + NatToString(status) + ": " + statusText
    ensures body.TextBody? && !IsBlank(body.text) ==> NonOkErrorText(status, statusText, body) == body.text
    ensures body.TextBody? && IsBlank(body.text) ==>
              NonOkErrorText(status, statusText, body) == "Server error (" + NatToString(status) + "): " + statusText
  {
    if body.TextBody? && body.text == "" {
      assert Trim(body.text) == [];
    }
  }

  // ------------------------------------------------------- classification

  datatype ProductInfo = ProductInfo(
    productName: Option<string>,
    productDescription: Option<string>,
    ingredients: Option<seq<string>>,
    productImageUrl: Option<string>)

  datatype Metadata = Metadata(productId: Option<string>, productInfo: Option<ProductInfo>)

  /** The JSON body of an OK extraction response. */
  datatype ExtractionResult = ExtractionResult(succeed: bool, errorMessage: Option<string>, metadata: Option<Metadata>)

  /** A string field that is present and not blank. */
  predicate Filled(o: Option<string>) {
    Truthy(o) && Trim(o.value) != ""
  }

  /** The extraction found something: a real name, a description, an ingredient or an image. */
  predicate HasMeaningfulData(info: Option<ProductInfo>) {
    info.Some? &&
    ((Filled(info.value.productName) && info.value.productName.value != UnknownProduct)
     || Filled(info.value.productDescription)
     || (info.value.ingredients.Some? && |info.value.ingredients.value| > 0)
     || Filled(info.value.productImageUrl))
  }

  /** Some character is not white space. */
  predicate HasVisibleChar(o: Option<string>) {
    o.Some? && exists i :: 0 <= i < |o.value| && !IsSpace(o.value[i])
  }

  lemma FilledIffVisible(o: Option<string>)
    ensures Filled(o) <==> HasVisibleChar(o)
  {
    if o.Some? {
      BlankIffAllSpace(o.value);
    }
  }

  /**
   * Data is meaningful exactly when the info is present and some text field
   * holds a non-white-space character (for the name, while not being exactly
   * "Unknown Product") or the ingredient list is non-empty.
   */
  lemma MeaningfulIffVisibleField(info: Option<ProductInfo>)
    ensures HasMeaningfulData(info) <==>
              info.Some? &&
              ((HasVisibleChar(info.value.productName) && info.value.productName.value != UnknownProduct)
               || HasVisibleChar(info.value.productDescription)
               || (info.value.ingredients.Some? && info.value.ingredients.value != [])
               || HasVisibleChar(info.value.productImageUrl))
  {
    if info.Some? {
      FilledIffVisible(info.value.productName);
      FilledIffVisible(info.value.productDescription);
      FilledIffVisible(info.value.productImageUrl);
    }
  }

  /**
   * The placeholder name alone is not meaningful, but the comparison is exact:
   * the same name with surrounding spaces counts as a real name.
   */
  lemma PlaceholderNameIsNotData()
    ensures !HasMeaningfulData(Some(ProductInfo(Some(UnknownProduct), None, Some([]), Some("  "))))
    ensures HasMeaningfulData(Some(ProductInfo(Some(" " + UnknownProduct), None, None, None)))
  {
    var padded := " " + UnknownProduct;
    assert !IsSpace(padded[1]);
    FilledIffVisible(Some(padded));
    FilledIffVisible(Some("  "));
    FilledIffVisible(Some(UnknownProduct));
    assert padded != UnknownProduct;
  }

  datatype Outcome = Failed(error: string) | Succeeded(productId: string)

  /**
   * The ordered checks on an OK response: not succeeded, then no product id,
   * then no meaningful data, then success with the returned id.
   */
  function Classify(r: ExtractionResult): (o: Outcome)
    ensures o.Succeeded? <==>
              r.succeed && r.metadata.Some? && Truthy(r.metadata.value.productId)
              && HasMeaningfulData(r.metadata.value.productInfo)
    ensures o.Succeeded? ==> r.metadata.Some? && r.metadata.value.productId == Some(o.productId)
    ensures !r.succeed ==> o == Failed(OrElse(r.errorMessage, ExtractionFailedMessage))
    ensures r.succeed && !(r.metadata.Some? && Truthy(r.metadata.value.productId)) ==> o == Failed(NoIdMessage)
    ensures (r.succeed && r.metadata.Some? && Truthy(r.metadata.value.productId)
             && !HasMeaningfulData(r.metadata.value.productInfo)) ==> o == Failed(NoDataMessage)
    ensures o.Failed? ==> o.error != ""
  {
    if !r.succeed then Failed(OrElse(r.errorMessage, ExtractionFailedMessage))
    else if r.metadata.None? || !Truthy(r.metadata.value.productId) then Failed(NoIdMessage)
    else if !HasMeaningfulData(r.metadata.value.productInfo) then Failed(NoDataMessage)
    else Succeeded(r.metadata.value.productId.value)
  }

  // ------------------------------------------------------- stage progress

  /** The stages before `n`. */
  function Prefix(n: int): (r: set<int>)
    ensures forall i :: i in r <==> 0 <= i < n
    decreases n
  {
    if n <= 0 then {} else Prefix(n - 1) + {n - 1}
  }

  /** The interval's view of the display: its counter, the current stage, the completed set, whether it ticks. */
  datatype Progress = Progress(tickIndex: int, current: int, completed: set<int>, ticking: bool)

  /** The state `startStageProgression` sets up on a fresh display. */
  const Fresh := Progress(0, 0, {}, true)

  /** One interval tick: complete the counter's stage and advance, stopping after the last stage. */
  function Advance(p: Progress): Progress {
    var completed := p.completed + {p.tickIndex};
    var next := p.tickIndex + 1;
    if next < StageCount then Progress(next, next, completed, true)
    else Progress(next, -1, completed, false)
  }

  /** While the interval runs, the completed stages are exactly those before the current one. */
  ghost predicate ExactPrefix(p: Progress) {
    p.ticking ==> 0 <= p.current < StageCount && p.tickIndex == p.current && p.completed == Prefix(p.current)
  }

  /**
   * A tick keeps the completed set equal to the prefix before the current
   * stage, and the tick that completes the last stage leaves every stage
   * completed, no current stage and the interval stopped.
   */
  lemma AdvanceKeepsPrefix(p: Progress)
    requires ExactPrefix(p) && p.ticking
    ensures ExactPrefix(Advance(p))
    ensures Advance(p).completed == Prefix(p.current + 1)
    ensures !Advance(p).ticking <==> p.current == StageCount - 1
    ensures !Advance(p).ticking ==> Advance(p).current == -1 && Advance(p).completed == Prefix(StageCount)
  {
    assert Prefix(p.current) + {p.current} == Prefix(p.current + 1);
  }

  /** `n` ticks. */
  function AdvanceN(p: Progress, n: nat): Progress
    decreases n
  {
    if n == 0 || !p.ticking then p else AdvanceN(Advance(p), n - 1)
  }

  lemma {:induction false} RunFromStage(k: nat)
    requires k < StageCount
    ensures AdvanceN(Progress(k, k, Prefix(k), true), StageCount - k) == Progress(StageCount, -1, Prefix(StageCount), false)
    decreases StageCount - k
  {
    var p := Progress(k, k, Prefix(k), true);
    AdvanceKeepsPrefix(p);
    if k + 1 < StageCount {
      RunFromStage(k + 1);
    }
  }

  /** From a fresh start, four ticks complete all four stages and stop the interval. */
  lemma FreshRunCompletesAllStages()
    ensures AdvanceN(Fresh, StageCount) == Progress(StageCount, -1, {0, 1, 2, 3}, false)
  {
    assert Prefix(0) == {};
    RunFromStage(0);
    assert Prefix(StageCount) == {0, 1, 2, 3};
  }

  /** `getStageClassName`: the current stage is "processing" ahead of "done". */
  function StageClassName(current: int, completed: set<int>, i: int): (r: string)
    ensures i == current ==> r == "stage processing"
    ensures i != current && i in completed ==> r == "stage done"
    ensures i != current && i !in completed ==> r == "stage"
  {
    "stage" + (if current == i then " processing" else if i in completed then " done" else "")
  }

  /**
   * While the stages advance, stages before the current one read "done", the
   * current one "processing" and the rest plain "stage".
   */
  lemma StageClassesWhileRunning(p: Progress, i: int)
    requires ExactPrefix(p) && p.ticking
    ensures 0 <= i < p.current ==> StageClassName(p.current, p.completed, i) == "stage done"
    ensures i == p.current ==> StageClassName(p.current, p.completed, i) == "stage processing"
    ensures (i < 0 || i > p.current) ==> StageClassName(p.current, p.completed, i) == "stage"
  {
  }

  // ------------------------------------------------------- the hook

  datatype Status = Analyzing | Complete | Error

  /** How the extraction request settles. */
  datatype ExtractResponse =
    | NotOk(status: nat, statusText: string, body: ErrorBody)
    | Ok(result: ExtractionResult)
    | Thrown(message: string)   // network failure, or an OK body that is not JSON

  class ProcessingFlow {
    const url: string
    const stageMessages: seq<string>
    var status: Status
    var statusMessage: string
    var tickIndex: int                 // the interval closure's `stageIndex`
    var currentStageIndex: int
    var completedStages: set<int>
    var intervalSet: bool              // intervalRef.current is set
    var ticking: bool                  // the interval is live
    var apiCallMade: bool
    var flowScheduled: bool            // the 2-second start delay is pending
    var requestsIssued: nat
    var extraction: Option<Metadata>
    var pendingSuccess: Option<string> // the 2-second redirect delay is pending, with the product id
    var navigation: Option<Route>

    /** The hook on mount, with the `url` query parameter (`|| ""`). */
    constructor (urlParam: Option<string>, stageMessages: seq<string>)
      requires |stageMessages| == StageCount
      ensures url == OrElse(urlParam, "") && this.stageMessages == stageMessages
      ensures status == Analyzing && statusMessage == "Initializing..."
      ensures currentStageIndex == -1 && completedStages == {} && tickIndex == 0
      ensures !intervalSet && !ticking && !apiCallMade && !flowScheduled && requestsIssued == 0
      ensures extraction == None && pendingSuccess == None && navigation == None
      ensures Valid()
    {
      url := OrElse(urlParam, "");
      this.stageMessages := stageMessages;
      status := Analyzing;
      statusMessage := "Initializing...";
      tickIndex := 0;
      currentStageIndex := -1;
      completedStages := {};
      intervalSet := false;
      ticking := false;
      apiCallMade := false;
      flowScheduled := false;
      requestsIssued := 0;
      extraction := None;
      pendingSuccess := None;
      navigation := None;
    }

    function Snapshot(): Progress
      reads this
    {
      Progress(tickIndex, currentStageIndex, completedStages, ticking)
    }

    /** The invariant the hook keeps: a live interval is a set one, and the display indices stay in range. */
    ghost predicate Valid()
      reads this
    {
      && |stageMessages| == StageCount
      && (ticking ==> intervalSet && 0 <= tickIndex < StageCount && currentStageIndex == tickIndex)
      && -1 <= currentStageIndex < StageCount
      && (flowScheduled ==> apiCallMade)
    }

    /**
     * The effect: with no URL, navigate to the failure page and send nothing;
     * with the guard set, do nothing; otherwise set the guard and schedule the
     * flow after 2 seconds.
     */
    method RunEffect()
      requires Valid()
      modifies this
      ensures Valid()
      ensures url == "" ==> navigation == Some(FailedRoute(None, Some(NoUrlMessage), None))
      ensures url != "" ==> navigation == old(navigation)
      ensures apiCallMade == (old(apiCallMade) || url != "")
      ensures flowScheduled == (old(flowScheduled) || (url != "" && !old(apiCallMade)))
      ensures requestsIssued == old(requestsIssued) && Snapshot() == old(Snapshot())
      ensures intervalSet == old(intervalSet) && pendingSuccess == old(pendingSuccess)
      ensures status == old(status) && statusMessage == old(statusMessage) && extraction == old(extraction)
    {
      if url == "" {
        navigation := Some(FailedRoute(None, Some(NoUrlMessage), None));
        return;
      }
      if apiCallMade {
        return;
      }
      apiCallMade := true;
      flowScheduled := true;
    }

    /** `startStageProgression`: nothing when an interval is set; otherwise show stage 0 and start ticking. */
    method StartStageProgression()
      requires Valid()
      modifies this
      ensures Valid() && intervalSet
      ensures old(intervalSet) ==> Snapshot() == old(Snapshot()) && statusMessage == old(statusMessage)
      ensures !old(intervalSet) ==> Snapshot() == Progress(0, 0, old(completedStages), true)
                                    && intervalSet && statusMessage == stageMessages[0]
      ensures apiCallMade == old(apiCallMade) && flowScheduled == old(flowScheduled)
      ensures requestsIssued == old(requestsIssued) && navigation == old(navigation)
      ensures pendingSuccess == old(pendingSuccess) && status == old(status) && extraction == old(extraction)
    {
      if intervalSet {
        return;
      }
      tickIndex := 0;
      currentStageIndex := 0;
      statusMessage := stageMessages[0];
      intervalSet := true;
      ticking := true;
    }

    /** The start delay expires: the stage display starts and the request is sent. */
    method FlowTimerFires()
      requires Valid() && flowScheduled
      modifies this
      ensures Valid()
      ensures !flowScheduled && requestsIssued == old(requestsIssued) + 1
      ensures old(intervalSet) ==> Snapshot() == old(Snapshot()) && statusMessage == old(statusMessage)
      ensures !old(intervalSet) ==> Snapshot() == Progress(0, 0, old(completedStages), true)
                                    && statusMessage == stageMessages[0]
      ensures !old(intervalSet) && old(completedStages) == {} ==> Snapshot() == Fresh
      ensures intervalSet && navigation == old(navigation) && apiCallMade == old(apiCallMade)
      ensures status == old(status) && extraction == old(extraction) && pendingSuccess == old(pendingSuccess)
    {
      flowScheduled := false;
      StartStageProgression();
      requestsIssued := requestsIssued + 1;
    }

    /** One tick of the 3-second interval. */
    method Tick()
      requires Valid() && ticking
      modifies this
      ensures Valid()
      ensures Snapshot() == Advance(old(Snapshot()))
      ensures intervalSet == ticking
      ensures ticking ==> statusMessage == stageMessages[currentStageIndex]
      ensures !ticking ==> statusMessage == old(statusMessage)
      ensures requestsIssued == old(requestsIssued) && navigation == old(navigation) && status == old(status)
      ensures apiCallMade == old(apiCallMade) && flowScheduled == old(flowScheduled)
      ensures extraction == old(extraction) && pendingSuccess == old(pendingSuccess)
    {
      completedStages := completedStages + {tickIndex};
      tickIndex := tickIndex + 1;
      if tickIndex < StageCount {
        currentStageIndex := tickIndex;
        statusMessage := stageMessages[tickIndex];
      } else {
        currentStageIndex := -1;
        intervalSet := false;
        ticking := false;
      }
    }

    /**
     * The request settles. A failed request navigates to the failure page with
     * its message and stops the interval (leaving it set); a result that does
     * not classify as success navigates there with the classification's
     * message; a success completes every stage, stops the interval and
     * schedules the redirect carrying the returned id.
     */
    method CompleteFlow(response: ExtractResponse)
      requires Valid()
      modifies this
      ensures Valid()
      ensures response.NotOk? ==>
                navigation == Some(FailedRoute(Some(url), Some(NonOkErrorText(response.status, response.statusText, response.body)), None))
                && !ticking && intervalSet == old(intervalSet)
      ensures response.Thrown? ==>
                navigation == Some(FailedRoute(Some(url), Some(OrElse(Some(response.message), UnexpectedMessage)), None))
                && !ticking && intervalSet == old(intervalSet)
      ensures response.Ok? && Classify(response.result).Failed? ==>
                navigation == Some(FailedRoute(Some(url), Some(Classify(response.result).error), None))
                && ticking == old(ticking) && intervalSet == old(intervalSet)
      ensures !(response.Ok? && Classify(response.result).Succeeded?) ==>
                && tickIndex == old(tickIndex) && currentStageIndex == old(currentStageIndex)
                && completedStages == old(completedStages) && status == old(status)
                && statusMessage == old(statusMessage) && extraction == old(extraction)
                && pendingSuccess == old(pendingSuccess)
      ensures response.Ok? && Classify(response.result).Succeeded? ==>
                && status == Complete && statusMessage == CompleteMessage
                && completedStages == {0, 1, 2, 3} && currentStageIndex == -1
                && !intervalSet && !ticking
                && extraction == response.result.metadata
                && pendingSuccess == Some(Classify(response.result).productId)
                && navigation == old(navigation) && tickIndex == old(tickIndex)
      ensures requestsIssued == old(requestsIssued) && apiCallMade == old(apiCallMade)
      ensures flowScheduled == old(flowScheduled)
    {
      match response {
        case NotOk(st, text, body) =>
          var errorText := NonOkErrorText(st, text, body);
          NonOkErrorTextChain(st, text, body);
          FailFlow(errorText);
        case Thrown(message) =>
          FailFlow(message);
        case Ok(result) =>
          var outcome := Classify(result);
          if outcome.Failed? {
            navigation := Some(FailedRoute(Some(url), Some(outcome.error), None));
          } else {
            MarkComplete(result.metadata, outcome.productId);
          }
      }
    }

    /** The success branch: every stage done, the interval stopped, the redirect scheduled. */
    method MarkComplete(metadata: Option<Metadata>, productId: string)
      requires Valid()
      modifies this
      ensures Valid()
      ensures status == Complete && statusMessage == CompleteMessage
      ensures completedStages == {0, 1, 2, 3} && currentStageIndex == -1
      ensures !intervalSet && !ticking
      ensures extraction == metadata && pendingSuccess == Some(productId)
      ensures navigation == old(navigation) && tickIndex == old(tickIndex)
      ensures requestsIssued == old(requestsIssued) && apiCallMade == old(apiCallMade)
      ensures flowScheduled == old(flowScheduled)
    {
      extraction := metadata;
      status := Complete;
      statusMessage := CompleteMessage;
      completedStages := {0, 1, 2, 3};
      currentStageIndex := -1;
      intervalSet := false;
      ticking := false;
      pendingSuccess := Some(productId);
    }

    /** The `catch` of the flow: stop the interval without clearing the ref, and navigate to the failure page. */
    method FailFlow(message: string)
      requires Valid()
      modifies this
      ensures Valid()
      ensures navigation == Some(FailedRoute(Some(url), Some(OrElse(Some(message), UnexpectedMessage)), None))
      ensures !ticking && intervalSet == old(intervalSet)
      ensures tickIndex == old(tickIndex) && currentStageIndex == old(currentStageIndex)
      ensures completedStages == old(completedStages) && status == old(status)
      ensures requestsIssued == old(requestsIssued) && apiCallMade == old(apiCallMade)
      ensures pendingSuccess == old(pendingSuccess) && flowScheduled == old(flowScheduled)
      ensures statusMessage == old(statusMessage) && extraction == old(extraction)
    {
      ticking := false;
      var errorMsg := if message != "" then message else UnexpectedMessage;
      navigation := Some(FailedRoute(Some(url), Some(errorMsg), None));
    }

    /** The redirect delay expires: go to the success page with the returned id. */
    method RedirectFires()
      requires Valid() && pendingSuccess.Some?
      modifies this
      ensures Valid()
      ensures navigation == Some(SuccessRoute(Some(url), old(pendingSuccess).value))
      ensures pendingSuccess == None
      ensures Snapshot() == old(Snapshot()) && intervalSet == old(intervalSet)
      ensures status == old(status) && statusMessage == old(statusMessage) && extraction == old(extraction)
      ensures apiCallMade == old(apiCallMade) && flowScheduled == old(flowScheduled)
      ensures requestsIssued == old(requestsIssued)
    {
      navigation := Some(SuccessRoute(Some(url), pendingSuccess.value));
      pendingSuccess := None;
    }

    /** The effect cleanup: clear the interval and the start delay, and reset the guard. */
    method Cleanup()
      requires Valid()
      modifies this
      ensures Valid()
      ensures !intervalSet && !ticking && !flowScheduled && !apiCallMade
      ensures completedStages == old(completedStages) && currentStageIndex == old(currentStageIndex)
      ensures requestsIssued == old(requestsIssued) && navigation == old(navigation)
      ensures tickIndex == old(tickIndex) && status == old(status) && statusMessage == old(statusMessage)
      ensures extraction == old(extraction) && pendingSuccess == old(pendingSuccess)
    {
      intervalSet := false;
      ticking := false;
      flowScheduled := false;
      apiCallMade := false;
    }

    /** The class of stage `i` as the page renders it. */
    function StageClass(i: int): (r: string)
      reads this
      ensures r == StageClassName(currentStageIndex, completedStages, i)
    {
      StageClassName(currentStageIndex, completedStages, i)
    }
  }

  /**
   * The guard: once set, running the effect again, whether before or after the
   * start delay expires, neither schedules a second flow nor sends a second
   * request; only cleanup clears it.
   */
  method GuardedEffectRunsOnce(flow: ProcessingFlow)
    requires flow.Valid() && flow.url != "" && !flow.apiCallMade && !flow.flowScheduled
    modifies flow
    ensures flow.requestsIssued == old(flow.requestsIssued) + 1
    ensures flow.apiCallMade && !flow.flowScheduled
  {
    flow.RunEffect();
    flow.RunEffect();
    flow.FlowTimerFires();
    flow.RunEffect();
  }

  /**
   * The re-run React actually performs (StrictMode, or a change of `url`):
   * effect, cleanup, effect. The cleanup clears the pending
   * start delay and resets the guard, so the first run's flow never fires and
   * the second run schedules the only one: exactly one request goes out, and
   * the stage display runs.
   */
  method EffectCleanupEffectSendsOnce(flow: ProcessingFlow)
    requires flow.Valid() && flow.url != "" && !flow.apiCallMade && !flow.flowScheduled
    modifies flow
    ensures flow.requestsIssued == old(flow.requestsIssued) + 1
    ensures flow.apiCallMade && !flow.flowScheduled && flow.intervalSet && flow.ticking
  {
    flow.RunEffect();
    flow.Cleanup();
    flow.RunEffect();
    flow.FlowTimerFires();
  }

  /**
   * The classes the page renders from the hook's own fields: while the
   * stages run with the completed set exactly the stages before the current
   * one, every earlier stage is done, the current one is processing and any
   * other index is plain.
   */
  lemma StageClassesOfFlow(flow: ProcessingFlow, i: int)
    requires flow.ticking && ExactPrefix(flow.Snapshot())
    ensures 0 <= i < flow.currentStageIndex ==> flow.StageClass(i) == "stage done"
    ensures i == flow.currentStageIndex ==> flow.StageClass(i) == "stage processing"
    ensures (i < 0 || i > flow.currentStageIndex) ==> flow.StageClass(i) == "stage"
  {
    StageClassesWhileRunning(flow.Snapshot(), i);
  }
}

=== FILE: processing_page.dfy ===
/**
 * The standalone processing page (frontend/src/components/pages/Processing.tsx):
 * one extraction request per mount and the status it moves through,
 * `analyzing`, then `complete` and a second later `request_sent`, or `error`.
 */
module ProcessingPage {
  import opened JsText

  const NoUrlMessage := "No product URL was provided."
  const SubmitFailedMessage := "Failed to submit URL for analysis."
  const NoTaskMessage := "Analysis task was not created successfully."
  const UnknownErrorMessage := "An unknown error occurred during processing."

  datatype Status = Analyzing | Complete | RequestSent | Error

  /** The moves the page makes: analysing ends in completion or an error, completion is followed by `request_sent`. */
  predicate Allowed(from: Status, to: Status) {
    from == to
    || (from == Analyzing && (to == Complete || to == Error))
    || (from == Complete && to == RequestSent)
  }

  /** How the extraction request settles. */
  datatype ExtractResponse =
    | ExtractNotOk(bodyText: string)
    | ExtractOk(taskId: Option<string>)
    | ExtractThrown(message: string)

  /** The message the `catch` shows, or `None` when the request created a task. */
  function FailureMessage(response: ExtractResponse): (m: Option<string>)
    ensures m.None? <==> response.ExtractOk? && Truthy(response.taskId)
    ensures m.Some? ==> m.value != ""
    ensures response.ExtractNotOk? ==>
              m == Some(if response.bodyText != "" then response.bodyText else SubmitFailedMessage)
    ensures response.ExtractOk? && !Truthy(response.taskId) ==> m == Some(NoTaskMessage)
    ensures response.ExtractThrown? ==>
              m == Some(if response.message != "" then response.message else UnknownErrorMessage)
  {
    match response
    case ExtractNotOk(text) => Some(if text != "" then text else SubmitFailedMessage)
    case ExtractOk(taskId) => if Truthy(taskId) then None else Some(NoTaskMessage)
    case ExtractThrown(message) => Some(if message != "" then message else UnknownErrorMessage)
  }

  class ProcessingPageState {
    const url: string                  // `searchParams.get('url') || ''`
    var status: Status
    var error: Option<string>
    var showSuccessTick: bool
    var requestsSent: nat
    var delayPending: bool             // the one-second timer to `request_sent`

    constructor (urlParam: Option<string>)
      ensures url == OrElse(urlParam, "")
      ensures status == Analyzing && error == None && !showSuccessTick && requestsSent == 0 && !delayPending
      ensures Valid()
    {
      url := OrElse(urlParam, "");
      status := Analyzing;
      error := None;
      showSuccessTick := false;
      requestsSent := 0;
      delayPending := false;
    }

    /**
     * An error status always carries a non-empty message, any other status
     * none; a completed one shows the tick, and the timer runs only after completion.
     */
    ghost predicate Valid()
      reads this
    {
      && (status == Analyzing ==> error == None)
      && (status == Error ==> error.Some? && error.value != "")
      && (status == Complete || status == RequestSent ==> showSuccessTick && error == None)
      && (delayPending ==> status == Complete)
      && requestsSent <= 1
    }

    /** The effect: without a URL the page fails at once and sends nothing; otherwise one request goes out. */
    method Mount()
      requires Valid() && status == Analyzing && requestsSent == 0
      modifies this
      ensures Valid()
      ensures Allowed(old(status), status)
      ensures url == "" ==> status == Error && error == Some(NoUrlMessage) && requestsSent == 0
      ensures url != "" ==> status == Analyzing && requestsSent == 1 && error == None
      ensures showSuccessTick == old(showSuccessTick) && delayPending == old(delayPending)
    {
      if url == "" {
        status := Error;
        error := Some(NoUrlMessage);
        return;
      }
      status := Analyzing;
      requestsSent := requestsSent + 1;
    }

    /** The request settles: a created task completes the page, anything else is an error. */
    method Settle(response: ExtractResponse)
      requires Valid() && status == Analyzing && requestsSent == 1
      modifies this
      ensures Valid()
      ensures Allowed(old(status), status)
      ensures FailureMessage(response).None? ==> status == Complete && showSuccessTick && delayPending
      ensures FailureMessage(response).Some? ==>
                status == Error && error == FailureMessage(response)
                && showSuccessTick == old(showSuccessTick) && !delayPending
      ensures requestsSent == old(requestsSent)
    {
      var failure := FailureMessage(response);
      if failure.None? {
        showSuccessTick := true;
        status := Complete;
        delayPending := true;
      } else {
        status := Error;
        error := failure;
      }
    }

    /** The one-second timer. */
    method DelayFires()
      requires Valid() && delayPending
      modifies this
      ensures Valid()
      ensures Allowed(old(status), status)
      ensures status == RequestSent && !delayPending
      ensures error == old(error) && showSuccessTick == old(showSuccessTick) && requestsSent == old(requestsSent)
    {
      status := RequestSent;
      delayPending := false;
    }
  }

  /** A mount with a URL whose request creates a task ends, after the delay, in `request_sent` with one request. */
  method HappyPath(urlParam: Option<string>, taskId: string) returns (page: ProcessingPageState)
    requires Truthy(urlParam) && taskId != ""
    ensures page.status == RequestSent && page.requestsSent == 1 && page.error == None
  {
    page := new ProcessingPageState(urlParam);
    page.Mount();
    page.Settle(ExtractOk(Some(taskId)));
    page.DelayFires();
  }
}

=== FILE: product_data.dfy ===
/**
 * The product detail page (frontend/src/components/pages/ProductData.tsx):
 * the normalisation of a backend record that may carry its fields either
 * nested under `product_info` or flat, the lookup by id, the five-second
 * freshness rule for the cached product list, and the fetch that runs once
 * per mount, from the cache when it is fresh and from the network otherwise.
 */
module ProductData {
  import opened JsText

  const CacheLifetime := 5000
  const UnnamedProduct := "Unnamed Product"
  const NoProductsMessage := "No products found in the database."
  const LoadFailedMessage := "Failed to load product data"

  /** An ingredient as the backend sends it: an object, or a bare name. */
  datatype Ingredient =
    | IngredientObject(ingredientName: Option<string>, locations: seq<string>)
    | IngredientText(text: string)

  datatype SearchQuery = SearchQuery(term: string, rationale: string)
  datatype Study = Study(title: string, sourceUrl: string, isRelevant: bool)
  datatype ClinicianReview = ClinicianReview(reviewText: string, reviewerName: string, reviewerTitle: string)

  /** The nested `product_info` object; every field may be missing. */
  datatype Info = Info(
    productName: Option<string>,
    productDescription: Option<string>,
    productImageUrl: Option<string>,
    sourceUrl: Option<string>,
    ingredients: Option<seq<Ingredient>>,
    clinicianReviews: Option<seq<ClinicianReview>>)

  /**
   * A product record as the backend (or the cache) holds it. Strings are
   * `None` when missing; arrays are `None` when missing and, being objects,
   * truthy whenever present, even when empty.
   */
  datatype RawRecord = RawRecord(
    productId: Option<string>,
    info: Option<Info>,
    productName: Option<string>,
    productDescription: Option<string>,
    productImageUrl: Option<string>,
    productUrl: Option<string>,
    ingredients: Option<seq<Ingredient>>,
    searchQueries: Option<seq<SearchQuery>>,
    searchTerms: Option<seq<SearchQuery>>,
    combinedResearchStudies: Option<seq<Study>>,
    clinicalResearch: Option<seq<Study>>,
    clinicianReviews: Option<seq<ClinicianReview>>)

  /** The page's `Product`: every field present. */
  datatype Product = Product(
    productId: Option<string>,
    productName: string,
    productDescription: string,
    productImageUrl: string,
    productUrl: string,
    ingredients: seq<Ingredient>,
    searchQueries: seq<SearchQuery>,
    clinicalResearch: seq<Study>,
    clinicianReviews: seq<ClinicianReview>)

  /** `a || b || []` over arrays: the first one present. */
  function FirstList<X>(a: Option<seq<X>>, b: Option<seq<X>>): seq<X> {
    if a.Some? then a.value else if b.Some? then b.value else []
  }

  /** `product.product_info?.…`: a missing object reads as one whose fields are all missing. */
  function InfoOf(raw: RawRecord): Info {
    if raw.info.Some? then raw.info.value else Info(None, None, None, None, None, None)
  }

  /** `ing.ingredient_name || ing` */
  function IngredientLabel(ing: Ingredient): Ingredient {
    if ing.IngredientObject? && Truthy(ing.ingredientName) then IngredientText(ing.ingredientName.value) else ing
  }

  function MapLabels(ings: seq<Ingredient>): (r: seq<Ingredient>)
    ensures |r| == |ings|
    ensures forall i :: 0 <= i < |ings| ==> r[i] == IngredientLabel(ings[i])
  {
    if ings == [] then [] else [IngredientLabel(ings[0])] + MapLabels(ings[1..])
  }

  /** `product.product_info?.ingredients?.map(…) || product.ingredients || []` */
  function Ingredients(raw: RawRecord): seq<Ingredient> {
    if InfoOf(raw).ingredients.Some? then MapLabels(InfoOf(raw).ingredients.value)
    else if raw.ingredients.Some? then raw.ingredients.value
    else []
  }

  /** The normalisation object, written once and applied on both the cached and the network path. */
  function Normalize(raw: RawRecord): Product {
    Product(
      raw.productId,
      OrElse(Or(InfoOf(raw).productName, raw.productName), UnnamedProduct),
      OrElse(Or(InfoOf(raw).productDescription, raw.productDescription), ""),
      OrElse(Or(InfoOf(raw).productImageUrl, raw.productImageUrl), ""),
      OrElse(Or(raw.productUrl, InfoOf(raw).sourceUrl), ""),
      Ingredients(raw),
      FirstList(raw.searchQueries, raw.searchTerms),
      FirstList(raw.combinedResearchStudies, raw.clinicalResearch),
      FirstList(InfoOf(raw).clinicianReviews, raw.clinicianReviews))
  }

  /**
   * The field priorities. Each text field takes the first truthy value of its
   * chain and otherwise its default: the name (nested, flat, "Unnamed
   * Product", so never empty), the description and the image URL (nested,
   * flat, ""), the product URL (flat, then the nested source URL, ""). A
   * nested ingredient list is used whenever present (even empty), each object
   * with a name replaced by that name; otherwise the flat list, otherwise [].
   * Search queries fall back to search terms, research from the combined
   * studies to the clinical research, clinician reviews from the nested list
   * to the flat one, each to [] when neither is present. A missing
   * `product_info` reads as one whose fields are all missing.
   */
  lemma NormalizePriorities(raw: RawRecord)
    ensures var p, n := Normalize(raw), InfoOf(raw);
      && (raw.info.None? ==> n == Info(None, None, None, None, None, None))
      && (raw.info.Some? ==> n == raw.info.value)
      && p.productId == raw.productId
      && p.productName != ""
      && (Truthy(n.productName) ==> p.productName == n.productName.value)
      && (!Truthy(n.productName) && Truthy(raw.productName) ==> p.productName == raw.productName.value)
      && (!Truthy(n.productName) && !Truthy(raw.productName) ==> p.productName == UnnamedProduct)
      && (Truthy(n.productDescription) ==> p.productDescription == n.productDescription.value)
      && (!Truthy(n.productDescription) && Truthy(raw.productDescription) ==> p.productDescription == raw.productDescription.value)
      && (!Truthy(n.productDescription) && !Truthy(raw.productDescription) ==> p.productDescription == "")
      && (Truthy(n.productImageUrl) ==> p.productImageUrl == n.productImageUrl.value)
      && (!Truthy(n.productImageUrl) && Truthy(raw.productImageUrl) ==> p.productImageUrl == raw.productImageUrl.value)
      && (!Truthy(n.productImageUrl) && !Truthy(raw.productImageUrl) ==> p.productImageUrl == "")
      && (Truthy(raw.productUrl) ==> p.productUrl == raw.productUrl.value)
      && (!Truthy(raw.productUrl) && Truthy(n.sourceUrl) ==> p.productUrl == n.sourceUrl.value)
      && (!Truthy(raw.productUrl) && !Truthy(n.sourceUrl) ==> p.productUrl == "")
      && (n.ingredients.Some? ==>
            |p.ingredients| == |n.ingredients.value|
            && forall i :: 0 <= i < |p.ingredients| ==>
                 p.ingredients[i] == IngredientLabel(n.ingredients.value[i])
                 && (p.ingredients[i].IngredientObject? ==> !Truthy(p.ingredients[i].ingredientName)))
      && (n.ingredients.None? && raw.ingredients.Some? ==> p.ingredients == raw.ingredients.value)
      && (n.ingredients.None? && raw.ingredients.None? ==> p.ingredients == [])
      && (raw.searchQueries.Some? ==> p.searchQueries == raw.searchQueries.value)
      && (raw.searchQueries.None? && raw.searchTerms.Some? ==> p.searchQueries == raw.searchTerms.value)
      && (raw.searchQueries.None? && raw.searchTerms.None? ==> p.searchQueries == [])
      && (raw.combinedResearchStudies.Some? ==> p.clinicalResearch == raw.combinedResearchStudies.value)
      && (raw.combinedResearchStudies.None? && raw.clinicalResearch.Some? ==> p.clinicalResearch == raw.clinicalResearch.value)
      && (raw.combinedResearchStudies.None? && raw.clinicalResearch.None? ==> p.clinicalResearch == [])
      && (n.clinicianReviews.Some? ==> p.clinicianReviews == n.clinicianReviews.value)
      && (n.clinicianReviews.None? && raw.clinicianReviews.Some? ==> p.clinicianReviews == raw.clinicianReviews.value)
      && (n.clinicianReviews.None? && raw.clinicianReviews.None? ==> p.clinicianReviews == [])
  {
  }

  /**
   * A normalised product written back as a flat record. No writer of the
   * `frontrow_products` cache is part of this model, so this is one shape
   * the cache could hold, not the shape it is known to hold.
   */
  function Flatten(p: Product): RawRecord {
    RawRecord(p.productId, None, Some(p.productName), Some(p.productDescription), Some(p.productImageUrl),
              Some(p.productUrl), Some(p.ingredients), Some(p.searchQueries), None,
              Some(p.clinicalResearch), None, Some(p.clinicianReviews))
  }

  /**
   * Normalising a record that is already normalised and flat changes
   * nothing: the normalisation is stable on its own output.
   */
  lemma NormalizeIsFixpoint(raw: RawRecord)
    ensures Normalize(Flatten(Normalize(raw))) == Normalize(raw)
  {
    NormalizePriorities(raw);
  }

  // ------------------------------------------------------- lookup by id

  /** `products.find((p) => p.product_id === id)` */
  function Find(products: seq<RawRecord>, id: string): (r: Option<RawRecord>)
    ensures r.Some? <==> exists i :: 0 <= i < |products| && products[i].productId == Some(id)
    ensures r.Some? ==> exists i :: 0 <= i < |products| && products[i] == r.value
                                 && forall j :: 0 <= j < i ==> products[j].productId != Some(id)
    ensures r.Some? ==> r.value.productId == Some(id)
  {
    if products == [] then None
    else if products[0].productId == Some(id) then Some(products[0])
    else
      var r := Find(products[1..], id);
      if r.Some? then
        var k :| 0 <= k < |products[1..]| && products[1..][k] == r.value
                 && forall j :: 0 <= j < k ==> products[1..][j].productId != Some(id);
        assert products[k + 1] == r.value;
        r
      else
        r
  }

  // ------------------------------------------------------- the cache

  /** How `JSON.parse` reads the cached product list. */
  datatype CachedList = ProductArray(products: seq<RawRecord>) | NotProductArray

  /**
   * The two cache keys as read at the start of the fetch: the raw texts, what
   * the list parses to and what `parseInt` makes of the timestamp (`None` for NaN).
   */
  datatype CacheView = CacheView(
    productsText: Option<string>,
    products: CachedList,
    timestampText: Option<string>,
    timestamp: Option<int>)

  /** Both keys are present and non-empty and the cache is less than five seconds old. */
  predicate CacheIsFresh(cache: CacheView, now: int) {
    Truthy(cache.productsText) && Truthy(cache.timestampText) && cache.timestamp.Some?
    && now - cache.timestamp.value < CacheLifetime
  }

  /**
   * A cache stamped at `t` is fresh at `now` exactly when `now < t + 5000`,
   * and once stale it never becomes fresh again.
   */
  lemma CacheFreshnessWindow(cache: CacheView, now: int, later: int)
    requires Truthy(cache.productsText) && Truthy(cache.timestampText) && cache.timestamp.Some?
    requires now <= later
    ensures CacheIsFresh(cache, now) <==> now < cache.timestamp.value + CacheLifetime
    ensures !CacheIsFresh(cache, now) ==> !CacheIsFresh(cache, later)
  {
  }

  // ------------------------------------------------------- the page

  /** How the `/frontrowmd/products` request settles. */
  datatype ProductsResponse =
    | ProductsNotOk(status: nat)
    /** `None` when `products` is missing or not an array. */
    | ProductsOk(products: Option<seq<RawRecord>>)
    /** A thrown error (network, JSON) and its message. */
    | ProductsThrown(message: string)

  /** What the first half of the fetch decided. */
  datatype FetchStart = Skipped | ServedFromCache | CacheUnreadable | RequestSent

  function NotFoundMessage(id: string): string {
    "Product with ID " + id + " not found."
  }

  /** The message the `catch` shows for a failed network path. */
  function FailureMessage(id: string, response: ProductsResponse): (m: Option<string>)
    ensures response.ProductsNotOk? ==> m == Some("Failed to fetch products: " + NatToString(response.status))
    ensures response.ProductsOk? && response.products.None? ==> m == Some(NoProductsMessage)
    ensures response.ProductsOk? && response.products.Some? ==>
              (m.None? <==> Find(response.products.value, id).Some?)
    ensures response.ProductsOk? && response.products.Some? && m.Some? ==> m == Some(NotFoundMessage(id))
    ensures response.ProductsThrown? ==> m == Some(if response.message != "" then response.message else LoadFailedMessage)
    ensures m.Some? ==> m.value != ""
  {
    match response
    case ProductsNotOk(status) => Some("Failed to fetch products: " + NatToString(status))
    case ProductsOk(None) => Some(NoProductsMessage)
    case ProductsOk(Some(products)) => if Find(products, id).Some? then None else Some(NotFoundMessage(id))
    case ProductsThrown(message) => Some(if message != "" then message else LoadFailedMessage)
  }

  class ProductDataPage {
    const productId: Option<string>    // the `:productId` route parameter
    var hasFetched: bool
    var productData: Option<Product>
    var isLoading: bool
    var error: Option<string>
    var requestsSent: nat

    constructor (productId: Option<string>)
      ensures this.productId == productId
      ensures !hasFetched && productData == None && isLoading && error == None && requestsSent == 0
    {
      this.productId := productId;
      hasFetched := false;
      productData := None;
      isLoading := true;
      error := None;
      requestsSent := 0;
    }

    /**
     * The effect up to the request: nothing without an id or after the first
     * run; a fresh cache holding the product serves it; a fresh cache that
     * does not parse as a list ends the effect with the page still loading
     * (the parse error escapes the `try`); otherwise one request is sent.
     */
    method StartFetch(cache: CacheView, now: int) returns (outcome: FetchStart)
      modifies this
      ensures (!Truthy(productId) || old(hasFetched)) <==> outcome == Skipped
      ensures outcome == Skipped ==>
                hasFetched == old(hasFetched) && productData == old(productData) && isLoading == old(isLoading)
                && error == old(error) && requestsSent == old(requestsSent)
      ensures outcome != Skipped ==> hasFetched
      ensures outcome == ServedFromCache <==>
                outcome != Skipped && CacheIsFresh(cache, now) && cache.products.ProductArray?
                && Find(cache.products.products, productId.value).Some?
      ensures outcome == ServedFromCache ==>
                productData == Some(Normalize(Find(cache.products.products, productId.value).value))
                && error == None && !isLoading && requestsSent == old(requestsSent)
      ensures outcome == CacheUnreadable <==>
                outcome != Skipped && CacheIsFresh(cache, now) && cache.products.NotProductArray?
      ensures outcome == CacheUnreadable ==>
                productData == old(productData) && isLoading == old(isLoading) && error == old(error)
                && requestsSent == old(requestsSent)
      ensures outcome == RequestSent ==>
                requestsSent == old(requestsSent) + 1 && productData == old(productData)
                && isLoading == old(isLoading) && error == old(error)
    {
      if !Truthy(productId) || hasFetched {
        return Skipped;
      }
      hasFetched := true;
      if CacheIsFresh(cache, now) {
        match cache.products
        case NotProductArray =>
          return CacheUnreadable;
        case ProductArray(products) =>
          var found := Find(products, productId.value);
          if found.Some? {
            productData := Some(Normalize(found.value));
            error := None;
            isLoading := false;
            return ServedFromCache;
          }
      }
      requestsSent := requestsSent + 1;
      return RequestSent;
    }

    /**
     * The network path once the request settles: the product found is
     * normalised exactly as on the cached path; every failure sets its
     * message; loading ends on every path.
     */
    method FinishFetch(response: ProductsResponse)
      requires Truthy(productId) && hasFetched
      modifies this
      ensures !isLoading
      ensures FailureMessage(productId.value, response).None? ==>
                productData == Some(Normalize(Find(response.products.value, productId.value).value))
                && error == None
      ensures FailureMessage(productId.value, response).Some? ==>
                productData == old(productData) && error == FailureMessage(productId.value, response)
      ensures hasFetched && requestsSent == old(requestsSent)
    {
      var failure := FailureMessage(productId.value, response);
      if failure.None? {
        var product := Find(response.products.value, productId.value);
        productData := Some(Normalize(product.value));
        error := None;
      } else {
        error := failure;
      }
      isLoading := false;
    }
  }

  /** However many times the effect re-runs on one mount, at most one request is sent. */
  method FetchRunsOnce(page: ProductDataPage, first: CacheView, second: CacheView, now: int, later: int)
    requires !page.hasFetched && page.requestsSent == 0
    modifies page
    ensures page.requestsSent <= 1
  {
    var a := page.StartFetch(first, now);
    var b := page.StartFetch(second, later);
    assert b == Skipped;
  }
}

=== FILE: product_home.dfy ===
/**
 * The product home (frontend/src/features/product-home/index.tsx): the draft
 * list with its per-draft dropdown, draft deletion, the route a draft card
 * links to, and when the pagination controls of the generated list appear.
 */
module ProductHome {
  import opened JsText
  import opened Routes
  import opened Sequences
  import ProductInputHook

  /** A saved draft, reduced to what the page decides on. */
  datatype Draft = Draft(productId: string, error: Option<string>)

  datatype Tab = Generated | Drafts

  /** A draft whose extraction failed links to the failure page, any other to the success page. */
  function DraftRoute(d: Draft): Route {
    if Truthy(d.error) then FailedRoute(None, None, Some(d.productId)) else SuccessRoute(None, d.productId)
  }

  /** Every draft card links to one of the two result pages, carrying its own id. */
  lemma DraftRouteCarriesId(d: Draft)
    ensures DraftRoute(d).FailedRoute? <==> Truthy(d.error)
    ensures DraftRoute(d).SuccessRoute? <==> !Truthy(d.error)
    ensures DraftRoute(d).FailedRoute? ==> DraftRoute(d).draftId == Some(d.productId)
    ensures DraftRoute(d).SuccessRoute? ==> DraftRoute(d).productId == d.productId
  {
  }

  /** `prevDrafts.filter((item) => item.product_id !== productId)` */
  function WithoutProduct(drafts: seq<Draft>, id: string): seq<Draft> {
    if drafts == [] then []
    else (if drafts[0].productId == id then [] else [drafts[0]]) + WithoutProduct(drafts[1..], id)
  }

  /**
   * Deleting removes exactly the drafts carrying that id: none of them is
   * left, every other draft stays, and the survivors keep their order.
   */
  lemma {:induction false} WithoutProductRemovesExactly(drafts: seq<Draft>, id: string)
    ensures forall d :: d in WithoutProduct(drafts, id) <==> d in drafts && d.productId != id
    ensures SubsequenceOf(WithoutProduct(drafts, id), drafts)
    ensures (forall i :: 0 <= i < |drafts| ==> drafts[i].productId != id) ==> WithoutProduct(drafts, id) == drafts
  {
    if drafts != [] {
      WithoutProductRemovesExactly(drafts[1..], id);
      var rest := WithoutProduct(drafts[1..], id);
      assert drafts == [drafts[0]] + drafts[1..];
      if forall i :: 0 <= i < |drafts| ==> drafts[i].productId != id {
        assert forall i :: 0 <= i < |drafts[1..]| ==> drafts[1..][i].productId != id;
      }
      if drafts[0].productId != id {
        var r := [drafts[0]] + rest;
        assert WithoutProduct(drafts, id) == r;
        assert r[1..] == rest;
      } else {
        assert WithoutProduct(drafts, id) == rest;
      }
    }
  }

  /** `openDropdown === productId ? null : productId` */
  function ToggleOpen(open: Option<string>, id: string): Option<string> {
    if open == Some(id) then None else Some(id)
  }

  /**
   * A click opens that draft's dropdown unless it is the open one, which it
   * closes; at most one dropdown is open. A second click restores the
   * previous state only when no other dropdown was open before; if another
   * was, two clicks leave every dropdown closed.
   */
  lemma ToggleOpenTwice(open: Option<string>, id: string)
    ensures ToggleOpen(open, id) == Some(id) <==> open != Some(id)
    ensures open.None? || open == Some(id) ==> ToggleOpen(ToggleOpen(open, id), id) == open
    ensures open.Some? && open != Some(id) ==> ToggleOpen(ToggleOpen(open, id), id) == None
  {
  }

  /** The generated list shows its pagination controls only beyond nine products. */
  predicate ShowsPagination(productCount: nat) {
    productCount > 9
  }

  /**
   * With nine products to a page the controls appear exactly when there is
   * more than one page; "Previous" is disabled on the first page and "Next"
   * on the last, exactly the pages where the clamped move stays put.
   */
  lemma PaginationControlsMatchPages(productCount: nat, page: int, totalPages: int)
    ensures ShowsPagination(productCount) <==> ProductInputHook.TotalPages(productCount, 9) > 1
    ensures 1 <= page <= totalPages ==> (page == 1 <==> ProductInputHook.PrevPageOf(page) == page)
    ensures 1 <= page <= totalPages ==> (page == totalPages <==> ProductInputHook.NextPageOf(page, totalPages) == page)
  {
    ProductInputHook.TotalPagesIsCeiling(productCount, 9);
  }

  /** The body of the delete response, when it parses. */
  datatype DeleteBody = DeleteBody(success: bool, message: string)

  datatype DeleteResponse =
    | DeleteAnswered(ok: bool, body: Option<DeleteBody>)
    | DeleteThrown

  class ProductHomeState {
    var activeTab: Tab
    var drafts: seq<Draft>
    var openDropdown: Option<string>
    var notices: seq<string>         // success toasts, oldest first

    constructor ()
      ensures activeTab == Generated && drafts == [] && openDropdown == None && notices == []
    {
      activeTab := Generated;
      drafts := [];
      openDropdown := None;
      notices := [];
    }

    method SelectTab(tab: Tab)
      modifies this
      ensures activeTab == tab
      ensures drafts == old(drafts) && openDropdown == old(openDropdown) && notices == old(notices)
    {
      activeTab := tab;
    }

    /** `setDraft(data.product_drafts)` after a successful load; a failed load changes nothing. */
    method DraftsLoaded(loaded: Option<seq<Draft>>)
      modifies this
      ensures drafts == if loaded.Some? then loaded.value else old(drafts)
      ensures activeTab == old(activeTab) && openDropdown == old(openDropdown) && notices == old(notices)
    {
      if loaded.Some? {
        drafts := loaded.value;
      }
    }

    /**
     * An OK delete drops that product's drafts and closes the dropdown; a
     * refused one leaves both. A body reporting success raises its message.
     */
    method DeleteProduct(id: string, response: DeleteResponse)
      modifies this
      ensures response.DeleteAnswered? && response.ok ==>
                drafts == WithoutProduct(old(drafts), id) && openDropdown == None
      ensures !(response.DeleteAnswered? && response.ok) ==>
                drafts == old(drafts) && openDropdown == old(openDropdown)
      ensures response.DeleteAnswered? && response.body.Some? && response.body.value.success ==>
                notices == old(notices) + [response.body.value.message]
      ensures !(response.DeleteAnswered? && response.body.Some? && response.body.value.success) ==>
                notices == old(notices)
      ensures activeTab == old(activeTab)
    {
      match response {
        case DeleteThrown =>
        case DeleteAnswered(ok, body) =>
          if ok {
            drafts := WithoutProduct(drafts, id);
            openDropdown := None;
          }
          if body.Some? && body.value.success {
            notices := notices + [body.value.message];
          }
      }
    }

    method ToggleDropdown(id: string)
      modifies this
      ensures openDropdown == ToggleOpen(old(openDropdown), id)
      ensures activeTab == old(activeTab) && drafts == old(drafts) && notices == old(notices)
    {
      openDropdown := if openDropdown == Some(id) then None else Some(id);
    }

    /** A click anywhere else closes the open dropdown. */
    method ClickOutside()
      modifies this
      ensures openDropdown == None
      ensures activeTab == old(activeTab) && drafts == old(drafts) && notices == old(notices)
    {
      openDropdown := None;
    }
  }
}

=== FILE: product_input_hook.dfy ===
/**
 * The product-list hook shared by the product pages
 * (frontend/src/features/productInput/hooks/useProductInput.ts): the pending
 * ids kept in session storage and reconciled against every fetched list, the
 * reduction of the fetched list to one newest record per product name, the
 * single-flight guard around the fetch, pagination, and URL submission.
 * Responses are input datatypes; each timer tick or completed request is a
 * method call.
 */
module ProductInputHook {
  import opened JsText
  import opened Recency
  import opened SessionStore
  import opened Routes
  import opened UrlCanonical

  // ---------------------------------------------------------------- records

  datatype ProductInfo = ProductInfo(productName: Option<string>, productImageUrl: Option<string>)

  /** A record of the `products` array as the list endpoint returns it. */
  datatype RawProduct = RawProduct(
    productId: string,
    productName: Option<string>,
    productInfo: Option<ProductInfo>,
    productImageUrl: Option<string>,
    createdTime: int)

  /** The record the list shows. */
  datatype Product = Product(productId: string, productName: string, productImageUrl: Option<string>, createdTime: int)

  function CreatedTime(p: Product): int { p.createdTime }

  function NestedName(p: RawProduct): Option<string> {
    if p.productInfo.Some? then p.productInfo.value.productName else None
  }

  function NestedImage(p: RawProduct): Option<string> {
    if p.productInfo.Some? then p.productInfo.value.productImageUrl else None
  }

  /** `product.product_name || product.product_info?.product_name`, or None when that is falsy. */
  function NameOf(p: RawProduct): Option<string> {
    var n := Or(p.productName, NestedName(p));
    if Truthy(n) then n else None
  }

  /** The ASCII part of `toLowerCase`: 'A'..'Z' become 'a'..'z', every other character is kept. */
  function LowerChar(c: char): char {
    if 'A' <= c <= 'Z' then (c as int + 32) as char else c
  }

  /**
   * `name.toLowerCase().trim()` restricted to ASCII case folding: the key under
   * which records with the same name collapse.
   */
  function NameKey(name: string): string {
    Trim(seq(|name|, i requires 0 <= i < |name| => LowerChar(name[i])))
  }

  /** The normalised name of a raw record, or None for a record that is skipped. */
  function KeyOf(p: RawProduct): Option<string> {
    if NameOf(p).Some? then Some(NameKey(NameOf(p).value)) else None
  }

  function ProductKey(q: Product): string { NameKey(q.productName) }

  /** The normalised record built for a named raw record. */
  function Normalize(p: RawProduct): (q: Product)
    requires NameOf(p).Some?
    ensures Some(ProductKey(q)) == KeyOf(p)
    ensures q.productId == p.productId && q.createdTime == p.createdTime
  {
    Product(p.productId, NameOf(p).value, Or(p.productImageUrl, NestedImage(p)), p.createdTime)
  }

  // ------------------------------------------------- reduction by product name

  /** Some named record of `raw` has normalised name `k`. */
  ghost predicate KeyOccurs(raw: seq<RawProduct>, k: string) {
    exists i :: 0 <= i < |raw| && KeyOf(raw[i]) == Some(k)
  }

  /**
   * `raw[j]` is the record kept for name `k`: no record with that name is newer,
   * and every earlier one is strictly older (a tie keeps the first one seen).
   */
  ghost predicate KeptRecord(raw: seq<RawProduct>, k: string, j: int) {
    && 0 <= j < |raw|
    && KeyOf(raw[j]) == Some(k)
    && (forall i :: 0 <= i < |raw| && KeyOf(raw[i]) == Some(k) ==> raw[i].createdTime <= raw[j].createdTime)
    && (forall i :: 0 <= i < j && KeyOf(raw[i]) == Some(k) ==> raw[i].createdTime < raw[j].createdTime)
  }

  /** The `Map` the reduction fills, with its keys in insertion order. */
  datatype Reduction = Reduction(order: seq<string>, kept: map<string, Product>)

  /** One `forEach` step: skip unnamed records, insert new names, replace on a strictly newer record. */
  function Absorb(st: Reduction, p: RawProduct): Reduction {
    match KeyOf(p)
    case None => st
    case Some(k) =>
      if k !in st.kept then Reduction(st.order + [k], st.kept[k := Normalize(p)])
      else if p.createdTime > st.kept[k].createdTime then Reduction(st.order, st.kept[k := Normalize(p)])
      else st
  }

  /** The map after the `forEach` over the whole list. */
  function Reduce(raw: seq<RawProduct>): Reduction {
    if raw == [] then Reduction([], map[]) else Absorb(Reduce(raw[..|raw| - 1]), raw[|raw| - 1])
  }

  /** The map's shape: keys inserted once, the key list and the map agree, each record under its own name. */
  ghost predicate ReductionShape(st: Reduction) {
    && NoDuplicates(st.order)
    && (forall k :: k in st.kept <==> k in st.order)
    && (forall k :: k in st.kept ==> ProductKey(st.kept[k]) == k)
  }

  /** The map holds exactly the names occurring in `raw`, each with its kept record. */
  ghost predicate ReductionMatches(raw: seq<RawProduct>, st: Reduction) {
    && (forall k :: k in st.kept <==> KeyOccurs(raw, k))
    && (forall k :: k in st.kept ==> exists j :: KeptRecord(raw, k, j) && st.kept[k] == Normalize(raw[j]))
  }

  ghost predicate ReductionCorrect(raw: seq<RawProduct>, st: Reduction) {
    ReductionShape(st) && ReductionMatches(raw, st)
  }

  lemma KeyOccursSnoc(s: seq<RawProduct>, x: RawProduct, k: string)
    ensures KeyOccurs(s + [x], k) <==> KeyOccurs(s, k) || KeyOf(x) == Some(k)
  {
    var raw := s + [x];
    if KeyOccurs(raw, k) {
      var i :| 0 <= i < |raw| && KeyOf(raw[i]) == Some(k);
      if i < |s| {
        assert s[i] == raw[i];
      }
    }
    if KeyOccurs(s, k) {
      var i :| 0 <= i < |s| && KeyOf(s[i]) == Some(k);
      assert raw[i] == s[i];
    }
    if KeyOf(x) == Some(k) {
      assert raw[|s|] == x;
    }
  }

  /** A kept record stays kept when the new record is not newer under its name. */
  lemma KeptRecordSnoc(s: seq<RawProduct>, x: RawProduct, k: string, j: int)
    requires KeptRecord(s, k, j)
    requires KeyOf(x) == Some(k) ==> x.createdTime <= s[j].createdTime
    ensures KeptRecord(s + [x], k, j)
  {
    var raw := s + [x];
    assert raw[j] == s[j];
    forall i | 0 <= i < |raw| && KeyOf(raw[i]) == Some(k) ensures raw[i].createdTime <= raw[j].createdTime {
      if i < |s| {
        assert raw[i] == s[i];
      }
    }
    forall i | 0 <= i < j && KeyOf(raw[i]) == Some(k) ensures raw[i].createdTime < raw[j].createdTime {
      assert raw[i] == s[i];
    }
  }

  /** The new record is kept when every earlier record under its name is strictly older. */
  lemma KeptRecordNew(s: seq<RawProduct>, x: RawProduct, k: string)
    requires KeyOf(x) == Some(k)
    requires forall i :: 0 <= i < |s| && KeyOf(s[i]) == Some(k) ==> s[i].createdTime < x.createdTime
    ensures KeptRecord(s + [x], k, |s|)
  {
    var raw := s + [x];
    forall i | 0 <= i < |raw| && KeyOf(raw[i]) == Some(k) ensures raw[i].createdTime <= x.createdTime {
      if i < |s| {
        assert raw[i] == s[i];
      }
    }
    forall i | 0 <= i < |s| && KeyOf(raw[i]) == Some(k) ensures raw[i].createdTime < x.createdTime {
      assert raw[i] == s[i];
    }
  }

  lemma AbsorbKeepsShape(st: Reduction, x: RawProduct)
    requires ReductionShape(st)
    ensures ReductionShape(Absorb(st, x))
  {
    if KeyOf(x).Some? && KeyOf(x).value !in st.kept {
      var k := KeyOf(x).value;
      var order := st.order + [k];
      forall i, j | 0 <= i < j < |order| ensures order[i] != order[j] {
        if j == |st.order| {
          assert order[i] == st.order[i];
        }
      }
    }
  }

  /** Absorbing a record adds its name, if it has one, and no other. */
  lemma AbsorbKeys(st: Reduction, x: RawProduct)
    ensures forall k :: k in Absorb(st, x).kept <==> k in st.kept || KeyOf(x) == Some(k)
  {
  }

  lemma AbsorbKeepsKeys(s: seq<RawProduct>, x: RawProduct, st: Reduction)
    requires forall k :: k in st.kept <==> KeyOccurs(s, k)
    ensures forall k :: k in Absorb(st, x).kept <==> KeyOccurs(s + [x], k)
  {
    AbsorbKeys(st, x);
    forall k ensures k in Absorb(st, x).kept <==> KeyOccurs(s + [x], k) {
      KeyOccursSnoc(s, x, k);
    }
  }

  /** The new record takes over a name when it is its first record or strictly newer than the one kept. */
  lemma NewRecordWins(s: seq<RawProduct>, x: RawProduct, st: Reduction, k: string)
    requires ReductionMatches(s, st)
    requires KeyOf(x) == Some(k) && (k !in st.kept || x.createdTime > st.kept[k].createdTime)
    ensures KeptRecord(s + [x], k, |s|)
  {
    if k in st.kept {
      var j :| KeptRecord(s, k, j) && st.kept[k] == Normalize(s[j]);
      assert forall i :: 0 <= i < |s| && KeyOf(s[i]) == Some(k) ==> s[i].createdTime <= s[j].createdTime;
    } else {
      assert !KeyOccurs(s, k);
    }
    KeptRecordNew(s, x, k);
  }

  /** Otherwise the record kept for a name stays kept. */
  lemma OldRecordStays(s: seq<RawProduct>, x: RawProduct, st: Reduction, k: string)
    requires ReductionMatches(s, st)
    requires k in st.kept && (KeyOf(x) == Some(k) ==> x.createdTime <= st.kept[k].createdTime)
    ensures exists j :: KeptRecord(s + [x], k, j) && st.kept[k] == Normalize((s + [x])[j])
  {
    var j :| KeptRecord(s, k, j) && st.kept[k] == Normalize(s[j]);
    KeptRecordSnoc(s, x, k, j);
    assert (s + [x])[j] == s[j];
  }

  /** The record absorbing leaves under a name: the new one when it wins, else the one kept before. */
  lemma AbsorbRecordUnder(st: Reduction, x: RawProduct, k: string)
    requires k in Absorb(st, x).kept
    ensures KeyOf(x) == Some(k) && (k !in st.kept || x.createdTime > st.kept[k].createdTime) ==>
              Absorb(st, x).kept[k] == Normalize(x)
    ensures !(KeyOf(x) == Some(k) && (k !in st.kept || x.createdTime > st.kept[k].createdTime)) ==>
              k in st.kept && Absorb(st, x).kept[k] == st.kept[k]
  {
  }

  lemma AbsorbKeepsRecords(s: seq<RawProduct>, x: RawProduct, st: Reduction)
    requires ReductionMatches(s, st)
    ensures var st' := Absorb(st, x);
            forall k :: k in st'.kept ==> exists j :: KeptRecord(s + [x], k, j) && st'.kept[k] == Normalize((s + [x])[j])
  {
    var st' := Absorb(st, x);
    forall k | k in st'.kept
      ensures exists j :: KeptRecord(s + [x], k, j) && st'.kept[k] == Normalize((s + [x])[j])
    {
      AbsorbRecordUnder(st, x, k);
      if KeyOf(x) == Some(k) && (k !in st.kept || x.createdTime > st.kept[k].createdTime) {
        NewRecordWins(s, x, st, k);
        assert (s + [x])[|s|] == x;
      } else {
        OldRecordStays(s, x, st, k);
      }
    }
  }

  /**
   * The reduction keeps exactly one record per normalised name that occurs,
   * drops unnamed records, keys every kept record by its own name, and keeps
   * for each name the newest record, the first one seen among equally new ones.
   */
  lemma {:induction false} ReduceCorrect(raw: seq<RawProduct>)
    ensures ReductionCorrect(raw, Reduce(raw))
  {
    if raw != [] {
      var s := raw[..|raw| - 1];
      var x := raw[|raw| - 1];
      assert raw == s + [x];
      ReduceCorrect(s);
      AbsorbKeepsShape(Reduce(s), x);
      AbsorbKeepsKeys(s, x, Reduce(s));
      AbsorbKeepsRecords(s, x, Reduce(s));
    }
  }

  /** The kept records in the order their names were first inserted (`Array.from(map.values())`). */
  function Values(st: Reduction): seq<Product>
    requires forall k :: k in st.order ==> k in st.kept
  {
    seq(|st.order|, i requires 0 <= i < |st.order| => st.kept[st.order[i]])
  }

  /** The deduplicated list: one record per name, sorted newest first. */
  function UniqueByName(raw: seq<RawProduct>): seq<Product> {
    ReduceCorrect(raw);
    SortNewestFirst(Values(Reduce(raw)), CreatedTime)
  }

  lemma ValuesDistinct(raw: seq<RawProduct>)
    ensures ReductionCorrect(raw, Reduce(raw))
    ensures DistinctKeys(Values(Reduce(raw)), ProductKey)
  {
    ReduceCorrect(raw);
    var st := Reduce(raw);
    var values := Values(st);
    forall i, j | 0 <= i < j < |values| ensures ProductKey(values[i]) != ProductKey(values[j]) {
      assert ProductKey(values[i]) == st.order[i];
    }
  }

  /** `q` is the normalised form of the record kept for its name. */
  ghost predicate IsKeptRecord(raw: seq<RawProduct>, q: Product) {
    exists j :: KeptRecord(raw, ProductKey(q), j) && q == Normalize(raw[j])
  }

  /** Every value of the reduction is the kept record for its own name. */
  lemma ValueIsKept(raw: seq<RawProduct>, st: Reduction, m: int)
    requires ReductionCorrect(raw, st)
    requires 0 <= m < |st.order|
    ensures KeyOccurs(raw, ProductKey(Values(st)[m]))
    ensures IsKeptRecord(raw, Values(st)[m])
  {
    var k := st.order[m];
    var q := Values(st)[m];
    assert q == st.kept[k] && ProductKey(q) == k;
    var j :| KeptRecord(raw, k, j) && q == Normalize(raw[j]);
    assert KeyOf(raw[j]) == Some(k);
  }

  /**
   * The list `fetchProducts` shows is newest first, holds one record per
   * normalised name that occurs among the fetched records (unnamed records
   * dropped), and each record is the normalised form of the newest fetched
   * record with that name, the first one among equally new ones.
   */
  lemma UniqueByNameCorrect(raw: seq<RawProduct>)
    ensures NewestFirst(UniqueByName(raw), CreatedTime)
    ensures DistinctKeys(UniqueByName(raw), ProductKey)
    ensures forall k :: KeyOccurs(raw, k) <==> exists i :: 0 <= i < |UniqueByName(raw)| && ProductKey(UniqueByName(raw)[i]) == k
    ensures forall i :: 0 <= i < |UniqueByName(raw)| ==> IsKeptRecord(raw, UniqueByName(raw)[i])
  {
    ValuesDistinct(raw);
    var st := Reduce(raw);
    var values := Values(st);
    var unique := UniqueByName(raw);
    SortIsNewestFirstPermutation(values, CreatedTime);
    SortKeepsKeysDistinct(values, CreatedTime, ProductKey);
    forall k | KeyOccurs(raw, k) ensures exists i :: 0 <= i < |unique| && ProductKey(unique[i]) == k {
      var m :| 0 <= m < |st.order| && st.order[m] == k;
      assert ProductKey(values[m]) == k;
      assert values[m] in unique;
      var i :| 0 <= i < |unique| && unique[i] == values[m];
    }
    forall i | 0 <= i < |unique|
      ensures KeyOccurs(raw, ProductKey(unique[i])) && IsKeptRecord(raw, unique[i])
    {
      var m :| 0 <= m < |values| && values[m] == unique[i];
      ValueIsKept(raw, st, m);
    }
  }

  /** The `forEach` that fills the map keyed by normalised name, then the sort. */
  method ReduceByName(raw: seq<RawProduct>) returns (unique: seq<Product>)
    ensures unique == UniqueByName(raw)
  {
    var order: seq<string> := [];
    var kept: map<string, Product> := map[];
    var n := 0;
    while n < |raw|
      invariant 0 <= n <= |raw|
      invariant Reduction(order, kept) == Reduce(raw[..n])
    {
      assert raw[..n + 1][..n] == raw[..n];
      var p := raw[n];
      var name := NameOf(p);
      if name.Some? {
        var key := NameKey(name.value);
        if key !in kept {
          order := order + [key];
          kept := kept[key := Normalize(p)];
        } else if p.createdTime > kept[key].createdTime {
          kept := kept[key := Normalize(p)];
        }
      }
      n := n + 1;
    }
    assert raw[..n] == raw;
    ReduceCorrect(raw);
    unique := SortNewestFirst(Values(Reduction(order, kept)), CreatedTime);
  }

  // ------------------------------------------------------------- reconciling

  /** Some product of the fetched list has this id. */
  predicate Listed(list: seq<Product>, id: string) {
    exists i :: 0 <= i < |list| && list[i].productId == id
  }

  /** The pending ids, in order, that appear in the list (one entry per occurrence). */
  function Found(pending: seq<string>, list: seq<Product>): seq<string> {
    if pending == [] then []
    else Found(pending[..|pending| - 1], list)
         + (if Listed(list, pending[|pending| - 1]) then [pending[|pending| - 1]] else [])
  }

  /** The pending ids, in order, that do not appear in the list. */
  function Unfound(pending: seq<string>, list: seq<Product>): seq<string> {
    if pending == [] then []
    else Unfound(pending[..|pending| - 1], list)
         + (if Listed(list, pending[|pending| - 1]) then [] else [pending[|pending| - 1]])
  }

  /** The ids of `s` that some product of the list carries. */
  ghost function FoundSet(s: seq<string>, list: seq<Product>): set<string> {
    set id | id in s && Listed(list, id)
  }

  /** The ids of `s` that are not in `gone`, in order. */
  function Drop(s: seq<string>, gone: set<string>): seq<string> {
    if s == [] then []
    else Drop(s[..|s| - 1], gone) + (if s[|s| - 1] in gone then [] else [s[|s| - 1]])
  }

  /** `ids.filter((pid) => pid !== id)` removes one more id from what is already dropped. */
  lemma {:induction false} DropOneMore(s: seq<string>, gone: set<string>, id: string)
    ensures Drop(Drop(s, gone), {id}) == Drop(s, gone + {id})
  {
    if s != [] {
      var init := s[..|s| - 1];
      var last := s[|s| - 1];
      DropOneMore(init, gone, id);
      var d := Drop(init, gone);
      if last !in gone {
        var e := d + [last];
        assert Drop(s, gone) == e;
        assert e[..|e| - 1] == d && e[|e| - 1] == last;
        assert Drop(e, {id}) == Drop(d, {id}) + (if last == id then [] else [last]);
        assert Drop(s, gone + {id}) == Drop(init, gone + {id}) + (if last == id then [] else [last]);
      } else {
        assert Drop(s, gone) == d;
        assert Drop(s, gone + {id}) == Drop(init, gone + {id});
      }
    }
  }

  lemma {:induction false} DropNothing(s: seq<string>)
    ensures Drop(s, {}) == s
  {
    if s != [] {
      DropNothing(s[..|s| - 1]);
      assert s == s[..|s| - 1] + [s[|s| - 1]];
    }
  }

  lemma {:induction false} DropFound(s: seq<string>, list: seq<Product>, gone: set<string>)
    requires forall i :: 0 <= i < |s| ==> (s[i] in gone <==> Listed(list, s[i]))
    ensures Drop(s, gone) == Unfound(s, list)
  {
    if s != [] {
      DropFound(s[..|s| - 1], list, gone);
    }
  }

  lemma {:induction false} FoundUnfoundCounts(pending: seq<string>, list: seq<Product>)
    ensures multiset(Found(pending, list)) + multiset(Unfound(pending, list)) == multiset(pending)
  {
    if pending != [] {
      var init := pending[..|pending| - 1];
      var last := pending[|pending| - 1];
      FoundUnfoundCounts(init, list);
      FoundUnfoundStep(pending, list);
      assert pending == init + [last];
      assert multiset(pending) == multiset(init) + multiset{last};
    }
  }

  /** The last pending id lands in exactly one of the two parts. */
  lemma FoundUnfoundStep(pending: seq<string>, list: seq<Product>)
    requires pending != []
    ensures var init, last := pending[..|pending| - 1], pending[|pending| - 1];
            multiset(Found(pending, list)) + multiset(Unfound(pending, list))
            == multiset(Found(init, list)) + multiset(Unfound(init, list)) + multiset{last}
  {
    var init, last := pending[..|pending| - 1], pending[|pending| - 1];
    var found, unfound := Found(init, list), Unfound(init, list);
    if Listed(list, last) {
      assert Found(pending, list) == found + [last];
      assert Unfound(pending, list) == unfound;
      assert multiset(found + [last]) == multiset(found) + multiset{last};
    } else {
      assert Found(pending, list) == found;
      assert Unfound(pending, list) == unfound + [last];
      assert multiset(unfound + [last]) == multiset(unfound) + multiset{last};
    }
  }

  lemma {:induction false} FoundAreListed(pending: seq<string>, list: seq<Product>)
    ensures forall i :: 0 <= i < |Found(pending, list)| ==> Listed(list, Found(pending, list)[i])
    ensures forall i :: 0 <= i < |Unfound(pending, list)| ==> !Listed(list, Unfound(pending, list)[i])
  {
    if pending != [] {
      FoundAreListed(pending[..|pending| - 1], list);
    }
  }

  lemma {:induction false} NothingFoundKeepsAll(pending: seq<string>, list: seq<Product>)
    ensures Found(pending, list) == [] ==> Unfound(pending, list) == pending
  {
    if pending != [] {
      NothingFoundKeepsAll(pending[..|pending| - 1], list);
      assert pending == pending[..|pending| - 1] + [pending[|pending| - 1]];
    }
  }

  /** One more pending id examined: it joins the found ids exactly when the list carries it. */
  lemma PollStep(pending: seq<string>, list: seq<Product>, i: nat)
    requires i < |pending|
    ensures Found(pending[..i + 1], list)
            == Found(pending[..i], list) + (if Listed(list, pending[i]) then [pending[i]] else [])
    ensures Listed(list, pending[i]) ==> FoundSet(pending[..i + 1], list) == FoundSet(pending[..i], list) + {pending[i]}
    ensures !Listed(list, pending[i]) ==> FoundSet(pending[..i + 1], list) == FoundSet(pending[..i], list)
  {
    assert pending[..i + 1] == pending[..i] + [pending[i]];
    assert pending[..i + 1][..i] == pending[..i];
  }

  lemma InFoundIff(pending: seq<string>, list: seq<Product>, id: string)
    ensures id in Unfound(pending, list) <==> id in pending && !Listed(list, id)
    ensures id in Found(pending, list) <==> id in pending && Listed(list, id)
    ensures Listed(list, id) ==> multiset(Found(pending, list))[id] == multiset(pending)[id]
  {
    FoundUnfoundCounts(pending, list);
    FoundAreListed(pending, list);
    var found := Found(pending, list);
    var unfound := Unfound(pending, list);
    assert id in pending <==> multiset(pending)[id] > 0;
    assert id in found <==> multiset(found)[id] > 0;
    assert id in unfound <==> multiset(unfound)[id] > 0;
    if Listed(list, id) {
      assert id !in unfound;
    } else {
      assert id !in found;
    }
  }
  /**
   * Reconciling splits the pending list: an id survives exactly when no product
   * of the list has it, every occurrence of a found id is reported once, the two
   * parts together are the pending list, and when nothing is found nothing changes.
   */
  lemma ReconcilePartition(pending: seq<string>, list: seq<Product>)
    ensures multiset(Found(pending, list)) + multiset(Unfound(pending, list)) == multiset(pending)
    ensures forall id :: id in Unfound(pending, list) <==> id in pending && !Listed(list, id)
    ensures forall id :: id in Found(pending, list) <==> id in pending && Listed(list, id)
    ensures forall id :: Listed(list, id) ==> multiset(Found(pending, list))[id] == multiset(pending)[id]
    ensures Found(pending, list) == [] ==> Unfound(pending, list) == pending
  {
    FoundUnfoundCounts(pending, list);
    NothingFoundKeepsAll(pending, list);
    forall id ensures id in Unfound(pending, list) <==> id in pending && !Listed(list, id)
      ensures id in Found(pending, list) <==> id in pending && Listed(list, id)
      ensures Listed(list, id) ==> multiset(Found(pending, list))[id] == multiset(pending)[id]
    {
      InFoundIff(pending, list, id);
    }
  }

  /**
   * The `forEach` of `pollForProcessedProducts`: every pending id the list
   * carries fires a notice and is filtered out of the copy being updated.
   */
  method ScanPending(pending: seq<string>, list: seq<Product>) returns (updatedIds: seq<string>, toasts: seq<string>, foundAny: bool)
    ensures updatedIds == Unfound(pending, list)
    ensures toasts == Found(pending, list)
    ensures foundAny <==> Found(pending, list) != []
  {
    updatedIds := pending;
    foundAny := false;
    toasts := [];
    var i := 0;
    DropNothing(pending);
    assert FoundSet(pending[..0], list) == {};
    while i < |pending|
      invariant 0 <= i <= |pending|
      invariant updatedIds == Drop(pending, FoundSet(pending[..i], list))
      invariant toasts == Found(pending[..i], list)
      invariant foundAny <==> toasts != []
    {
      var id := pending[i];
      PollStep(pending, list, i);
      if Listed(list, id) {
        toasts := toasts + [id];
        DropOneMore(pending, FoundSet(pending[..i], list), id);
        updatedIds := Drop(updatedIds, {id});
        foundAny := true;
      }
      i := i + 1;
    }
    assert pending[..i] == pending;
    DropFound(pending, list, FoundSet(pending, list));
  }

  // -------------------------------------------------------------- pagination

  /** `Math.ceil(n / pageSize)` */
  function TotalPages(n: nat, pageSize: nat): nat
    requires pageSize > 0
  {
    (n + pageSize - 1) / pageSize
  }

  lemma MulLe(d: nat, a: nat, b: nat)
    requires a <= b
    ensures d * a <= d * b
  {
    assert d * b == d * a + d * (b - a);
  }

  lemma DivLowerBound(x: nat, d: nat, q: nat)
    requires d > 0 && q * d <= x
    ensures q <= x / d
  {
    var r := x / d;
    assert x == d * r + x % d;
    assert x < d * (r + 1);
    if q > r {
      MulLe(d, r + 1, q);
      assert false;
    }
  }

  /** The pages exactly cover the list with less than one page to spare, and there are none only for an empty list. */
  lemma TotalPagesIsCeiling(n: nat, pageSize: nat)
    requires pageSize > 0
    ensures n <= TotalPages(n, pageSize) * pageSize < n + pageSize
    ensures TotalPages(n, pageSize) == 0 <==> n == 0
  {
    var t := TotalPages(n, pageSize);
    assert n + pageSize - 1 == t * pageSize + (n + pageSize - 1) % pageSize;
    if t >= 1 {
      MulLe(pageSize, 1, t);
    }
  }

  /** `Array.prototype.slice(start, end)`, negative positions counting from the end. */
  function JsSlice<T>(s: seq<T>, start: int, end: int): (r: seq<T>)
    ensures |r| <= |s|
  {
    var lo := if start < 0 then (if |s| + start < 0 then 0 else |s| + start) else (if start < |s| then start else |s|);
    var hi := if end < 0 then (if |s| + end < 0 then 0 else |s| + end) else (if end < |s| then end else |s|);
    if lo < hi then s[lo..hi] else []
  }

  /** `products.slice((currentPage - 1) * P, currentPage * P)` */
  function PageOf<T>(products: seq<T>, page: int, pageSize: nat): seq<T> {
    JsSlice(products, (page - 1) * pageSize, page * pageSize)
  }

  /**
   * A page is the window of at most `pageSize` records starting at
   * `(page - 1) * pageSize`, and every record sits on page `i / pageSize + 1`
   * at position `i % pageSize`.
   */
  lemma PageIsWindow<T>(products: seq<T>, page: int, pageSize: nat)
    requires pageSize > 0 && page >= 1
    ensures |PageOf(products, page, pageSize)| <= pageSize
    ensures (page - 1) * pageSize < |products| ==>
              PageOf(products, page, pageSize)
              == products[(page - 1) * pageSize .. if page * pageSize < |products| then page * pageSize else |products|]
    ensures (page - 1) * pageSize >= |products| ==> PageOf(products, page, pageSize) == []
  {
    assert page * pageSize == (page - 1) * pageSize + pageSize;
    assert (page - 1) * pageSize >= 0;
  }

  lemma EveryRecordOnItsPage<T>(products: seq<T>, pageSize: nat, i: nat)
    requires pageSize > 0 && i < |products|
    ensures i / pageSize + 1 <= TotalPages(|products|, pageSize)
    ensures i % pageSize < |PageOf(products, i / pageSize + 1, pageSize)|
    ensures PageOf(products, i / pageSize + 1, pageSize)[i % pageSize] == products[i]
  {
    var page := i / pageSize + 1;
    assert i == (page - 1) * pageSize + i % pageSize;
    PageIsWindow(products, page, pageSize);
    assert (page - 1) * pageSize <= i;
    var n := |products|;
    assert page * pageSize <= n + pageSize - 1 by {
      assert page * pageSize == (page - 1) * pageSize + pageSize;
    }
    DivLowerBound(n + pageSize - 1, pageSize, page);
  }

  /** `Math.max(prev - 1, 1)` */
  function PrevPageOf(page: int): int { if page - 1 > 1 then page - 1 else 1 }

  /** `Math.min(prev + 1, totalPages)` */
  function NextPageOf(page: int, totalPages: int): int { if page + 1 < totalPages then page + 1 else totalPages }

  /**
   * Previous never leaves a page below 1, next never passes the last page, and
   * from a page in range both stay in range and move by at most one.
   */
  lemma PageMovesClamped(page: int, totalPages: int)
    ensures PrevPageOf(page) >= 1
    ensures NextPageOf(page, totalPages) <= totalPages
    ensures 1 <= page <= totalPages ==>
              && 1 <= PrevPageOf(page) <= totalPages && page - 1 <= PrevPageOf(page) <= page
              && 1 <= NextPageOf(page, totalPages) <= totalPages && page <= NextPageOf(page, totalPages) <= page + 1
  {
  }

  // ---------------------------------------------------------------- the hook

  /** Outcome of the list request once it settles. */
  datatype ListResponse =
    | ListNotOk(status: nat)
    | ListOk(products: Option<seq<RawProduct>>)   // None: `products` missing or not an array
    | ListAborted
    | ListNetworkError(message: string)

  /**
   * A list request that has been sent and has not settled yet: the
   * `isPolling` argument of its `fetchProducts` call, and whether its
   * controller has been aborted.
   */
  datatype Request = Request(isPolling: bool, aborted: bool)

  /**
   * `abortController.current.abort()` when a controller is set: the request
   * the controller belongs to is marked aborted, every other request is left
   * as it was.
   */
  function AbortCurrent(outstanding: map<nat, Request>, controller: Option<nat>): (r: map<nat, Request>)
    ensures r.Keys == outstanding.Keys
    ensures forall t :: t in r && controller != Some(t) ==> r[t] == outstanding[t]
    ensures controller.Some? && controller.value in outstanding ==>
              r[controller.value] == outstanding[controller.value].(aborted := true)
  {
    if controller.Some? && controller.value in outstanding then
      outstanding[controller.value := outstanding[controller.value].(aborted := true)]
    else
      outstanding
  }

  /**
   * What a request settles with: once its controller is aborted the pending
   * `fetch` (or `response.json()`) rejects with `AbortError`, whatever the
   * server sent.
   */
  function SettledAs(request: Request, response: ListResponse): (r: ListResponse)
    ensures request.aborted ==> r == ListAborted
    ensures !request.aborted ==> r == response
  {
    if request.aborted then ListAborted else response
  }

  class ProductInputState {
    const storage: SessionStorage
    const pageSize: nat                   // PRODUCTS_PER_PAGE
    var url: string
    var isSubmitting: bool
    var error: Option<string>
    var products: seq<Product>
    var isLoading: bool
    var isFetching: bool                  // the single-flight ref
    var controller: Option<nat>           // abortController.current: the request it belongs to, or null
    var outstanding: map<nat, Request>    // the requests sent and not yet settled, by number
    var processingIds: seq<string>
    var polling: bool                     // pollingRef.current is set
    var currentPage: int
    var notices: seq<string>              // one entry per "now live" toast, naming the id that fired it
    var navigation: Option<Route>
    var requestsIssued: nat               // list requests sent so far; request n is the (n+1)-th

    /**
     * The request bookkeeping: requests are numbered in the order they are
     * sent, the controller belongs to an unsettled request, and while the
     * guard is set, that request has not been aborted. The converse fails:
     * a request can be outstanding, unaborted, with the guard clear (see
     * `StoredIdsMountOverlaps`).
     */
    predicate Consistent()
      reads this
    {
      && (forall t :: t in outstanding ==> t < requestsIssued)
      && (controller.Some? ==> controller.value in outstanding)
      && (isFetching ==> controller.Some? && controller.value in outstanding && !outstanding[controller.value].aborted)
    }

    constructor (storage: SessionStorage, pageSize: nat)
      requires pageSize > 0
      ensures this.storage == storage && this.pageSize == pageSize
      ensures url == "" && !isSubmitting && error == None && products == [] && isLoading
      ensures !isFetching && controller == None && outstanding == map[] && processingIds == [] && !polling
      ensures currentPage == 1 && notices == [] && navigation == None && requestsIssued == 0
      ensures Consistent()
    {
      this.storage := storage;
      this.pageSize := pageSize;
      url := "";
      isSubmitting := false;
      error := None;
      products := [];
      isLoading := true;
      isFetching := false;
      controller := None;
      outstanding := map[];
      processingIds := [];
      polling := false;
      currentPage := 1;
      notices := [];
      navigation := None;
      requestsIssued := 0;
    }

    /** `getProcessingIds`: the stored list, or [] when missing or unparseable. */
    method GetProcessingIds() returns (ids: seq<string>)
      ensures ids == ReadPendingIds(storage.entries)
      ensures PendingKey !in storage.entries ==> ids == []
    {
      if PendingKey in storage.entries && storage.entries[PendingKey].IdList? {
        ids := storage.entries[PendingKey].ids;
      } else {
        ids := [];
      }
    }

    /** `updateProcessingIds`: set the state; store a non-empty list, remove the key for an empty one. */
    method UpdateProcessingIds(ids: seq<string>)
      modifies this, storage
      ensures processingIds == ids
      ensures storage.entries == WritePendingIds(old(storage.entries), ids)
      ensures ReadPendingIds(storage.entries) == ids
      ensures PendingKey in storage.entries <==> ids != []
      ensures storage.entries == old(storage.entries)[PendingKey := IdList(ids)] || ids == []
      ensures products == old(products) && polling == old(polling) && notices == old(notices)
      ensures currentPage == old(currentPage) && isFetching == old(isFetching) && error == old(error)
      ensures requestsIssued == old(requestsIssued) && navigation == old(navigation)
      ensures isLoading == old(isLoading) && controller == old(controller) && outstanding == old(outstanding)
      ensures url == old(url) && isSubmitting == old(isSubmitting)
    {
      processingIds := ids;
      if |ids| > 0 {
        storage.entries := storage.entries[PendingKey := IdList(ids)];
      } else {
        storage.entries := storage.entries - {PendingKey};
      }
    }

    /** The mount effect: adopt stored pending ids when there are any. */
    method LoadProcessingIds()
      modifies this
      ensures var stored := ReadPendingIds(storage.entries);
              processingIds == if stored != [] then stored else old(processingIds)
      ensures products == old(products) && polling == old(polling) && notices == old(notices)
      ensures isFetching == old(isFetching) && requestsIssued == old(requestsIssued)
      ensures url == old(url) && isSubmitting == old(isSubmitting) && error == old(error)
      ensures isLoading == old(isLoading) && controller == old(controller) && outstanding == old(outstanding)
      ensures currentPage == old(currentPage) && navigation == old(navigation)
    {
      var ids := GetProcessingIds();
      if |ids| > 0 {
        processingIds := ids;
      }
    }

    /**
     * `pollForProcessedProducts`: every pending id some product of the list
     * carries is removed and fires one "now live" notice; storage is rewritten
     * only when something was found; once nothing is pending the poll timer is
     * cleared.
     */
    method PollForProcessedProducts(list: seq<Product>)
      modifies this, storage
      ensures old(processingIds) == [] ==>
                processingIds == [] && storage.entries == old(storage.entries)
                && notices == old(notices) && polling == old(polling)
      ensures processingIds == Unfound(old(processingIds), list)
      ensures notices == old(notices) + Found(old(processingIds), list)
      ensures storage.entries == if Found(old(processingIds), list) == [] then old(storage.entries)
                                 else WritePendingIds(old(storage.entries), Unfound(old(processingIds), list))
      ensures polling == (old(polling) && (old(processingIds) == [] || Unfound(old(processingIds), list) != []))
      ensures products == old(products) && currentPage == old(currentPage) && isFetching == old(isFetching)
      ensures requestsIssued == old(requestsIssued) && error == old(error) && navigation == old(navigation)
      ensures isLoading == old(isLoading) && controller == old(controller) && outstanding == old(outstanding)
      ensures url == old(url) && isSubmitting == old(isSubmitting)
    {
      if |processingIds| == 0 {
        return;
      }
      var updatedIds, toasts, foundAny := ScanPending(processingIds, list);
      NothingFoundKeepsAll(processingIds, list);
      notices := notices + toasts;
      if foundAny {
        UpdateProcessingIds(updatedIds);
      }
      if |updatedIds| == 0 && polling {
        polling := false;
      }
    }

    /**
     * The start of `fetchProducts`: a call made while the guard is set returns
     * without a request. Otherwise the current controller's request, if any,
     * is aborted, and request number `requestsIssued` is sent under a new
     * controller with the guard set; every other unsettled request is left as
     * it was.
     */
    method StartFetch(isPolling: bool) returns (issued: bool)
      requires Consistent()
      modifies this
      ensures Consistent()
      ensures issued == !old(isFetching)
      ensures !issued ==> isFetching && requestsIssued == old(requestsIssued) && isLoading == old(isLoading)
                          && controller == old(controller) && outstanding == old(outstanding)
      ensures issued ==> isFetching && requestsIssued == old(requestsIssued) + 1
                         && controller == Some(old(requestsIssued))
                         && outstanding == AbortCurrent(old(outstanding), old(controller))[old(requestsIssued) := Request(isPolling, false)]
                         && isLoading == (if isPolling then old(isLoading) else true)
      ensures products == old(products) && processingIds == old(processingIds) && polling == old(polling)
      ensures error == old(error) && currentPage == old(currentPage) && notices == old(notices)
      ensures url == old(url) && isSubmitting == old(isSubmitting) && navigation == old(navigation)
    {
      if isFetching {
        return false;
      }
      outstanding := AbortCurrent(outstanding, controller);
      outstanding := outstanding[requestsIssued := Request(isPolling, false)];
      controller := Some(requestsIssued);
      isFetching := true;
      requestsIssued := requestsIssued + 1;
      if !isPolling {
        isLoading := true;
      }
      return true;
    }

    /**
     * The success path of `fetchProducts`: the deduplicated list replaces the
     * products, the error clears, pending ids are reconciled against the new
     * list, and a change in the number of products returns to page 1.
     */
    method LoadList(raw: seq<RawProduct>)
      modifies this, storage
      ensures products == UniqueByName(raw) && error == None
      ensures processingIds == Unfound(old(processingIds), products)
      ensures notices == old(notices) + Found(old(processingIds), products)
      ensures currentPage == (if |products| != |old(products)| then 1 else old(currentPage))
      ensures storage.entries == if Found(old(processingIds), products) == [] then old(storage.entries)
                                 else WritePendingIds(old(storage.entries), Unfound(old(processingIds), products))
      ensures polling == (old(polling) && (old(processingIds) == [] || Unfound(old(processingIds), products) != []))
      ensures isFetching == old(isFetching) && isLoading == old(isLoading) && controller == old(controller) && outstanding == old(outstanding)
      ensures requestsIssued == old(requestsIssued) && navigation == old(navigation)
      ensures url == old(url) && isSubmitting == old(isSubmitting)
    {
      var unique := ReduceByName(raw);
      var oldCount := |products|;
      products := unique;
      error := None;
      if |processingIds| > 0 {
        PollForProcessedProducts(unique);
      } else {
        ReconcilePartition(processingIds, unique);
      }
      if |unique| != oldCount {
        currentPage := 1;
      }
    }

    /** A failed fetch: only the error changes. */
    method SetError(message: string)
      modifies this
      ensures error == Some(message)
      ensures products == old(products) && processingIds == old(processingIds) && polling == old(polling)
      ensures notices == old(notices) && currentPage == old(currentPage) && isFetching == old(isFetching)
      ensures isLoading == old(isLoading) && controller == old(controller) && outstanding == old(outstanding)
      ensures requestsIssued == old(requestsIssued) && navigation == old(navigation)
      ensures url == old(url) && isSubmitting == old(isSubmitting)
    {
      error := Some(message);
    }

    /**
     * The `try`/`catch` of `fetchProducts` once its request settles with
     * `response`: a usable list is reduced and shown and reconciled against
     * the pending ids; a failure sets the error (an abort does not).
     */
    method ApplyResponse(response: ListResponse)
      modifies this, storage
      ensures response.ListOk? && response.products.Some? ==>
                && products == UniqueByName(response.products.value)
                && error == None
                && processingIds == Unfound(old(processingIds), products)
                && notices == old(notices) + Found(old(processingIds), products)
                && currentPage == (if |products| != |old(products)| then 1 else old(currentPage))
                && storage.entries == (if Found(old(processingIds), products) == [] then old(storage.entries)
                                       else WritePendingIds(old(storage.entries), Unfound(old(processingIds), products)))
                && polling == (old(polling) && (old(processingIds) == [] || Unfound(old(processingIds), products) != []))
      ensures !(response.ListOk? && response.products.Some?) ==>
                storage.entries == old(storage.entries) && polling == old(polling)
                && notices == old(notices) && currentPage == old(currentPage)
                && products == old(products) && processingIds == old(processingIds)
      ensures response.ListOk? && response.products.None? ==> error == Some("No products found")
      ensures response.ListNotOk? ==> error == Some("Failed to fetch products: " + NatToString(response.status))
      ensures response.ListNetworkError? ==> error == Some(response.message)
      ensures response.ListAborted? ==> error == old(error)
      ensures isFetching == old(isFetching) && isLoading == old(isLoading)
      ensures controller == old(controller) && outstanding == old(outstanding)
      ensures requestsIssued == old(requestsIssued) && navigation == old(navigation)
      ensures url == old(url) && isSubmitting == old(isSubmitting)
    {
      match response {
        case ListOk(Some(raw)) =>
          LoadList(raw);
        case ListOk(None) =>
          SetError("No products found");
        case ListNotOk(status) =>
          SetError("Failed to fetch products: " + NatToString(status));
        case ListNetworkError(message) =>
          SetError(message);
        case ListAborted =>
      }
    }

    /**
     * Request `token` settles: an aborted one with `AbortError`, any other
     * with `response`, handled by the `try`/`catch`. The `finally` then runs
     * for whichever request it was: it clears the guard and the controller
     * and, for a non-polling fetch, ends loading, even when the guard and the
     * controller belong to a newer request, which is then left outstanding
     * with no controller to abort it.
     */
    method FinishFetch(token: nat, response: ListResponse)
      requires Consistent() && token in outstanding
      modifies this, storage
      ensures Consistent()
      ensures outstanding == old(outstanding) - {token}
      ensures !isFetching && controller == None
      ensures isLoading == (if old(outstanding[token]).isPolling then old(isLoading) else false)
      ensures old(controller).Some? && old(controller) != Some(token) ==>
                old(controller).value in outstanding && controller == None
      ensures var outcome := SettledAs(old(outstanding[token]), response);
              outcome.ListOk? && outcome.products.Some? ==>
                && products == UniqueByName(outcome.products.value)
                && error == None
                && processingIds == Unfound(old(processingIds), products)
                && notices == old(notices) + Found(old(processingIds), products)
                && currentPage == (if |products| != |old(products)| then 1 else old(currentPage))
                && storage.entries == (if Found(old(processingIds), products) == [] then old(storage.entries)
                                       else WritePendingIds(old(storage.entries), Unfound(old(processingIds), products)))
                && polling == (old(polling) && (old(processingIds) == [] || Unfound(old(processingIds), products) != []))
      ensures var outcome := SettledAs(old(outstanding[token]), response);
              !(outcome.ListOk? && outcome.products.Some?) ==>
                storage.entries == old(storage.entries) && polling == old(polling)
                && notices == old(notices) && currentPage == old(currentPage)
                && products == old(products) && processingIds == old(processingIds)
      ensures var outcome := SettledAs(old(outstanding[token]), response);
              && (outcome.ListOk? && outcome.products.None? ==> error == Some("No products found"))
              && (outcome.ListNotOk? ==> error == Some("Failed to fetch products: " + NatToString(outcome.status)))
              && (outcome.ListNetworkError? ==> error == Some(outcome.message))
              && (outcome.ListAborted? ==> error == old(error))
      ensures requestsIssued == old(requestsIssued) && navigation == old(navigation)
      ensures url == old(url) && isSubmitting == old(isSubmitting)
    {
      var request := outstanding[token];
      outstanding := outstanding - {token};
      ApplyResponse(SettledAs(request, response));
      EndFetch(request.isPolling);
    }

    /** The `finally` of `fetchProducts`: release the guard, end loading for a non-polling fetch, drop the controller. */
    method EndFetch(isPolling: bool)
      modifies this
      ensures !isFetching && controller == None && outstanding == old(outstanding)
      ensures isLoading == (if isPolling then old(isLoading) else false)
      ensures products == old(products) && processingIds == old(processingIds) && polling == old(polling)
      ensures notices == old(notices) && currentPage == old(currentPage) && error == old(error)
      ensures requestsIssued == old(requestsIssued) && navigation == old(navigation)
      ensures url == old(url) && isSubmitting == old(isSubmitting)
    {
      isFetching := false;
      if !isPolling {
        isLoading := false;
      }
      controller := None;
    }

    /**
     * The list effect: fetch, and start the 2-second poll timer when storage
     * holds pending ids and no timer is set.
     */
    method RunListEffect() returns (issued: bool)
      requires Consistent()
      modifies this
      ensures Consistent()
      ensures issued == !old(isFetching)
      ensures polling == (old(polling) || ReadPendingIds(storage.entries) != [])
      ensures isFetching && requestsIssued == (if issued then old(requestsIssued) + 1 else old(requestsIssued))
      ensures isLoading == (if issued then true else old(isLoading))
      ensures issued ==> controller == Some(old(requestsIssued))
                         && outstanding == AbortCurrent(old(outstanding), old(controller))[old(requestsIssued) := Request(false, false)]
      ensures !issued ==> controller == old(controller) && outstanding == old(outstanding)
      ensures processingIds == old(processingIds) && products == old(products)
      ensures error == old(error) && currentPage == old(currentPage) && notices == old(notices)
      ensures url == old(url) && isSubmitting == old(isSubmitting) && navigation == old(navigation)
    {
      issued := StartFetch(false);
      var ids := GetProcessingIds();
      if |ids| > 0 && !polling {
        polling := true;
      }
    }

    /** One tick of the poll timer: a polling fetch, subject to the single-flight guard. */
    method PollTick() returns (issued: bool)
      requires polling && Consistent()
      modifies this
      ensures Consistent()
      ensures issued == !old(isFetching)
      ensures isFetching && polling
      ensures requestsIssued == (if issued then old(requestsIssued) + 1 else old(requestsIssued))
      ensures issued ==> controller == Some(old(requestsIssued))
                         && outstanding == AbortCurrent(old(outstanding), old(controller))[old(requestsIssued) := Request(true, false)]
      ensures !issued ==> controller == old(controller) && outstanding == old(outstanding)
      ensures isLoading == old(isLoading)
      ensures products == old(products) && processingIds == old(processingIds)
      ensures error == old(error) && currentPage == old(currentPage) && notices == old(notices)
      ensures url == old(url) && isSubmitting == old(isSubmitting) && navigation == old(navigation)
    {
      issued := StartFetch(true);
    }

    /**
     * The effect cleanup: abort the current controller's request (the
     * controller itself stays set), release the guard, clear the timer.
     */
    method CleanupListEffect()
      requires Consistent()
      modifies this
      ensures Consistent()
      ensures !isFetching && !polling
      ensures controller == old(controller) && outstanding == AbortCurrent(old(outstanding), old(controller))
      ensures old(controller).Some? ==> outstanding[old(controller).value].aborted
      ensures processingIds == old(processingIds) && products == old(products) && currentPage == old(currentPage)
      ensures url == old(url) && isSubmitting == old(isSubmitting) && error == old(error)
      ensures isLoading == old(isLoading) && requestsIssued == old(requestsIssued)
      ensures notices == old(notices) && navigation == old(navigation)
    {
      outstanding := AbortCurrent(outstanding, controller);
      isFetching := false;
      polling := false;
    }

    /** Clamped page movement. */
    method HandlePrevPage()
      modifies this
      ensures currentPage == PrevPageOf(old(currentPage)) && currentPage >= 1
      ensures products == old(products)
      ensures isFetching == old(isFetching) && polling == old(polling) && processingIds == old(processingIds)
      ensures url == old(url) && isSubmitting == old(isSubmitting) && error == old(error)
      ensures isLoading == old(isLoading) && controller == old(controller) && outstanding == old(outstanding)
      ensures notices == old(notices) && navigation == old(navigation) && requestsIssued == old(requestsIssued)
    {
      currentPage := if currentPage - 1 > 1 then currentPage - 1 else 1;
    }

    method HandleNextPage()
      requires pageSize > 0
      modifies this
      ensures currentPage == NextPageOf(old(currentPage), TotalPages(|products|, pageSize))
      ensures currentPage <= TotalPages(|products|, pageSize)
      ensures products == old(products)
      ensures isFetching == old(isFetching) && polling == old(polling) && processingIds == old(processingIds)
      ensures url == old(url) && isSubmitting == old(isSubmitting) && error == old(error)
      ensures isLoading == old(isLoading) && controller == old(controller) && outstanding == old(outstanding)
      ensures notices == old(notices) && navigation == old(navigation) && requestsIssued == old(requestsIssued)
    {
      var totalPages := (|products| + pageSize - 1) / pageSize;
      currentPage := if currentPage + 1 < totalPages then currentPage + 1 else totalPages;
    }

    /** The records on the current page: `PageOf` the current page, whose window `PageIsWindow` states. */
    function PaginatedProducts(): (page: seq<Product>)
      requires pageSize > 0
      reads this
      ensures |page| <= pageSize
    {
      PageOf(products, currentPage, pageSize)
    }

    /**
     * `handleSubmit`: a blank URL and one the URL parser rejects are refused
     * with their messages and no navigation; otherwise the trimmed URL, prefixed
     * with `https://` when its scheme does not start with "http", is handed to
     * the processing page. `isSubmitting` ends false on every path.
     */
    method HandleSubmit(protocolOf: string -> Option<string>)
      modifies this
      ensures !isSubmitting
      ensures IsBlank(old(url)) ==> error == Some("Please enter a URL") && navigation == old(navigation)
      ensures !IsBlank(old(url)) && old(protocolOf(Trim(url))).None? ==>
                error == Some("Please enter a valid URL") && navigation == old(navigation)
      ensures !IsBlank(old(url)) && old(protocolOf(Trim(url))).Some? ==>
                error == Some("")
                && navigation == Some(ProcessingRoute(
                     WithHttpScheme(Trim(old(url)), old(protocolOf(Trim(url))).value), None))
      ensures products == old(products) && processingIds == old(processingIds) && url == old(url)
      ensures isLoading == old(isLoading) && isFetching == old(isFetching) && controller == old(controller) && outstanding == old(outstanding)
      ensures polling == old(polling) && currentPage == old(currentPage) && notices == old(notices)
      ensures requestsIssued == old(requestsIssued)
    {
      var validatedUrl := Trim(url);
      var parsed := protocolOf(validatedUrl);
      isSubmitting := true;
      if validatedUrl == [] {
        EndSubmit("Please enter a URL", None);
      } else if parsed.None? {
        EndSubmit("Please enter a valid URL", None);
      } else {
        validatedUrl := WithHttpScheme(validatedUrl, parsed.value);
        EndSubmit("", Some(ProcessingRoute(validatedUrl, None)));
      }
    }

    /** The end of `handleSubmit`: set the error, navigate when there is a target, stop submitting. */
    method EndSubmit(message: string, target: Option<Route>)
      modifies this
      ensures !isSubmitting && error == Some(message)
      ensures navigation == if target.Some? then target else old(navigation)
      ensures products == old(products) && processingIds == old(processingIds) && url == old(url)
      ensures isLoading == old(isLoading) && isFetching == old(isFetching) && controller == old(controller) && outstanding == old(outstanding)
      ensures polling == old(polling) && currentPage == old(currentPage) && notices == old(notices)
      ensures requestsIssued == old(requestsIssued)
    {
      error := Some(message);
      if target.Some? {
        navigation := target;
      }
      isSubmitting := false;
    }
  }

  /**
   * Mounting with pending ids in storage leaves two requests racing. The
   * mount effect adopts the stored ids and the list effect sends request 0;
   * the changed ids re-run the list effect, whose cleanup aborts request 0
   * and whose re-run sends request 1. When request 0 settles (as aborted) its
   * `finally` clears the guard, the controller and the loading flag although
   * request 1 is still out, so the next poll tick sends request 2 beside it,
   * and a later cleanup aborts request 2 only: request 1, a non-polling
   * fetch, stays outstanding, unaborted, while nothing shows loading.
   */
  method StoredIdsMountOverlaps(stored: seq<string>, pageSize: nat) returns (hook: ProductInputState)
    requires stored != [] && pageSize > 0
    ensures hook.requestsIssued == 3 && hook.outstanding.Keys == {1, 2}
    ensures hook.outstanding[1] == Request(false, false)
    ensures hook.outstanding[2] == Request(true, true)
    ensures hook.controller == Some(2) && !hook.isFetching && !hook.isLoading
  {
    hook := MountWithStoredIds(stored, pageSize);
    hook.FinishFetch(0, ListOk(Some([])));
    assert hook.outstanding == map[1 := Request(false, false)];
    var third := hook.PollTick();
    assert hook.outstanding == map[1 := Request(false, false), 2 := Request(true, false)];
    hook.CleanupListEffect();
  }

  /**
   * The first two runs of the list effect on a mount with stored pending
   * ids: request 0 is sent, aborted by the cleanup, and request 1 is sent
   * under the guard while request 0 is still unsettled.
   */
  method MountWithStoredIds(stored: seq<string>, pageSize: nat) returns (hook: ProductInputState)
    requires stored != [] && pageSize > 0
    ensures fresh(hook) && fresh(hook.storage) && hook.Consistent()
    ensures hook.outstanding == map[0 := Request(false, true), 1 := Request(false, false)]
    ensures hook.controller == Some(1) && hook.isFetching && hook.isLoading && hook.polling
    ensures hook.requestsIssued == 2 && hook.processingIds == stored
  {
    var storage := new SessionStorage();
    storage.entries := map[PendingKey := IdList(stored)];
    assert ReadPendingIds(storage.entries) == stored;
    hook := new ProductInputState(storage, pageSize);
    hook.LoadProcessingIds();
    var first := hook.RunListEffect();
    assert hook.outstanding == map[0 := Request(false, false)] && hook.controller == Some(0);
    hook.CleanupListEffect();
    assert hook.outstanding == map[0 := Request(false, true)] && !hook.isFetching;
    var second := hook.RunListEffect();
  }
}

=== FILE: product_input_page.dfy ===
/**
 * The original product input page (frontend/src/components/pages/ProductInput.tsx):
 * the six most recent products, and the submit that validates the URL with
 * the `URL` parser, sends it for metadata extraction and chooses the error
 * message or the processing route from the response.
 */
module ProductInputPage {
  import opened JsText
  import opened Recency
  import opened Routes
  import opened UrlCanonical

  const RecentCount := 6
  const InvalidUrlMessage := "Please enter a valid URL (e.g., https://www.example.com/product)"
  const SubmitFailedMessage := "Failed to process URL. Please try again."
  const FetchFailedMessage := "Failed to fetch products"

  /** A listed product; `created_time` already converted to milliseconds. */
  datatype Listed = Listed(productId: string, productName: string, productUrl: Option<string>,
                           productImageUrl: Option<string>, createdTime: int)

  function CreatedTime(p: Listed): int {
    p.createdTime
  }

  /** `productsArray.sort(newest first).slice(0, 6)` */
  function RecentProducts(products: seq<Listed>): seq<Listed> {
    TakeNewest(products, CreatedTime, RecentCount)
  }

  /**
   * The recent list holds at most six products, newest first, all from the
   * fetched list, and no product left out is newer than one shown.
   */
  lemma RecentProductsAreNewestSix(products: seq<Listed>)
    ensures |RecentProducts(products)| == if |products| <= RecentCount then |products| else RecentCount
    ensures NewestFirst(RecentProducts(products), CreatedTime)
    ensures multiset(RecentProducts(products)) <= multiset(products)
    ensures forall x, k :: x in multiset(products) - multiset(RecentProducts(products))
                           && 0 <= k < |RecentProducts(products)|
              ==> x.createdTime <= RecentProducts(products)[k].createdTime
  {
    TakeNewestIsTopN(products, CreatedTime, RecentCount);
  }

  /** The parsed body of a refused extraction request; `None` when it is not JSON. */
  datatype ErrorData = ErrorData(message: Option<string>, error: Option<string>)

  /** `Failed to process URL (<status>)`, replaced by the body's `message`, else its `error`. */
  function NotOkMessage(status: nat, body: Option<ErrorData>): (m: string)
    ensures m != ""
    ensures body.Some? && Truthy(body.value.message) ==> m == body.value.message.value
    ensures body.Some? && !Truthy(body.value.message) && Truthy(body.value.error) ==> m == body.value.error.value
    ensures body.None? || (!Truthy(body.value.message) && !Truthy(body.value.error)) ==>
              m == "Failed to process URL (" + NatToString(status) + ")"
  {
    var fallback := "Failed to process URL (" + NatToString(status) + ")";
    if body.None? then fallback
    else OrElse(Or(body.value.message, body.value.error), fallback)
  }

  datatype FetchResponse =
    | FetchNotOk(status: nat)
    | FetchOk(products: Option<seq<Listed>>)
    | FetchThrown(message: string)

  datatype SubmitResponse =
    | SubmitNotOk(status: nat, body: Option<ErrorData>)
    | SubmitOk(productId: Option<string>)
    | SubmitThrown(message: string)

  class ProductInputPageState {
    var url: string
    var products: seq<Listed>
    var isLoading: bool
    var isSubmitting: bool
    var error: Option<string>
    var submittedUrl: Option<string>
    var requests: seq<string>          // URLs sent for extraction, oldest first
    var navigation: Option<Route>

    constructor ()
      ensures url == "" && products == [] && isLoading && !isSubmitting && error == None
      ensures submittedUrl == None && requests == [] && navigation == None
    {
      url := "";
      products := [];
      isLoading := true;
      isSubmitting := false;
      error := None;
      submittedUrl := None;
      requests := [];
      navigation := None;
    }

    /** `fetchProducts` once the request settles: the recent list, or the failure's message. */
    method FinishFetch(response: FetchResponse)
      modifies this
      ensures !isLoading
      ensures response.FetchOk? ==>
                products == RecentProducts(if response.products.Some? then response.products.value else [])
                && error == None
      ensures response.FetchNotOk? ==>
                products == old(products) && error == Some("HTTP error! status: " + NatToString(response.status))
      ensures response.FetchThrown? ==>
                products == old(products)
                && error == Some(if response.message != "" then response.message else FetchFailedMessage)
      ensures url == old(url) && isSubmitting == old(isSubmitting) && submittedUrl == old(submittedUrl)
      ensures requests == old(requests) && navigation == old(navigation)
    {
      match response {
      case FetchOk(list) =>
        var productsArray := if list.Some? then list.value else [];
        products := RecentProducts(productsArray);
        error := None;
      case FetchNotOk(status) =>
        error := Some("HTTP error! status: " + NatToString(status));
      case FetchThrown(message) =>
        error := Some(if message != "" then message else FetchFailedMessage);
      }
      isLoading := false;
    }

    /**
     * The first half of `handleSubmit`: an empty field does nothing; text
     * the parser rejects sets the error and sends nothing; otherwise the
     * trimmed text, given `https://` unless its protocol starts with "http",
     * is sent.
     */
    method Submit(protocolOf: string -> Option<string>) returns (sent: Option<string>)
      modifies this
      ensures old(url) == "" ==>
                sent == None && isSubmitting == old(isSubmitting) && error == old(error)
      ensures old(url) != "" && old(protocolOf(Trim(url))).None? ==>
                sent == None && !isSubmitting && error == Some(InvalidUrlMessage)
      ensures old(url) != "" && old(protocolOf(Trim(url))).Some? ==>
                sent == Some(WithHttpScheme(Trim(old(url)), old(protocolOf(Trim(url))).value))
                && isSubmitting && error == None
      ensures sent.Some? ==> requests == old(requests) + [sent.value] && submittedUrl == sent
      ensures sent.None? ==> requests == old(requests) && submittedUrl == old(submittedUrl)
      ensures url == old(url) && products == old(products) && isLoading == old(isLoading)
      ensures navigation == old(navigation)
    {
      sent := None;
      var validatedUrl := Trim(url);
      var protocol := protocolOf(validatedUrl);
      if url != "" {
        isSubmitting := true;
        error := None;
        if protocol.None? {
          error := Some(InvalidUrlMessage);
          isSubmitting := false;
        } else {
          validatedUrl := WithHttpScheme(validatedUrl, protocol.value);
          requests := requests + [validatedUrl];
          submittedUrl := Some(validatedUrl);
          sent := Some(validatedUrl);
        }
      }
    }

    /**
     * The rest of `handleSubmit`: an accepted request goes to the processing
     * page, with the product id only when the response carries one; a refusal
     * or an error sets the message and ends submitting.
     */
    method CompleteSubmit(response: SubmitResponse)
      requires submittedUrl.Some?
      modifies this
      ensures submittedUrl == old(submittedUrl) && requests == old(requests)
      ensures response.SubmitOk? ==>
                navigation == Some(ProcessingRoute(submittedUrl.value,
                                                   if Truthy(response.productId) then response.productId else None))
                && error == old(error) && isSubmitting == old(isSubmitting)
      ensures response.SubmitNotOk? ==>
                navigation == old(navigation) && !isSubmitting
                && error == Some(NotOkMessage(response.status, response.body))
      ensures response.SubmitThrown? ==>
                navigation == old(navigation) && !isSubmitting
                && error == Some(if response.message != "" then response.message else SubmitFailedMessage)
      ensures url == old(url) && products == old(products) && isLoading == old(isLoading)
    {
      match response
      case SubmitOk(productId) =>
        if Truthy(productId) {
          navigation := Some(ProcessingRoute(submittedUrl.value, productId));
        } else {
          navigation := Some(ProcessingRoute(submittedUrl.value, None));
        }
      case SubmitNotOk(status, body) =>
        var errorMessage := NotOkMessage(status, body);
        error := Some(if errorMessage != "" then errorMessage else SubmitFailedMessage);
        isSubmitting := false;
      case SubmitThrown(message) =>
        error := Some(if message != "" then message else SubmitFailedMessage);
        isSubmitting := false;
    }
  }
}

=== FILE: product_input_v2.dfy ===
/**
 * The batch product form (frontend/src/features/productInputv2/index.tsx):
 * entries are collected one by one with their URL formatted, sent together,
 * and the form flags move between the entry view, the success view and the
 * confirmation.
 */
module ProductInputV2 {
  import opened JsText
  import opened Routes
  import opened UrlCanonical

  const BatchFailedNotice := "an error occured please try again"

  /** A saved entry: the formatted URL and the pasted product text. */
  datatype SavedProduct = SavedProduct(productUrl: string, rawProductText: string)

  /** How `batch_extract_product_info` settles. */
  datatype BatchResponse =
    | BatchAnswered(success: bool, errorMessage: Option<string>)
    | BatchThrown(message: string)

  class ProductInputV2Form {
    var url: string
    var text: string
    var showSuccess: bool
    var confirmationVisible: bool
    var savedProducts: seq<SavedProduct>
    var batchesSent: seq<seq<SavedProduct>>   // request bodies, oldest first
    var notices: seq<string>                  // error toasts, oldest first
    var navigation: Option<Route>

    constructor ()
      ensures url == "" && text == "" && !showSuccess && !confirmationVisible
      ensures savedProducts == [] && batchesSent == [] && notices == [] && navigation == None
    {
      url := "";
      text := "";
      showSuccess := false;
      confirmationVisible := false;
      savedProducts := [];
      batchesSent := [];
      notices := [];
      navigation := None;
    }

    /** Every saved URL carries an `http://` or `https://` scheme. */
    ghost predicate Valid()
      reads this
    {
      forall i :: 0 <= i < |savedProducts| ==> HasHttpScheme(savedProducts[i].productUrl)
    }

    /**
     * A blank URL saves nothing; otherwise exactly one entry, with the
     * formatted URL and the raw text, is appended after the earlier ones.
     */
    method HandleSubmit()
      requires Valid()
      modifies this
      ensures Valid()
      ensures IsBlank(old(url)) ==> savedProducts == old(savedProducts) && showSuccess == old(showSuccess)
      ensures !IsBlank(old(url)) ==>
                savedProducts == old(savedProducts) + [SavedProduct(FormatUrl(old(url)), old(text))]
                && showSuccess
      ensures url == old(url) && text == old(text) && confirmationVisible == old(confirmationVisible)
      ensures batchesSent == old(batchesSent) && notices == old(notices) && navigation == old(navigation)
    {
      if IsBlank(url) {
        return;
      }
      FormatUrlShape(url);
      var product := SavedProduct(FormatUrl(url), text);
      savedProducts := savedProducts + [product];
      showSuccess := true;
    }

    /** Clear the inputs and leave the success view; the saved entries stay. */
    method ResetForm()
      requires Valid()
      modifies this
      ensures Valid()
      ensures url == "" && text == "" && !showSuccess
      ensures savedProducts == old(savedProducts) && confirmationVisible == old(confirmationVisible)
      ensures batchesSent == old(batchesSent) && notices == old(notices) && navigation == old(navigation)
    {
      url := "";
      text := "";
      showSuccess := false;
    }

    method HandleDone()
      requires Valid()
      modifies this
      ensures Valid()
      ensures !showSuccess && confirmationVisible
      ensures url == old(url) && text == old(text) && savedProducts == old(savedProducts)
      ensures batchesSent == old(batchesSent) && notices == old(notices) && navigation == old(navigation)
    {
      showSuccess := false;
      confirmationVisible := true;
    }

    /** With nothing saved no request is sent; otherwise every saved entry goes in one request. */
    method StartBatch() returns (sent: bool)
      requires Valid()
      modifies this
      ensures Valid()
      ensures sent <==> old(savedProducts) != []
      ensures batchesSent == if sent then old(batchesSent) + [old(savedProducts)] else old(batchesSent)
      ensures url == old(url) && text == old(text) && savedProducts == old(savedProducts)
      ensures showSuccess == old(showSuccess) && confirmationVisible == old(confirmationVisible)
      ensures notices == old(notices) && navigation == old(navigation)
    {
      if |savedProducts| == 0 {
        return false;
      }
      batchesSent := batchesSent + [savedProducts];
      return true;
    }

    /** Success moves on to the confirmation; a refusal or an error raises a toast. */
    method FinishBatch(response: BatchResponse)
      requires Valid()
      modifies this
      ensures Valid()
      ensures response.BatchAnswered? && response.success ==>
                !showSuccess && confirmationVisible && notices == old(notices)
      ensures response.BatchAnswered? && !response.success ==>
                notices == old(notices) + [OrElse(response.errorMessage, BatchFailedNotice)]
                && showSuccess == old(showSuccess) && confirmationVisible == old(confirmationVisible)
      ensures response.BatchThrown? ==>
                notices == old(notices) + [response.message]
                && showSuccess == old(showSuccess) && confirmationVisible == old(confirmationVisible)
      ensures url == old(url) && text == old(text) && savedProducts == old(savedProducts)
      ensures batchesSent == old(batchesSent) && navigation == old(navigation)
    {
      match response
      case BatchAnswered(success, errorMessage) =>
        if success {
          HandleDone();
        } else {
          notices := notices + [OrElse(errorMessage, BatchFailedNotice)];
        }
      case BatchThrown(message) =>
        notices := notices + [message];
    }

    method GoToDashboard()
      requires Valid()
      modifies this
      ensures Valid()
      ensures navigation == Some(ProductHomeRoute)
      ensures url == old(url) && text == old(text) && savedProducts == old(savedProducts)
      ensures showSuccess == old(showSuccess) && confirmationVisible == old(confirmationVisible)
      ensures batchesSent == old(batchesSent) && notices == old(notices)
    {
      navigation := Some(ProductHomeRoute);
    }
  }
}

=== FILE: recency.dfy ===
/**
 * Ordering product lists newest first. Both product lists sort with the
 * comparator `(a, b) => timeB - timeA` and JavaScript's `Array.prototype.sort`,
 * which is stable; the model is an insertion sort that puts every element
 * after all elements at least as new as it, so equal times keep their order.
 */
module Recency {

  /** Creation times never increase along the list. */
  ghost predicate NewestFirst<T>(s: seq<T>, time: T -> int) {
    forall i, j :: 0 <= i < j < |s| ==> time(s[i]) >= time(s[j])
  }

  /** No two elements share a key. */
  ghost predicate DistinctKeys<T, K>(s: seq<T>, key: T -> K) {
    forall i, j :: 0 <= i < j < |s| ==> key(s[i]) != key(s[j])
  }

  /** Place `x` into a newest-first list after every element at least as new. */
  function Insert<T>(x: T, s: seq<T>, time: T -> int): seq<T> {
    if s == [] || time(x) > time(s[0]) then [x] + s
    else [s[0]] + Insert(x, s[1..], time)
  }

  /** The comparator sort: insert the elements one by one, in list order. */
  function SortNewestFirst<T>(s: seq<T>, time: T -> int): seq<T> {
    if s == [] then []
    else Insert(s[|s| - 1], SortNewestFirst(s[..|s| - 1], time), time)
  }

  lemma {:induction false} InsertKeepsOrder<T>(x: T, s: seq<T>, time: T -> int)
    requires NewestFirst(s, time)
    ensures NewestFirst(Insert(x, s, time), time)
  {
    if s == [] || time(x) > time(s[0]) {
    } else {
      var tail := s[1..];
      InsertKeepsOrder(x, tail, time);
      InsertMembers(x, tail, time);
      var r := Insert(x, tail, time);
      forall k | 0 <= k < |r| ensures time(s[0]) >= time(r[k]) {
        if r[k] != x {
          var m :| 0 <= m < |tail| && tail[m] == r[k];
          assert s[m + 1] == r[k];
        }
      }
    }
  }

  lemma {:induction false} InsertMembers<T>(x: T, s: seq<T>, time: T -> int)
    ensures |Insert(x, s, time)| == |s| + 1
    ensures forall i :: 0 <= i < |Insert(x, s, time)| ==> Insert(x, s, time)[i] == x || Insert(x, s, time)[i] in s
    ensures forall j :: 0 <= j < |s| ==> s[j] in Insert(x, s, time)
    ensures x in Insert(x, s, time)
  {
    if s == [] || time(x) > time(s[0]) {
    } else {
      InsertMembers(x, s[1..], time);
      var r := Insert(x, s[1..], time);
      forall j | 0 <= j < |s| ensures s[j] in Insert(x, s, time) {
        if j > 0 {
          assert s[1..][j - 1] == s[j];
        }
      }
    }
  }

  lemma {:induction false} InsertAddsOne<T>(x: T, s: seq<T>, time: T -> int)
    ensures multiset(Insert(x, s, time)) == multiset(s) + multiset{x}
  {
    if s == [] || time(x) > time(s[0]) {
      assert multiset([x] + s) == multiset{x} + multiset(s);
    } else {
      var rest := Insert(x, s[1..], time);
      InsertAddsOne(x, s[1..], time);
      assert s == [s[0]] + s[1..];
      assert multiset(s) == multiset{s[0]} + multiset(s[1..]);
      assert multiset([s[0]] + rest) == multiset{s[0]} + multiset(rest);
      assert Insert(x, s, time) == [s[0]] + rest;
    }
  }


  /** Sorting yields a newest-first permutation of its input. */
  lemma {:induction false} SortIsNewestFirstPermutation<T>(s: seq<T>, time: T -> int)
    ensures NewestFirst(SortNewestFirst(s, time), time)
    ensures multiset(SortNewestFirst(s, time)) == multiset(s)
    ensures |SortNewestFirst(s, time)| == |s|
  {
    if s != [] {
      var init := s[..|s| - 1];
      SortIsNewestFirstPermutation(init, time);
      InsertKeepsOrder(s[|s| - 1], SortNewestFirst(init, time), time);
      InsertAddsOne(s[|s| - 1], SortNewestFirst(init, time), time);
      assert s == init + [s[|s| - 1]];
      assert |multiset(SortNewestFirst(s, time))| == |multiset(s)|;
    }
  }

  lemma {:induction false} InsertKeepsKeysDistinct<T, K>(x: T, s: seq<T>, time: T -> int, key: T -> K)
    requires DistinctKeys(s, key)
    requires forall i :: 0 <= i < |s| ==> key(s[i]) != key(x)
    ensures DistinctKeys(Insert(x, s, time), key)
  {
    if s == [] || time(x) > time(s[0]) {
    } else {
      var tail := s[1..];
      InsertKeepsKeysDistinct(x, tail, time, key);
      InsertMembers(x, tail, time);
      var r := Insert(x, tail, time);
      forall k | 0 <= k < |r| ensures key(r[k]) != key(s[0]) {
        if r[k] != x {
          var m :| 0 <= m < |tail| && tail[m] == r[k];
          assert s[m + 1] == r[k];
        }
      }
    }
  }

  /** Sorting keeps exactly the elements of its input, and keys that were distinct stay distinct. */
  lemma {:induction false} SortKeepsKeysDistinct<T, K>(s: seq<T>, time: T -> int, key: T -> K)
    requires DistinctKeys(s, key)
    ensures DistinctKeys(SortNewestFirst(s, time), key)
    ensures forall i :: 0 <= i < |SortNewestFirst(s, time)| ==> SortNewestFirst(s, time)[i] in s
    ensures forall j :: 0 <= j < |s| ==> s[j] in SortNewestFirst(s, time)
  {
    if s != [] {
      var init := s[..|s| - 1];
      var x := s[|s| - 1];
      SortKeepsKeysDistinct(init, time, key);
      var sorted := SortNewestFirst(init, time);
      forall i | 0 <= i < |sorted| ensures key(sorted[i]) != key(x) {
        var m :| 0 <= m < |init| && init[m] == sorted[i];
      }
      InsertKeepsKeysDistinct(x, sorted, time, key);
      InsertMembers(x, sorted, time);
      var r := Insert(x, sorted, time);
      forall i | 0 <= i < |r| ensures r[i] in s {
        if r[i] != x {
          var m :| 0 <= m < |sorted| && sorted[m] == r[i];
          var m' :| 0 <= m' < |init| && init[m'] == sorted[m];
          assert s[m'] == r[i];
        }
      }
      forall j | 0 <= j < |s| ensures s[j] in r {
        if j < |s| - 1 {
          assert init[j] == s[j];
          var m :| 0 <= m < |sorted| && sorted[m] == s[j];
          assert sorted[m] in r;
        }
      }
    }
  }

  /** The elements of `s` created at time `t`, in list order. */
  function WithTime<T>(s: seq<T>, time: T -> int, t: int): seq<T> {
    if s == [] then [] else (if time(s[0]) == t then [s[0]] else []) + WithTime(s[1..], time, t)
  }

  lemma {:induction false} WithTimeSnoc<T>(s: seq<T>, x: T, time: T -> int, t: int)
    ensures WithTime(s + [x], time, t) == WithTime(s, time, t) + (if time(x) == t then [x] else [])
    decreases |s|
  {
    if s == [] {
      assert [] + [x] == [x];
      assert [x][1..] == [];
    } else {
      assert (s + [x])[1..] == s[1..] + [x];
      WithTimeSnoc(s[1..], x, time, t);
    }
  }

  lemma {:induction false} WithTimeNoneNewer<T>(s: seq<T>, time: T -> int, t: int)
    requires forall i :: 0 <= i < |s| ==> time(s[i]) < t
    ensures WithTime(s, time, t) == []
    decreases |s|
  {
    if s != [] {
      WithTimeNoneNewer(s[1..], time, t);
    }
  }

  /**
   * Inserting into a newest-first list puts `x` after every element of the
   * same time and leaves the other times' elements in their order.
   */
  lemma {:induction false} InsertWithTime<T>(x: T, s: seq<T>, time: T -> int, t: int)
    requires NewestFirst(s, time)
    ensures WithTime(Insert(x, s, time), time, t) == WithTime(s, time, t) + (if time(x) == t then [x] else [])
    decreases |s|
  {
    if s == [] {
      assert Insert(x, s, time) == [x];
      assert [x][1..] == [];
    } else if time(x) > time(s[0]) {
      assert Insert(x, s, time) == [x] + s;
      assert ([x] + s)[1..] == s;
      if time(x) == t {
        WithTimeNoneNewer(s, time, t);
      }
    } else {
      var rest := Insert(x, s[1..], time);
      assert Insert(x, s, time) == [s[0]] + rest;
      assert ([s[0]] + rest)[1..] == rest;
      InsertWithTime(x, s[1..], time, t);
    }
  }

  /**
   * The sort is stable: for every creation time, the elements with that time
   * appear in the sorted list in the same order as in the input.
   */
  lemma {:induction false} SortIsStable<T>(s: seq<T>, time: T -> int, t: int)
    ensures WithTime(SortNewestFirst(s, time), time, t) == WithTime(s, time, t)
    decreases |s|
  {
    if s != [] {
      var init := s[..|s| - 1];
      var x := s[|s| - 1];
      SortIsStable(init, time, t);
      SortIsNewestFirstPermutation(init, time);
      InsertWithTime(x, SortNewestFirst(init, time), time, t);
      assert s == init + [x];
      WithTimeSnoc(init, x, time, t);
    }
  }

  /** The `n` newest elements (`sort(...).slice(0, n)`). */
  function TakeNewest<T>(s: seq<T>, time: T -> int, n: nat): (r: seq<T>)
  {
    var sorted := SortNewestFirst(s, time);
    if |sorted| <= n then sorted else sorted[..n]
  }

  /**
   * Keeping the `n` newest: at most `n` elements, newest first, drawn from the
   * input, exactly `n` when the input has that many, and nothing left behind is
   * newer than anything kept.
   */
  lemma {:induction false} TakeNewestIsTopN<T>(s: seq<T>, time: T -> int, n: nat)
    ensures |TakeNewest(s, time, n)| == if |s| <= n then |s| else n
    ensures NewestFirst(TakeNewest(s, time, n), time)
    ensures multiset(TakeNewest(s, time, n)) <= multiset(s)
    ensures forall x, k :: x in multiset(s) - multiset(TakeNewest(s, time, n)) && 0 <= k < |TakeNewest(s, time, n)|
              ==> time(x) <= time(TakeNewest(s, time, n)[k])
  {
    SortIsNewestFirstPermutation(s, time);
    var sorted := SortNewestFirst(s, time);
    var r := TakeNewest(s, time, n);
    if |sorted| > n {
      var rest := sorted[n..];
      assert r == sorted[..n];
      assert sorted == r + rest;
      assert multiset(s) == multiset(r) + multiset(rest);
      PrefixIsNewestFirst(sorted, time, n);
      LeftOutIsNotNewer(sorted, time, n);
    } else {
      assert r == sorted;
    }
  }

  lemma PrefixIsNewestFirst<T>(sorted: seq<T>, time: T -> int, n: nat)
    requires NewestFirst(sorted, time) && n <= |sorted|
    ensures NewestFirst(sorted[..n], time)
  {
    forall i, j | 0 <= i < j < n ensures time(sorted[..n][i]) >= time(sorted[..n][j]) {
      assert sorted[..n][i] == sorted[i] && sorted[..n][j] == sorted[j];
    }
  }

  lemma LeftOutIsNotNewer<T>(sorted: seq<T>, time: T -> int, n: nat)
    requires NewestFirst(sorted, time) && n <= |sorted|
    ensures forall x, k :: x in multiset(sorted[n..]) && 0 <= k < n ==> time(x) <= time(sorted[..n][k])
  {
    var rest := sorted[n..];
    forall x, k | x in multiset(rest) && 0 <= k < n ensures time(x) <= time(sorted[..n][k]) {
      assert x in rest;
      var m :| 0 <= m < |rest| && rest[m] == x;
      assert sorted[n + m] == x && sorted[k] == sorted[..n][k];
    }
  }

}

=== FILE: rejection_feedback.dfy ===
/**
 * The rejection-feedback dialog (frontend/src/components/pages/RejectionFeedback.tsx):
 * the form moves from `input` to `saving` on submit and to `success` when the
 * two-second timer fires, and the panel of the current state is the one
 * marked active.
 */
module RejectionFeedback {

  datatype FormState = Input | Saving | Success

  const PanelBaseClass := "rejection-state-content "

  /** `rejection-state-content ${currentState === panel ? 'active' : ''}` */
  function PanelClass(current: FormState, panel: FormState): string {
    PanelBaseClass + (if current == panel then "active" else "")
  }

  predicate IsActive(cls: string) {
    cls == PanelBaseClass + "active"
  }

  /** Of the three panels, exactly the one showing the current state is active. */
  lemma ExactlyOnePanelActive(current: FormState)
    ensures forall panel :: IsActive(PanelClass(current, panel)) <==> panel == current
    ensures |set panel | panel in [Input, Saving, Success] && IsActive(PanelClass(current, panel))| == 1
  {
    assert (set panel | panel in [Input, Saving, Success] && IsActive(PanelClass(current, panel))) == {current};
  }

  class RejectionFeedbackState {
    var currentState: FormState
    var feedbackText: string
    var submitted: seq<string>     // feedback texts handed over, oldest first
    var timersPending: nat         // two-second timers not yet fired

    constructor ()
      ensures currentState == Input && feedbackText == "" && submitted == [] && timersPending == 0
      ensures Valid()
    {
      currentState := Input;
      feedbackText := "";
      submitted := [];
      timersPending := 0;
    }

    /** A timer is pending only once the form has been submitted; before that the form shows `input`. */
    ghost predicate Valid()
      reads this
    {
      (currentState == Input ==> timersPending == 0 && submitted == [])
      && |submitted| >= timersPending
    }

    method ChangeText(text: string)
      requires Valid()
      modifies this
      ensures Valid()
      ensures feedbackText == text
      ensures currentState == old(currentState) && submitted == old(submitted) && timersPending == old(timersPending)
    {
      feedbackText := text;
    }

    /** Submitting a non-empty reason (the field is `required`) shows `saving` and starts the timer. */
    method HandleSubmit()
      requires Valid() && feedbackText != ""
      modifies this
      ensures Valid()
      ensures currentState == Saving && timersPending == old(timersPending) + 1
      ensures submitted == old(submitted) + [old(feedbackText)] && feedbackText == old(feedbackText)
    {
      submitted := submitted + [feedbackText];
      currentState := Saving;
      timersPending := timersPending + 1;
    }

    /** The timer shows `success`; nothing leads back to `input`. */
    method TimerFires()
      requires Valid() && timersPending > 0
      modifies this
      ensures Valid()
      ensures currentState == Success && timersPending == old(timersPending) - 1
      ensures old(currentState) != Input
      ensures submitted == old(submitted) && feedbackText == old(feedbackText)
    {
      currentState := Success;
      timersPending := timersPending - 1;
    }
  }
}

=== FILE: review_carousel.dfy ===
/**
 * The clinician-review carousel of frontend/src/components/pages/Review.tsx:
 * the active index starts at 0 and moves by conditional expressions instead
 * of the remainder arithmetic of the results page.
 */
module ReviewCarousel {
  import ReviewResults

  const InitialIndex := 0

  /** `prev > 0 ? prev - 1 : reviews.length - 1` */
  function HandlePrev(i: int, len: nat): int {
    if i > 0 then i - 1 else len - 1
  }

  /** `prev < reviews.length - 1 ? prev + 1 : 0` */
  function HandleNext(i: int, len: nat): int {
    if i < len - 1 then i + 1 else 0
  }

  /** Both navigation buttons are disabled when there is at most one review. */
  predicate NavDisabled(len: nat) {
    len <= 1
  }

  /**
   * With at least one review, both moves keep the index on the carousel,
   * wrap at the ends and undo each other; they are the same moves as the
   * results page's remainder arithmetic.
   */
  lemma CarouselMovesAreInverse(i: int, len: nat)
    requires len >= 1 && 0 <= i < len
    ensures 0 <= HandlePrev(i, len) < len && 0 <= HandleNext(i, len) < len
    ensures HandlePrev(HandleNext(i, len), len) == i
    ensures HandleNext(HandlePrev(i, len), len) == i
    ensures HandleNext(i, len) == ReviewResults.ShowNext(i, len)
    ensures HandlePrev(i, len) == ReviewResults.ShowPrev(i, len)
  {
    ReviewResults.CarouselWraps(i, len);
  }

  /**
   * The buttons are disabled exactly where moving would be pointless or
   * wrong: with one review both moves stay on it, with none `HandlePrev`
   * would leave the carousel, and with two or more every move from every
   * index on the carousel changes the index.
   */
  lemma DisabledWhereMovesDegenerate(len: nat)
    ensures NavDisabled(len) ==> forall i :: 0 <= i < len ==> HandlePrev(i, len) == i && HandleNext(i, len) == i
    ensures len == 0 ==> HandlePrev(InitialIndex, len) < 0
    ensures !NavDisabled(len) ==> forall i :: 0 <= i < len ==> HandleNext(i, len) != i && HandlePrev(i, len) != i
  {
  }
}

=== FILE: review_config.dfy ===
/**
 * The review-generation form (frontend/src/components/pages/ReviewConfiguration.tsx):
 * the bounded review-count stepper, the word range kept strictly ordered, the
 * persona selection, the research-link list, and the submit path that
 * validates, builds the payload and registers the product as pending.
 */
module ReviewConfig {
  import opened JsText
  import opened Routes
  import opened SessionStore
  import opened Sequences

  const MinReviews := 1
  const MaxReviews := 20
  const NoProductAlert := "Error: No product ID found. Please try again."
  const NoToneAlert := "Please select at least one review tone."
  const FailedAlert := "Failed to generate reviews. Please try again."

  // ------------------------------------------------------- persona selection

  /** `set.delete(key)` on a selection kept in insertion order. */
  function Without(s: seq<string>, key: string): (r: seq<string>)
    ensures forall i :: 0 <= i < |r| ==> r[i] != key
    ensures forall k :: k in r <==> k in s && k != key
    ensures |r| <= |s|
  {
    if s == [] then []
    else (if s[0] == key then [] else [s[0]]) + Without(s[1..], key)
  }

  /** `handlePersonaClick`: delete the key when selected, otherwise add it at the end. */
  function Toggle(s: seq<string>, key: string): seq<string> {
    if key in s then Without(s, key) else s + [key]
  }

  lemma {:induction false} WithoutKeepsDistinct(s: seq<string>, key: string)
    requires NoDuplicates(s)
    ensures NoDuplicates(Without(s, key))
    ensures key in s ==> |Without(s, key)| == |s| - 1
    ensures key !in s ==> Without(s, key) == s
  {
    if s != [] {
      WithoutKeepsDistinct(s[1..], key);
      if s[0] == key {
        assert key !in s[1..];
      }
      var rest := Without(s[1..], key);
      var r := Without(s, key);
      if s[0] != key {
        assert r == [s[0]] + rest;
        forall i, j | 0 <= i < j < |r| ensures r[i] != r[j] {
          if i == 0 {
            assert r[j] in rest;
            assert r[j] in s[1..];
          } else {
            assert r[i] == rest[i - 1] && r[j] == rest[j - 1];
          }
        }
      }
    }
  }

  /**
   * A click flips whether that persona is selected and touches no other, the
   * selection stays duplicate-free, and a second click on the same persona
   * restores the selected set.
   */
  lemma ToggleFlipsOnlyKey(s: seq<string>, key: string)
    requires NoDuplicates(s)
    ensures NoDuplicates(Toggle(s, key))
    ensures key in Toggle(s, key) <==> key !in s
    ensures forall k :: k != key ==> (k in Toggle(s, key) <==> k in s)
    ensures forall k :: k in Toggle(Toggle(s, key), key) <==> k in s
    ensures |Toggle(Toggle(s, key), key)| == |s|
  {
    WithoutKeepsDistinct(s, key);
    if key !in s {
      var t := s + [key];
      WithoutKeepsDistinct(t, key);
    } else {
      var t := Without(s, key);
      assert Toggle(t, key) == t + [key];
    }
  }

  // ------------------------------------------------------- research links

  /** `links.filter((_, i) => i !== index)` */
  function RemoveAt(links: seq<string>, index: int): seq<string> {
    if links == [] then []
    else (if index == 0 then [] else [links[0]]) + RemoveAt(links[1..], index - 1)
  }

  /**
   * Removing deletes exactly the entry at the index and keeps the others in
   * order; an index outside the list changes nothing.
   */
  lemma {:induction false} RemoveAtDeletesOne(links: seq<string>, index: int)
    ensures 0 <= index < |links| ==> RemoveAt(links, index) == links[..index] + links[index + 1..]
    ensures !(0 <= index < |links|) ==> RemoveAt(links, index) == links
  {
    if links != [] {
      RemoveAtDeletesOne(links[1..], index - 1);
      if 0 < index < |links| {
        assert links[1..][..index - 1] == links[1..index];
        assert links[1..][index..] == links[index + 1..];
        assert [links[0]] + links[1..index] == links[..index];
      }
    }
  }

  /** `links.filter((link) => link.trim() !== "")` */
  function NonBlankLinks(links: seq<string>): seq<string> {
    if links == [] then []
    else (if IsBlank(links[0]) then [] else [links[0]]) + NonBlankLinks(links[1..])
  }

  /**
   * The payload's links are the non-blank links in their original order:
   * every kept link is non-blank, every non-blank link is kept, and nothing
   * is reordered.
   */
  lemma NonBlankLinksFilter(links: seq<string>)
    ensures forall l :: l in NonBlankLinks(links) <==> l in links && !IsBlank(l)
    ensures SubsequenceOf(NonBlankLinks(links), links)
  {
    NonBlankLinksMembers(links);
    NonBlankLinksInOrder(links);
  }

  lemma {:induction false} NonBlankLinksMembers(links: seq<string>)
    ensures forall l :: l in NonBlankLinks(links) <==> l in links && !IsBlank(l)
  {
    if links != [] {
      NonBlankLinksMembers(links[1..]);
      assert links == [links[0]] + links[1..];
    }
  }

  lemma {:induction false} NonBlankLinksInOrder(links: seq<string>)
    ensures SubsequenceOf(NonBlankLinks(links), links)
  {
    if links != [] {
      var rest := NonBlankLinks(links[1..]);
      NonBlankLinksInOrder(links[1..]);
      if IsBlank(links[0]) {
        assert NonBlankLinks(links) == rest;
      } else {
        var r := [links[0]] + rest;
        assert NonBlankLinks(links) == r;
        assert r[0] == links[0] && r[1..] == rest;
      }
    }
  }

  // ------------------------------------------------------- pending ids

  /** Append the product id to the pending list unless it is already there. */
  function RegisterPending(ids: seq<string>, id: string): (r: seq<string>)
  {
    if id in ids then ids else ids + [id]
  }

  /**
   * Registration keeps the earlier ids in place, adds the id at most once,
   * and keeps a duplicate-free list duplicate-free.
   */
  lemma RegisterPendingKeepsDistinct(ids: seq<string>, id: string)
    ensures id in RegisterPending(ids, id)
    ensures RegisterPending(ids, id)[..|ids|] == ids
    ensures |RegisterPending(ids, id)| == if id in ids then |ids| else |ids| + 1
    ensures NoDuplicates(ids) ==> NoDuplicates(RegisterPending(ids, id))
    ensures forall k :: k in RegisterPending(ids, id) <==> k in ids || k == id
  {
  }

  // ------------------------------------------------------- the form

  /** The request body of `generate_reviews_async`. */
  datatype Payload = Payload(
    productId: string,
    numberOfReviews: int,
    minWords: int,
    maxWords: int,
    selectedTones: seq<string>,
    researchLinks: seq<string>)

  /** How the generation request settles. */
  datatype GenerateResponse =
    | GenerateNotOk(status: nat)
    | GenerateOk(success: bool, taskId: Option<string>)
    | GenerateThrown

  class ReviewConfigState {
    const productId: Option<string>    // the `productId` query parameter
    const storage: SessionStorage
    var reviewCount: int
    var minWords: int
    var maxWords: int
    var selected: seq<string>          // the persona `Set`, in insertion order
    var links: seq<string>
    var isGenerating: bool
    var alerts: seq<string>
    var sent: seq<Payload>             // requests sent, oldest first
    var navigation: Option<Route>

    constructor (productId: Option<string>, storage: SessionStorage)
      ensures this.productId == productId && this.storage == storage
      ensures reviewCount == 5 && minWords == 80 && maxWords == 120
      ensures selected == [] && links == [] && !isGenerating
      ensures alerts == [] && sent == [] && navigation == None
      ensures Valid()
    {
      this.productId := productId;
      this.storage := storage;
      reviewCount := 5;
      minWords := 80;
      maxWords := 120;
      selected := [];
      links := [];
      isGenerating := false;
      alerts := [];
      sent := [];
      navigation := None;
    }

    /** The count stays within 1..20, the range strictly ordered, the selection duplicate-free. */
    ghost predicate Valid()
      reads this
    {
      MinReviews <= reviewCount <= MaxReviews && minWords < maxWords && NoDuplicates(selected)
    }

    method DecreaseReviews()
      requires Valid()
      modifies this
      ensures Valid()
      ensures reviewCount == if old(reviewCount) > MinReviews then old(reviewCount) - 1 else old(reviewCount)
      ensures minWords == old(minWords) && maxWords == old(maxWords) && selected == old(selected) && links == old(links)
      ensures isGenerating == old(isGenerating) && alerts == old(alerts) && sent == old(sent) && navigation == old(navigation)
    {
      if reviewCount > 1 {
        reviewCount := reviewCount - 1;
      }
    }

    method IncreaseReviews()
      requires Valid()
      modifies this
      ensures Valid()
      ensures reviewCount == if old(reviewCount) < MaxReviews then old(reviewCount) + 1 else old(reviewCount)
      ensures minWords == old(minWords) && maxWords == old(maxWords) && selected == old(selected) && links == old(links)
      ensures isGenerating == old(isGenerating) && alerts == old(alerts) && sent == old(sent) && navigation == old(navigation)
    {
      if reviewCount < 20 {
        reviewCount := reviewCount + 1;
      }
    }

    /** A minimum not below the maximum is ignored. */
    method MinWordsChange(value: int)
      requires Valid()
      modifies this
      ensures Valid()
      ensures minWords == if value < old(maxWords) then value else old(minWords)
      ensures maxWords == old(maxWords) && reviewCount == old(reviewCount) && selected == old(selected)
      ensures links == old(links)
      ensures isGenerating == old(isGenerating) && alerts == old(alerts) && sent == old(sent) && navigation == old(navigation)
    {
      if value < maxWords {
        minWords := value;
      }
    }

    /** A maximum not above the minimum is ignored. */
    method MaxWordsChange(value: int)
      requires Valid()
      modifies this
      ensures Valid()
      ensures maxWords == if value > old(minWords) then value else old(maxWords)
      ensures minWords == old(minWords) && reviewCount == old(reviewCount) && selected == old(selected)
      ensures links == old(links)
      ensures isGenerating == old(isGenerating) && alerts == old(alerts) && sent == old(sent) && navigation == old(navigation)
    {
      if value > minWords {
        maxWords := value;
      }
    }

    method PersonaClick(key: string)
      requires Valid()
      modifies this
      ensures Valid()
      ensures selected == Toggle(old(selected), key)
      ensures reviewCount == old(reviewCount) && minWords == old(minWords) && maxWords == old(maxWords)
      ensures links == old(links)
      ensures isGenerating == old(isGenerating) && alerts == old(alerts) && sent == old(sent) && navigation == old(navigation)
    {
      ToggleFlipsOnlyKey(selected, key);
      if key in selected {
        selected := Without(selected, key);
      } else {
        selected := selected + [key];
      }
    }

    method AddResearchLink()
      requires Valid()
      modifies this
      ensures Valid()
      ensures links == old(links) + [""]
      ensures selected == old(selected) && reviewCount == old(reviewCount)
      ensures minWords == old(minWords) && maxWords == old(maxWords)
      ensures isGenerating == old(isGenerating) && alerts == old(alerts) && sent == old(sent) && navigation == old(navigation)
    {
      links := links + [""];
    }

    /** Assign into a copy at the index; the list keeps its length. */
    method UpdateResearchLink(index: nat, value: string)
      requires Valid() && index < |links|
      modifies this
      ensures Valid()
      ensures links == old(links)[index := value] && |links| == |old(links)|
      ensures forall i :: 0 <= i < |links| && i != index ==> links[i] == old(links)[i]
      ensures selected == old(selected) && reviewCount == old(reviewCount)
      ensures minWords == old(minWords) && maxWords == old(maxWords)
      ensures isGenerating == old(isGenerating) && alerts == old(alerts) && sent == old(sent) && navigation == old(navigation)
    {
      var updated := links;
      updated := updated[index := value];
      links := updated;
    }

    method RemoveResearchLink(index: int)
      requires Valid()
      modifies this
      ensures Valid()
      ensures links == RemoveAt(old(links), index)
      ensures selected == old(selected) && reviewCount == old(reviewCount)
      ensures minWords == old(minWords) && maxWords == old(maxWords)
      ensures isGenerating == old(isGenerating) && alerts == old(alerts) && sent == old(sent) && navigation == old(navigation)
    {
      links := RemoveAt(links, index);
    }

    /** The request body built from the current form. */
    function BuildPayload(id: string): (p: Payload)
      reads this
      ensures p.productId == id && p.numberOfReviews == reviewCount
      ensures p.minWords == minWords && p.maxWords == maxWords
      ensures p.selectedTones == selected && p.researchLinks == NonBlankLinks(links)
    {
      Payload(id, reviewCount, minWords, maxWords, selected, NonBlankLinks(links))
    }

    /**
     * The first half of `handleSubmit`: without a product id, or with no
     * persona selected, alert and send nothing; otherwise mark generation
     * started and send the payload.
     */
    method Submit() returns (request: Option<Payload>)
      requires Valid()
      modifies this
      ensures Valid()
      ensures !Truthy(productId) ==>
                (request == None && alerts == old(alerts) + [NoProductAlert]
                 && sent == old(sent) && isGenerating == old(isGenerating))
      ensures Truthy(productId) && old(selected) == [] ==>
                (request == None && alerts == old(alerts) + [NoToneAlert]
                 && sent == old(sent) && isGenerating == old(isGenerating))
      ensures Truthy(productId) && old(selected) != [] ==>
                (request == Some(BuildPayload(productId.value)) && isGenerating
                 && sent == old(sent) + [request.value] && alerts == old(alerts))
      ensures reviewCount == old(reviewCount) && minWords == old(minWords) && maxWords == old(maxWords)
      ensures selected == old(selected) && links == old(links) && navigation == old(navigation)
    {
      if !Truthy(productId) {
        alerts := alerts + [NoProductAlert];
        return None;
      }
      if |selected| == 0 {
        alerts := alerts + [NoToneAlert];
        return None;
      }
      isGenerating := true;
      var payload := BuildPayload(productId.value);
      sent := sent + [payload];
      return Some(payload);
    }

    /**
     * The rest of `handleSubmit`: with `success` and a task id, register the
     * product among the pending ids (kept duplicate-free) and go to the product
     * home; on any other outcome alert. Generation ends on every path.
     */
    method CompleteSubmit(response: GenerateResponse)
      requires Valid() && Truthy(productId)
      modifies this, storage
      ensures Valid()
      ensures !isGenerating
      ensures response.GenerateOk? && response.success && Truthy(response.taskId) ==>
                && storage.entries == old(storage.entries)[PendingKey := IdList(RegisterPending(ReadPendingIds(old(storage.entries)), productId.value))]
                && ReadPendingIds(storage.entries) == RegisterPending(ReadPendingIds(old(storage.entries)), productId.value)
                && navigation == Some(ProductHomeRoute) && alerts == old(alerts)
      ensures !(response.GenerateOk? && response.success && Truthy(response.taskId)) ==>
                storage.entries == old(storage.entries) && navigation == old(navigation)
                && alerts == old(alerts) + [FailedAlert]
      ensures reviewCount == old(reviewCount) && selected == old(selected) && links == old(links) && sent == old(sent)
      ensures minWords == old(minWords) && maxWords == old(maxWords)
    {
      if response.GenerateOk? && response.success && Truthy(response.taskId) {
        var ids := ReadPendingIds(storage.entries);
        var id := productId.value;
        if id !in ids {
          ids := ids + [id];
        }
        storage.entries := storage.entries[PendingKey := IdList(ids)];
        navigation := Some(ProductHomeRoute);
      } else {
        alerts := alerts + [FailedAlert];
      }
      isGenerating := false;
    }
  }
}

=== FILE: review_results.dfy ===
/**
 * The generated-review carousel (frontend/src/components/pages/ReviewResults.tsx):
 * wrap-around index arithmetic, the word counter and the card excerpt over
 * HTML review text, and the modal flags the accept, reject and edit actions
 * open and close.
 */
module ReviewResults {
  import opened JsText

  // ------------------------------------------------------- carousel index

  /** JavaScript's `a % n` for a positive divisor: the remainder takes the sign of `a`. */
  function JsRem(a: int, n: int): int
    requires n > 0
  {
    if a >= 0 then a % n else -((-a) % n)
  }

  /** `(prevIndex + 1) % reviewsData.length` */
  function ShowNext(i: int, n: int): int
    requires n > 0
  {
    JsRem(i + 1, n)
  }

  /** `(prevIndex - 1 + reviewsData.length) % reviewsData.length` */
  function ShowPrev(i: int, n: int): int
    requires n > 0
  {
    JsRem(i - 1 + n, n)
  }

  /**
   * From an index on the carousel both moves stay on it, wrapping at the
   * ends, and each undoes the other.
   */
  lemma CarouselWraps(i: int, n: int)
    requires n > 0 && 0 <= i < n
    ensures 0 <= ShowNext(i, n) < n && 0 <= ShowPrev(i, n) < n
    ensures ShowNext(i, n) == if i == n - 1 then 0 else i + 1
    ensures ShowPrev(i, n) == if i == 0 then n - 1 else i - 1
    ensures ShowPrev(ShowNext(i, n), n) == i
    ensures ShowNext(ShowPrev(i, n), n) == i
  {
    NextStep(i, n);
    PrevStep(i, n);
    PrevStep(ShowNext(i, n), n);
    NextStep(ShowPrev(i, n), n);
  }

  lemma NextStep(i: int, n: int)
    requires n > 0 && 0 <= i < n
    ensures ShowNext(i, n) == if i == n - 1 then 0 else i + 1
  {
    if i == n - 1 {
      SmallRem(0, 1, n);
    } else {
      SmallRem(i + 1, 0, n);
    }
  }

  lemma PrevStep(i: int, n: int)
    requires n > 0 && 0 <= i < n
    ensures ShowPrev(i, n) == if i == 0 then n - 1 else i - 1
  {
    if i == 0 {
      SmallRem(n - 1, 0, n);
    } else {
      SmallRem(i - 1, 1, n);
    }
  }

  /** `(r + q * n) % n == r` for a remainder already in range. */
  lemma SmallRem(r: int, q: int, n: int)
    requires n > 0 && 0 <= r < n && 0 <= q <= 1
    ensures (r + q * n) % n == r
  {
    if q == 1 {
      assert r + q * n == r + n;
      assert (r + n) / n == 1;
    } else {
      assert (r + q * n) / n == 0;
    }
  }

  // ------------------------------------------------------- word count

  /**
   * `text.replace(/<[^>]*>/g, "")`: from each `<` that has a `>` after it,
   * everything up to and including the first such `>` is removed.
   */
  function StripTags(s: string): (r: string)
    ensures |r| <= |s|
    ensures forall c :: c in r ==> c in s
    decreases |s|
  {
    if s == [] then []
    else if s[0] == '<' && IndexOf(s, ">").Some? then StripTags(s[IndexOf(s, ">").value + 1..])
    else [s[0]] + StripTags(s[1..])
  }

  /** No `<` is followed, anywhere later, by a `>`. */
  predicate TagFree(s: string) {
    forall i, j :: 0 <= i < j < |s| && s[i] == '<' ==> s[j] != '>'
  }

  /** Text without `<` passes through unchanged, and what remains holds no complete tag. */
  lemma {:induction false} StripTagsRemovesTags(s: string)
    ensures '<' !in s ==> StripTags(s) == s
    ensures TagFree(StripTags(s))
    decreases |s|
  {
    if s != [] {
      if s[0] == '<' && IndexOf(s, ">").Some? {
        StripTagsRemovesTags(s[IndexOf(s, ">").value + 1..]);
      } else {
        StripTagsRemovesTags(s[1..]);
        var rest := StripTags(s[1..]);
        var r := StripTags(s);
        assert r == [s[0]] + rest;
        if '<' !in s {
          assert '<' !in s[1..];
        }
        if s[0] == '<' {
          // no `>` anywhere in `s`, so none survives into `rest`
          forall j | 0 <= j < |s| ensures s[j] != '>' {
            assert !OccursAt(s, ">", j);
            assert s[j..j + 1] == [s[j]];
          }
          assert '>' !in s[1..];
          assert '>' !in rest;
        }
        forall i, j | 0 <= i < j < |r| && r[i] == '<' ensures r[j] != '>' {
          assert r[j] == rest[j - 1];
          if i > 0 {
            assert r[i] == rest[i - 1];
          } else {
            assert r[j] in rest;
          }
        }
      }
    }
  }

  /**
   * `t.split(/\s+/)` with the piece being built in `cur`: a run of white
   * space ends the piece and the next one starts after the run.
   */
  function SplitFrom(t: string, cur: string): (pieces: seq<string>)
    ensures |pieces| >= 1
    decreases |t|
  {
    if t == [] then [cur]
    else if IsSpace(t[0]) then [cur] + SplitFrom(TrimStart(t), "")
    else SplitFrom(t[1..], cur + [t[0]])
  }

  /** `countWords`: strip the tags, trim, split on white space and count the pieces. */
  function CountWords(text: string): nat {
    |SplitFrom(Trim(StripTags(text)), "")|
  }

  /** The characters of `s` that are not white space, in order. */
  function NonSpace(s: string): string {
    if s == [] then [] else (if IsSpace(s[0]) then [] else [s[0]]) + NonSpace(s[1..])
  }

  function Concat(pieces: seq<string>): string {
    if pieces == [] then [] else pieces[0] + Concat(pieces[1..])
  }

  predicate IsWord(w: string) {
    w != [] && forall i :: 0 <= i < |w| ==> !IsSpace(w[i])
  }

  lemma {:induction false} NonSpaceOfTrimStart(s: string)
    ensures NonSpace(TrimStart(s)) == NonSpace(s)
    decreases |s|
  {
    if s != [] && IsSpace(s[0]) {
      NonSpaceOfTrimStart(s[1..]);
    }
  }

  lemma ConcatCons(x: string, rest: seq<string>)
    ensures Concat([x] + rest) == x + Concat(rest)
  {
    assert ([x] + rest)[1..] == rest;
  }

  /** Skipping leading white space keeps the last character and leaves a non-space first one. */
  lemma {:induction false} TrimStartOfSpaced(t: string)
    requires t != [] && !IsSpace(t[|t| - 1])
    ensures TrimStart(t) != [] && !IsSpace(TrimStart(t)[0])
    ensures TrimStart(t)[|TrimStart(t)| - 1] == t[|t| - 1]
  {
  }

  /** Each piece the split yields is a non-empty run of non-space characters. */
  lemma {:induction false} SplitGivesWords(t: string, cur: string)
    requires forall i :: 0 <= i < |cur| ==> !IsSpace(cur[i])
    requires cur != [] || (t != [] && !IsSpace(t[0]))
    requires t != [] ==> !IsSpace(t[|t| - 1])
    ensures forall k :: 0 <= k < |SplitFrom(t, cur)| ==> IsWord(SplitFrom(t, cur)[k])
    decreases |t|
  {
    if t != [] && IsSpace(t[0]) {
      var u := TrimStart(t);
      TrimStartOfSpaced(t);
      SplitGivesWords(u, "");
      var rest := SplitFrom(u, "");
      assert SplitFrom(t, cur) == [cur] + rest;
      assert IsWord(cur);
      forall k | 0 <= k < |[cur] + rest| ensures IsWord(([cur] + rest)[k]) {
        if k > 0 {
          assert ([cur] + rest)[k] == rest[k - 1];
        }
      }
    } else if t != [] {
      var next := cur + [t[0]];
      assert forall i :: 0 <= i < |next| ==> !IsSpace(next[i]);
      SplitGivesWords(t[1..], next);
      assert SplitFrom(t, cur) == SplitFrom(t[1..], next);
    }
  }

  /** Joined back together, the pieces hold exactly the non-space characters, in order. */
  lemma {:induction false} SplitKeepsNonSpace(t: string, cur: string)
    requires t != [] ==> !IsSpace(t[|t| - 1])
    ensures Concat(SplitFrom(t, cur)) == cur + NonSpace(t)
    decreases |t|
  {
    if t == [] {
      ConcatCons(cur, []);
    } else if IsSpace(t[0]) {
      TrimStartOfSpaced(t);
      SplitKeepsNonSpace(TrimStart(t), "");
      ConcatAtSpace(t, cur);
      NonSpaceOfTrimStart(t);
      assert "" + NonSpace(TrimStart(t)) == NonSpace(t);
    } else {
      SplitKeepsNonSpace(t[1..], cur + [t[0]]);
      NonSpaceAtWord(t, cur);
      assert Concat(SplitFrom(t, cur)) == Concat(SplitFrom(t[1..], cur + [t[0]]));
    }
  }

  lemma ConcatAtSpace(t: string, cur: string)
    requires t != [] && IsSpace(t[0])
    ensures Concat(SplitFrom(t, cur)) == cur + Concat(SplitFrom(TrimStart(t), ""))
  {
    assert SplitFrom(t, cur) == [cur] + SplitFrom(TrimStart(t), "");
    ConcatCons(cur, SplitFrom(TrimStart(t), ""));
  }

  lemma NonSpaceAtWord(t: string, cur: string)
    requires t != [] && !IsSpace(t[0])
    ensures cur + NonSpace(t) == (cur + [t[0]]) + NonSpace(t[1..])
  {
    assert NonSpace(t) == [t[0]] + NonSpace(t[1..]);
  }



  /**
   * The number of words of `s` counted independently of the split: the
   * positions holding a non-space character that opens the string or follows
   * white space. `afterSpace` says whether the character before `s` was white
   * space (or there was none).
   */
  function WordStarts(s: string, afterSpace: bool): nat {
    if s == [] then 0
    else (if afterSpace && !IsSpace(s[0]) then 1 else 0) + WordStarts(s[1..], IsSpace(s[0]))
  }

  /** The whitespace-separated words of `s`. */
  function WordsIn(s: string): nat {
    WordStarts(s, true)
  }

  /** Leading white space opens no word. */
  lemma {:induction false} WordStartsTrimStart(s: string)
    ensures WordStarts(TrimStart(s), true) == WordStarts(s, true)
    decreases |s|
  {
    if s != [] && IsSpace(s[0]) {
      WordStartsTrimStart(s[1..]);
    }
  }

  /** A trailing white-space character opens no word. */
  lemma {:induction false} WordStartsSnocSpace(s: string, c: char, b: bool)
    requires IsSpace(c)
    ensures WordStarts(s + [c], b) == WordStarts(s, b)
    decreases |s|
  {
    if s == [] {
      assert [] + [c] == [c];
      assert [c][1..] == [];
    } else {
      assert (s + [c])[1..] == s[1..] + [c];
      WordStartsSnocSpace(s[1..], c, IsSpace(s[0]));
    }
  }

  /** Trailing white space opens no word. */
  lemma {:induction false} WordStartsTrimEnd(s: string, b: bool)
    ensures WordStarts(TrimEnd(s), b) == WordStarts(s, b)
    decreases |s|
  {
    if s != [] && IsSpace(s[|s| - 1]) {
      var init := s[..|s| - 1];
      assert s == init + [s[|s| - 1]];
      WordStartsSnocSpace(init, s[|s| - 1], b);
      WordStartsTrimEnd(init, b);
    }
  }

  /** Trimming keeps the words. */
  lemma WordsInTrim(s: string)
    ensures WordsIn(Trim(s)) == WordsIn(s)
  {
    WordStartsTrimStart(s);
    WordStartsTrimEnd(TrimStart(s), true);
  }

  /**
   * Splitting text that ends in a non-space character yields one piece more
   * than there are word starts after its first character.
   */
  lemma {:induction false} SplitCountsStarts(t: string, cur: string)
    requires t != [] ==> !IsSpace(t[|t| - 1])
    ensures |SplitFrom(t, cur)| == 1 + WordStarts(t, false)
    decreases |t|
  {
    if t != [] && IsSpace(t[0]) {
      var u := TrimStart(t);
      TrimStartOfSpaced(t);
      SplitCountsStarts(u, "");
      assert |SplitFrom(t, cur)| == 1 + |SplitFrom(u, "")|;
      WordStartsTrimStart(t[1..]);
      assert TrimStart(t[1..]) == u;
      assert WordStarts(t, false) == WordStarts(u, true);
      assert WordStarts(u, true) == 1 + WordStarts(u[1..], IsSpace(u[0]));
    } else if t != [] {
      SplitCountsStarts(t[1..], cur + [t[0]]);
    }
  }

  /**
   * The count is exactly the number of whitespace-separated words of the
   * tag-free text, except that blank text, which has no words, still counts
   * as one (splitting the empty string gives one empty piece). The pieces
   * counted are those words: each non-empty without white space, together
   * holding every other character of the text in order.
   */
  lemma CountWordsCountsWords(text: string)
    ensures !IsBlank(StripTags(text)) ==> CountWords(text) == WordsIn(StripTags(text)) >= 1
    ensures IsBlank(StripTags(text)) ==> CountWords(text) == 1 && WordsIn(StripTags(text)) == 0
    ensures !IsBlank(StripTags(text)) ==>
              var pieces := SplitFrom(Trim(StripTags(text)), "");
              (forall k :: 0 <= k < |pieces| ==> IsWord(pieces[k]))
              && Concat(pieces) == NonSpace(Trim(StripTags(text)))
  {
    var t := Trim(StripTags(text));
    WordsInTrim(StripTags(text));
    if t != [] {
      TrimIsTrimmedSlice(StripTags(text));
      SplitGivesWords(t, "");
      SplitKeepsNonSpace(t, "");
      SplitCountsStarts(t, "");
      assert WordStarts(t, true) == 1 + WordStarts(t[1..], false);
      assert WordStarts(t, false) == WordStarts(t[1..], false);
    }
  }

  // ------------------------------------------------------- card excerpt

  /** `fullText.split("</p>")[0].replace("<p>", "") + "..."` */
  function GetShortText(fullText: string): string {
    RemoveFirst(BeforeFirst(fullText, "</p>"), "<p>") + "..."
  }

  /**
   * The excerpt is the text before the first closing paragraph tag, less the
   * first opening one, followed by "...": text with neither tag comes back
   * whole, and the excerpt is never longer than that text plus three.
   */
  lemma ShortTextIsFirstParagraph(fullText: string)
    ensures var head := BeforeFirst(fullText, "</p>");
      && head == fullText[..|head|]
      && (forall j :: 0 <= j < |head| ==> !OccursAt(head, "</p>", j))
      && (|head| < |fullText| ==> OccursAt(fullText, "</p>", |head|))
      && GetShortText(fullText) == RemoveFirst(head, "<p>") + "..."
      && |GetShortText(fullText)| <= |fullText| + 3
    ensures IndexOf(fullText, "</p>").None? && IndexOf(fullText, "<p>").None? ==>
              GetShortText(fullText) == fullText + "..."
  {
    BeforeFirstIsHead(fullText, "</p>");
    RemoveFirstShortens(BeforeFirst(fullText, "</p>"), "<p>");
    if IndexOf(fullText, "</p>").None? && IndexOf(fullText, "<p>").None? {
      assert BeforeFirst(fullText, "</p>") == fullText;
    }
  }

  /** `s.split(p)[0]` is the longest prefix of `s` holding no `p`, and `p` follows it when it is not all of `s`. */
  lemma BeforeFirstIsHead(s: string, p: string)
    requires p != []
    ensures var head := BeforeFirst(s, p);
      && |head| <= |s| && head == s[..|head|]
      && (forall j :: 0 <= j < |head| ==> !OccursAt(head, p, j))
      && (|head| < |s| ==> OccursAt(s, p, |head|))
  {
    var head := BeforeFirst(s, p);
    forall j | 0 <= j < |head| ensures !OccursAt(head, p, j) {
      if OccursAt(head, p, j) {
        assert head[j..j + |p|] == s[j..j + |p|];
        assert OccursAt(s, p, j);
        assert false;
      }
    }
  }

  lemma RemoveFirstShortens(s: string, p: string)
    ensures |RemoveFirst(s, p)| <= |s|
    ensures IndexOf(s, p).None? ==> RemoveFirst(s, p) == s
  {
  }

  // ------------------------------------------------------- the page

  datatype ResearchItem = ResearchItem(title: string, source: string, url: string, excerpt: string)

  datatype ReviewData = ReviewData(
    doctorName: string,
    doctorImg: string,
    reviewTitle: string,
    reviewText: string,
    research: seq<ResearchItem>,
    prompt: string)

  /** The simulated text up to the quoted instructions. */
  const EditedIntro := "<p>Updated review content with approximately "
  const EditedMiddle := " words...</p><p>This would be the AI-generated content based on your editing instructions: \""

  function EditedHead(wordCount: nat): string {
    EditedIntro + NatToString(wordCount) + EditedMiddle
  }

  const ClosingQuote := "\"</p>"

  /** The simulated regeneration: the same review with only its text replaced. */
  function EditedReview(review: ReviewData, wordCount: nat, instructions: string): (r: ReviewData)
    ensures r.(reviewText := review.reviewText) == review
    ensures |r.reviewText| >= |instructions| + 5
    ensures r.reviewText[|r.reviewText| - |instructions| - 5..] == instructions + "\"</p>"
  {
    var head := EditedHead(wordCount);
    var text := head + instructions + ClosingQuote;
    assert text[|head|..] == instructions + ClosingQuote;
    review.(reviewText := text)
  }

  /** The dialogs that have a close control of their own. */
  datatype Dialog = AcceptDialog | RejectDialog | RejectSuccessDialog | EditDialog | EditSuccessDialog

  class ReviewResultsState {
    const reviews: seq<ReviewData>     // the review list the page shows
    var currentIndex: int
    var isModalOpen: bool
    var isAcceptModalOpen: bool
    var isRejectModalOpen: bool
    var isRejectSuccessModalOpen: bool
    var isEditModalOpen: bool
    var isEditSuccessModalOpen: bool
    var selectedReview: Option<ReviewData>
    var currentEditingIndex: int
    var selectedWordCount: nat
    var editInstructions: string
    var updatedReviewData: Option<ReviewData>

    constructor (reviews: seq<ReviewData>)
      requires reviews != []
      ensures this.reviews == reviews && currentIndex == 0
      ensures !isModalOpen && !isAcceptModalOpen && !isRejectModalOpen
      ensures !isRejectSuccessModalOpen && !isEditModalOpen && !isEditSuccessModalOpen
      ensures selectedReview == None && currentEditingIndex == -1 && selectedWordCount == 100
      ensures editInstructions == "" && updatedReviewData == None
      ensures Valid()
    {
      this.reviews := reviews;
      currentIndex := 0;
      isModalOpen := false;
      isAcceptModalOpen := false;
      isRejectModalOpen := false;
      isRejectSuccessModalOpen := false;
      isEditModalOpen := false;
      isEditSuccessModalOpen := false;
      selectedReview := None;
      currentEditingIndex := -1;
      selectedWordCount := 100;
      editInstructions := "";
      updatedReviewData := None;
    }

    /** The carousel index always names a review. */
    ghost predicate Valid()
      reads this
    {
      reviews != [] && 0 <= currentIndex < |reviews|
    }

    method Next()
      requires Valid()
      modifies this
      ensures Valid()
      ensures currentIndex == ShowNext(old(currentIndex), |reviews|)
      ensures selectedReview == old(selectedReview) && isModalOpen == old(isModalOpen)
      ensures isAcceptModalOpen == old(isAcceptModalOpen) && isRejectModalOpen == old(isRejectModalOpen)
      ensures isRejectSuccessModalOpen == old(isRejectSuccessModalOpen)
      ensures isEditModalOpen == old(isEditModalOpen) && isEditSuccessModalOpen == old(isEditSuccessModalOpen)
      ensures currentEditingIndex == old(currentEditingIndex)
      ensures editInstructions == old(editInstructions) && updatedReviewData == old(updatedReviewData)
      ensures selectedWordCount == old(selectedWordCount)
    {
      CarouselWraps(currentIndex, |reviews|);
      currentIndex := ShowNext(currentIndex, |reviews|);
    }

    method Prev()
      requires Valid()
      modifies this
      ensures Valid()
      ensures currentIndex == ShowPrev(old(currentIndex), |reviews|)
      ensures selectedReview == old(selectedReview) && isModalOpen == old(isModalOpen)
      ensures isAcceptModalOpen == old(isAcceptModalOpen) && isRejectModalOpen == old(isRejectModalOpen)
      ensures isRejectSuccessModalOpen == old(isRejectSuccessModalOpen)
      ensures isEditModalOpen == old(isEditModalOpen) && isEditSuccessModalOpen == old(isEditSuccessModalOpen)
      ensures currentEditingIndex == old(currentEditingIndex)
      ensures editInstructions == old(editInstructions) && updatedReviewData == old(updatedReviewData)
      ensures selectedWordCount == old(selectedWordCount)
    {
      CarouselWraps(currentIndex, |reviews|);
      currentIndex := ShowPrev(currentIndex, |reviews|);
    }

    method OpenModal(index: nat)
      requires Valid() && index < |reviews|
      modifies this
      ensures Valid()
      ensures selectedReview == Some(reviews[index]) && isModalOpen
      ensures currentIndex == old(currentIndex) && currentEditingIndex == old(currentEditingIndex)
      ensures isAcceptModalOpen == old(isAcceptModalOpen) && isRejectModalOpen == old(isRejectModalOpen)
      ensures isRejectSuccessModalOpen == old(isRejectSuccessModalOpen)
      ensures isEditModalOpen == old(isEditModalOpen) && isEditSuccessModalOpen == old(isEditSuccessModalOpen)
      ensures editInstructions == old(editInstructions) && updatedReviewData == old(updatedReviewData)
      ensures selectedWordCount == old(selectedWordCount)
    {
      selectedReview := Some(reviews[index]);
      isModalOpen := true;
    }

    method CloseModal()
      requires Valid()
      modifies this
      ensures Valid()
      ensures selectedReview == None && !isModalOpen
      ensures currentIndex == old(currentIndex) && currentEditingIndex == old(currentEditingIndex)
      ensures isAcceptModalOpen == old(isAcceptModalOpen) && isRejectModalOpen == old(isRejectModalOpen)
      ensures isRejectSuccessModalOpen == old(isRejectSuccessModalOpen)
      ensures isEditModalOpen == old(isEditModalOpen) && isEditSuccessModalOpen == old(isEditSuccessModalOpen)
      ensures editInstructions == old(editInstructions) && updatedReviewData == old(updatedReviewData)
      ensures selectedWordCount == old(selectedWordCount)
    {
      isModalOpen := false;
      selectedReview := None;
    }

    method AcceptReview(index: nat)
      requires Valid() && index < |reviews|
      modifies this
      ensures Valid()
      ensures selectedReview == Some(reviews[index]) && isAcceptModalOpen
      ensures currentIndex == old(currentIndex) && isModalOpen == old(isModalOpen)
      ensures isRejectModalOpen == old(isRejectModalOpen) && isRejectSuccessModalOpen == old(isRejectSuccessModalOpen)
      ensures isEditModalOpen == old(isEditModalOpen) && isEditSuccessModalOpen == old(isEditSuccessModalOpen)
      ensures currentEditingIndex == old(currentEditingIndex)
      ensures editInstructions == old(editInstructions) && updatedReviewData == old(updatedReviewData)
      ensures selectedWordCount == old(selectedWordCount)
    {
      selectedReview := Some(reviews[index]);
      isAcceptModalOpen := true;
    }

    method RejectReview(index: nat)
      requires Valid() && index < |reviews|
      modifies this
      ensures Valid()
      ensures selectedReview == Some(reviews[index]) && isRejectModalOpen
      ensures currentIndex == old(currentIndex) && isModalOpen == old(isModalOpen)
      ensures isAcceptModalOpen == old(isAcceptModalOpen) && isRejectSuccessModalOpen == old(isRejectSuccessModalOpen)
      ensures isEditModalOpen == old(isEditModalOpen) && isEditSuccessModalOpen == old(isEditSuccessModalOpen)
      ensures currentEditingIndex == old(currentEditingIndex)
      ensures editInstructions == old(editInstructions) && updatedReviewData == old(updatedReviewData)
      ensures selectedWordCount == old(selectedWordCount)
    {
      selectedReview := Some(reviews[index]);
      isRejectModalOpen := true;
    }

    method EditReview(index: nat)
      requires Valid() && index < |reviews|
      modifies this
      ensures Valid()
      ensures currentEditingIndex == index && selectedReview == Some(reviews[index]) && isEditModalOpen
      ensures currentIndex == old(currentIndex) && isModalOpen == old(isModalOpen)
      ensures isAcceptModalOpen == old(isAcceptModalOpen) && isRejectModalOpen == old(isRejectModalOpen)
      ensures isRejectSuccessModalOpen == old(isRejectSuccessModalOpen) && isEditSuccessModalOpen == old(isEditSuccessModalOpen)
      ensures editInstructions == old(editInstructions) && updatedReviewData == old(updatedReviewData)
      ensures selectedWordCount == old(selectedWordCount)
    {
      currentEditingIndex := index;
      selectedReview := Some(reviews[index]);
      isEditModalOpen := true;
    }

    /** The rejection form closes and its success dialog opens; nothing else changes. */
    method HandleRejectSubmit()
      requires Valid()
      modifies this
      ensures Valid()
      ensures !isRejectModalOpen && isRejectSuccessModalOpen
      ensures isModalOpen == old(isModalOpen) && isAcceptModalOpen == old(isAcceptModalOpen)
      ensures isEditModalOpen == old(isEditModalOpen) && isEditSuccessModalOpen == old(isEditSuccessModalOpen)
      ensures selectedReview == old(selectedReview) && currentIndex == old(currentIndex)
      ensures currentEditingIndex == old(currentEditingIndex) && updatedReviewData == old(updatedReviewData)
      ensures editInstructions == old(editInstructions) && selectedWordCount == old(selectedWordCount)
    {
      isRejectModalOpen := false;
      isRejectSuccessModalOpen := true;
    }

    /**
     * The edit form produces the review being edited with only its text
     * regenerated, closes, and opens its success dialog.
     */
    method HandleEditSubmit()
      requires Valid() && 0 <= currentEditingIndex < |reviews|
      modifies this
      ensures Valid()
      ensures currentEditingIndex == old(currentEditingIndex) && editInstructions == old(editInstructions)
      ensures updatedReviewData == Some(EditedReview(reviews[currentEditingIndex], selectedWordCount, editInstructions))
      ensures !isEditModalOpen && isEditSuccessModalOpen
      ensures isModalOpen == old(isModalOpen) && isAcceptModalOpen == old(isAcceptModalOpen)
      ensures isRejectModalOpen == old(isRejectModalOpen) && isRejectSuccessModalOpen == old(isRejectSuccessModalOpen)
      ensures selectedReview == old(selectedReview) && currentIndex == old(currentIndex)
      ensures selectedWordCount == old(selectedWordCount)
    {
      var currentReview := reviews[currentEditingIndex];
      updatedReviewData := Some(EditedReview(currentReview, selectedWordCount, editInstructions));
      isEditModalOpen := false;
      isEditSuccessModalOpen := true;
    }

    /** The edit form's textarea: the instructions follow what is typed. */
    method ChangeInstructions(text: string)
      requires Valid()
      modifies this
      ensures Valid()
      ensures editInstructions == text
      ensures currentIndex == old(currentIndex) && selectedReview == old(selectedReview)
      ensures isModalOpen == old(isModalOpen) && isAcceptModalOpen == old(isAcceptModalOpen)
      ensures isRejectModalOpen == old(isRejectModalOpen) && isRejectSuccessModalOpen == old(isRejectSuccessModalOpen)
      ensures isEditModalOpen == old(isEditModalOpen) && isEditSuccessModalOpen == old(isEditSuccessModalOpen)
      ensures currentEditingIndex == old(currentEditingIndex) && selectedWordCount == old(selectedWordCount)
      ensures updatedReviewData == old(updatedReviewData)
    {
      editInstructions := text;
    }

    /** A target word-count button: that count becomes the selected one. */
    method SelectWordCount(count: nat)
      requires Valid()
      modifies this
      ensures Valid()
      ensures selectedWordCount == count
      ensures currentIndex == old(currentIndex) && selectedReview == old(selectedReview)
      ensures isModalOpen == old(isModalOpen) && isAcceptModalOpen == old(isAcceptModalOpen)
      ensures isRejectModalOpen == old(isRejectModalOpen) && isRejectSuccessModalOpen == old(isRejectSuccessModalOpen)
      ensures isEditModalOpen == old(isEditModalOpen) && isEditSuccessModalOpen == old(isEditSuccessModalOpen)
      ensures currentEditingIndex == old(currentEditingIndex) && editInstructions == old(editInstructions)
      ensures updatedReviewData == old(updatedReviewData)
    {
      selectedWordCount := count;
    }

    /**
     * A single dialog's close control (its overlay, its close button or its
     * cancel button): that dialog closes; the selection, the edit state and
     * every other dialog stay as they were.
     */
    method CloseDialog(dialog: Dialog)
      requires Valid()
      modifies this
      ensures Valid()
      ensures isAcceptModalOpen == (dialog != AcceptDialog && old(isAcceptModalOpen))
      ensures isRejectModalOpen == (dialog != RejectDialog && old(isRejectModalOpen))
      ensures isRejectSuccessModalOpen == (dialog != RejectSuccessDialog && old(isRejectSuccessModalOpen))
      ensures isEditModalOpen == (dialog != EditDialog && old(isEditModalOpen))
      ensures isEditSuccessModalOpen == (dialog != EditSuccessDialog && old(isEditSuccessModalOpen))
      ensures isModalOpen == old(isModalOpen) && currentIndex == old(currentIndex)
      ensures selectedReview == old(selectedReview) && currentEditingIndex == old(currentEditingIndex)
      ensures selectedWordCount == old(selectedWordCount) && editInstructions == old(editInstructions)
      ensures updatedReviewData == old(updatedReviewData)
    {
      match dialog
      case AcceptDialog => isAcceptModalOpen := false;
      case RejectDialog => isRejectModalOpen := false;
      case RejectSuccessDialog => isRejectSuccessModalOpen := false;
      case EditDialog => isEditModalOpen := false;
      case EditSuccessDialog => isEditSuccessModalOpen := false;
    }

    /** Every dialog closed and the selection and edit state cleared; the carousel stays put. */
    method CloseAllModals()
      requires Valid()
      modifies this
      ensures Valid()
      ensures !isModalOpen && !isAcceptModalOpen && !isRejectModalOpen
      ensures !isRejectSuccessModalOpen && !isEditModalOpen && !isEditSuccessModalOpen
      ensures selectedReview == None && currentEditingIndex == -1
      ensures editInstructions == "" && updatedReviewData == None
      ensures currentIndex == old(currentIndex) && selectedWordCount == old(selectedWordCount)
    {
      isModalOpen := false;
      isAcceptModalOpen := false;
      isRejectModalOpen := false;
      isRejectSuccessModalOpen := false;
      isEditModalOpen := false;
      isEditSuccessModalOpen := false;
      selectedReview := None;
      currentEditingIndex := -1;
      editInstructions := "";
      updatedReviewData := None;
    }
  }

  /**
   * The edit dialog end to end: open it on review `index`, pick a word count,
   * type the instructions and submit; the success dialog shows the edited
   * copy of that review, carrying the chosen count and the typed text.
   */
  method EditRoundTrip(page: ReviewResultsState, index: nat, count: nat, instructions: string)
    requires page.Valid() && index < |page.reviews|
    modifies page
    ensures page.Valid()
    ensures page.updatedReviewData == Some(EditedReview(page.reviews[index], count, instructions))
    ensures page.isEditSuccessModalOpen && !page.isEditModalOpen
  {
    page.EditReview(index);
    page.SelectWordCount(count);
    page.ChangeInstructions(instructions);
    page.HandleEditSubmit();
  }
}

=== FILE: routes.dfy ===
/** The navigation targets the workflow chooses between, with their query parameters. */
module Routes {
  import opened JsText

  datatype Route =
    /** `/processing?url=…[&productId=…]` */
    | ProcessingRoute(url: string, newProductId: Option<string>)
    /** `/processing-failed?[url=…&]error=…` and the draft link `/processing-failed?productId=…` */
    | FailedRoute(failedUrl: Option<string>, error: Option<string>, draftId: Option<string>)
    /** `/processing-success?[url=…&]productId=…` */
    | SuccessRoute(successUrl: Option<string>, productId: string)
    /** `/product-home` */
    | ProductHomeRoute
}

=== FILE: sequences.dfy ===
/** Order-preserving selection from a list, shared by the list filters of the pages. */
module Sequences {

  /** `a` is `b` with some entries left out and the rest in their order. */
  ghost predicate SubsequenceOf<T>(a: seq<T>, b: seq<T>)
    decreases |b|
  {
    a == [] || (b != [] && ((a[0] == b[0] && SubsequenceOf(a[1..], b[1..])) || SubsequenceOf(a, b[1..])))
  }
}

=== FILE: session_store.dfy ===
/**
 * The browser session storage, reduced to what the workflow keeps in it: the
 * JSON array of pending product ids under `processingProductIds`. JSON
 * parsing is abstract: an entry either decodes to an array of ids or does not.
 */
module SessionStore {

  const PendingKey := "processingProductIds"

  /** A stored string as `JSON.parse` sees it. */
  datatype Stored = IdList(ids: seq<string>) | NotIdList(raw: string)

  /** `sessionStorage`: one shared object whose entries the pages read and write. */
  class SessionStorage {
    var entries: map<string, Stored>

    constructor ()
      ensures entries == map[]
    {
      entries := map[];
    }
  }

  /**
   * Reading the pending ids: a missing key, or a value that does not parse as an
   * id array, reads as the empty list.
   */
  function ReadPendingIds(entries: map<string, Stored>): (ids: seq<string>)
    ensures PendingKey !in entries ==> ids == []
    ensures PendingKey in entries && entries[PendingKey].NotIdList? ==> ids == []
    ensures ids != [] ==> PendingKey in entries && entries[PendingKey] == IdList(ids)
  {
    if PendingKey in entries && entries[PendingKey].IdList? then entries[PendingKey].ids else []
  }

  /**
   * Writing the pending ids: a non-empty list is stored under the key, an empty
   * one removes the key; the value read back is the list written, and no other
   * key changes.
   */
  function WritePendingIds(entries: map<string, Stored>, ids: seq<string>): (r: map<string, Stored>)
    ensures ReadPendingIds(r) == ids
    ensures PendingKey in r <==> ids != []
    ensures forall k :: k != PendingKey ==> (k in r <==> k in entries)
    ensures forall k :: k != PendingKey && k in r ==> r[k] == entries[k]
  {
    if |ids| > 0 then entries[PendingKey := IdList(ids)] else entries - {PendingKey}
  }

  /** No id is listed twice. */
  predicate NoDuplicates(ids: seq<string>) {
    forall i, j :: 0 <= i < j < |ids| ==> ids[i] != ids[j]
  }
}

=== FILE: url_canonical.dfy ===
/**
 * The three ways the front end turns typed text into a product URL.
 * `formatUrl` (frontend/src/features/productInputv2/index.tsx) trims and adds
 * `https://` to anything not already starting with `http://` or `https://`.
 * The submit handlers of frontend/src/components/pages/ProductInput.tsx and
 * frontend/src/features/productInput/hooks/useProductInput.ts instead hand
 * the trimmed text to the `URL` constructor, reject what it cannot parse, and
 * prefix `https://` only when the parsed protocol does not start with "http".
 * The parser itself is abstract: the callers receive its protocol, or `None`
 * when it throws.
 */
module UrlCanonical {
  import opened JsText

  const HttpsPrefix := "https://"

  /** The regular expression `^https?:\/\/`. */
  predicate HasHttpScheme(s: string) {
    StartsWith(s, "http://") || StartsWith(s, "https://")
  }

  /** `formatUrl`: the empty string stays empty; otherwise trim and make sure of a scheme. */
  function FormatUrl(raw: string): string {
    if raw == "" then ""
    else
      var t := Trim(raw);
      if HasHttpScheme(t) then t else HttpsPrefix + t
  }

  /**
   * `formatUrl` gives "" for "", and for any other input a trimmed string with
   * an `http://` or `https://` scheme: the trimmed input itself when it already
   * has one, else the trimmed input behind `https://`.
   */
  lemma FormatUrlShape(raw: string)
    ensures raw == "" ==> FormatUrl(raw) == ""
    ensures raw != "" ==> HasHttpScheme(FormatUrl(raw)) && IsTrimmed(FormatUrl(raw))
    ensures raw != "" && HasHttpScheme(Trim(raw)) ==> FormatUrl(raw) == Trim(raw)
    ensures raw != "" && !HasHttpScheme(Trim(raw)) ==> FormatUrl(raw) == HttpsPrefix + Trim(raw)
  {
    if raw != "" {
      var t := Trim(raw);
      TrimIsTrimmedSlice(raw);
      if !HasHttpScheme(t) {
        PrefixedIsSchemed(t);
      }
    }
  }

  /** Putting `https://` in front of trimmed text gives trimmed text with a scheme. */
  lemma PrefixedIsSchemed(t: string)
    requires IsTrimmed(t)
    ensures HasHttpScheme(HttpsPrefix + t) && IsTrimmed(HttpsPrefix + t)
  {
    var r := HttpsPrefix + t;
    assert r[..8] == HttpsPrefix;
    assert StartsWith(r, "https://");
    assert r[0] == 'h';
    if t != [] {
      assert r[|r| - 1] == t[|t| - 1];
    } else {
      assert r[|r| - 1] == '/';
    }
  }

  /** Formatting an already formatted URL changes nothing. */
  lemma FormatUrlIdempotent(raw: string)
    ensures FormatUrl(FormatUrl(raw)) == FormatUrl(raw)
  {
    FormatUrlShape(raw);
    var r := FormatUrl(raw);
    if r != "" {
      TrimStartOfTrimmed(r);
      TrimEndOfTrimmed(r);
      assert Trim(r) == r;
    }
  }

  /**
   * The `URL`-based variants, once the trimmed text has parsed: keep it when
   * the parsed protocol starts with "http", otherwise put `https://` in front.
   */
  function WithHttpScheme(validated: string, protocol: string): string {
    if StartsWith(protocol, "http") then validated else HttpsPrefix + validated
  }

  /**
   * The `URL`-based variants never drop or change what was typed: the result
   * is the parsed text itself exactly when the protocol starts with "http",
   * and otherwise that text behind `https://`.
   */
  lemma WithHttpSchemeShape(validated: string, protocol: string)
    ensures WithHttpScheme(validated, protocol) == validated <==> StartsWith(protocol, "http")
    ensures !StartsWith(protocol, "http") ==> WithHttpScheme(validated, protocol) == HttpsPrefix + validated
    ensures |WithHttpScheme(validated, protocol)| >= |validated|
  {
  }

  /**
   * Only `formatUrl` adds a scheme to a bare host such as "www.example.com";
   * the other two variants keep any text the parser rejects away from the
   * request. A non-empty blank input formats to the bare `https://`.
   */
  lemma FormatUrlAddsSchemeToBareHost(raw: string)
    ensures raw != "" && IsTrimmed(raw) && raw[0] != 'h' ==> FormatUrl(raw) == HttpsPrefix + raw
    ensures raw != "" && IsBlank(raw) ==> FormatUrl(raw) == HttpsPrefix
  {
    if raw != "" && IsTrimmed(raw) {
      TrimStartOfTrimmed(raw);
      TrimEndOfTrimmed(raw);
    }
  }
}
